=== FILE: README.md ===
# Ventilator security dashboard — a Dafny model of its core

The dashboard compares the security and energy profiles of two ventilators,
Philips and Dräger. Each profile is a 5 x 5 x 5 "Rubik's cube" of activation
cells. A cell is addressed by the key `"x,y,z"` with each coordinate in [-2,2]
and holds a record `{ value, subsystem?, property?, level? }`. This project
models the parts of the program that build, store, edit and interpret that
grid, and the parts that turn a ventilator's technical specification into
assurance requirements:

- **Cube** (`cube.dfy`): coordinates, keys and grids. Keys are injective and
  read back as their triple. The domain has exactly 125 cells.
  `Fill` builds the grid the nested loops build.
- **CubeClient** (`cube_client.dfy`): the front end's cube component.
  - The load chain: server payload, then the bundled JSON, then the demo
    pattern.
  - The cleaning pass run on every loaded grid.
  - How a cell is shown.
  - The Save, Quick Apply, click and Reset handlers.
  - The detail cube drawn for a selected cell.
- **CubeServer** (`cube_server.dfy`): the Express server, on a file store
  modelled as a map from file names to contents.
  - Start-up seeding.
  - `POST /api/save`, and `GET /api/load` with its fallback chain.
  - The energy and security comparison routes.
- **SecurityUpdate** (`security_update.dfy`): the script that rewrites each
  vendor's file with its fixed security profile.
- **SpecParser** (`spec_parser.dfy`): the Python specification parser.
  - Keyword attribution and classification.
  - Gap notes and the summary.
  - Spreadsheet rows.
  - The cells of the characteristic x state x measure assurance array.
- **SetupWizard** (`setup_wizard.dfy`): the first-run wizard. It is a screen
  machine with the four questions as its steps, its add and remove handlers,
  and its completion callback.
- **SpecSheet** (`spec_sheet.dfy`): the parser screen of the front end.
  - The canned result it shows.
  - The flattening into spreadsheet rows.
  - The CSV export.
- Shared pieces:
  - **Base**: `Option` and `Result`.
  - **Text** (`text.dfy`): decimal text, JavaScript's `Number`, `parseInt` and
    `%`, `join` and `split`, lower-casing, Python's `strip`.
  - **Vocabulary** (`vocabulary.dfy`): the characteristics, levels and vendors.

Four behaviours of the code are easy to misread:

- The server stores a saved grid verbatim. It neither normalises values to
  {0,1} nor rejects out-of-range values; only the front end's cleaning pass
  normalises (`CubeServer.LoadAfterSave`, `CubeClient.Clean`).
- A vendor without its own file falls back to the legacy `cubeData.json`,
  not to the default vendor's file (`CubeServer.UnknownVendorReadsFallback`).
- The empty vendor name saves to one file and loads from another
  (`CubeServer.EmptyVendorDoesNotRoundTrip`).
- The parser never produces the information state "all", so the
  assurance-array state coordinate lies in [0,2], not [0,3]
  (`SpecParser.IaKeysInArray`).

## Model

| member | source | states |
|---|---|---|
| Text.NumberOfIntToString | client/src/components/RubiksCube.js:900 | `Number` reads the decimal text of any integer back as that integer |
| Text.ParseIntOfIntToString | client/src/components/RubiksCube.js:650 | `parseInt` reads the decimal text of any integer back as that integer |
| Text.ParseIntOfMagnitude | client/src/components/RubiksCube.js:650 | a text starting with its digits is read as its magnitude, and after a minus sign as the negative of it |
| Text.JsRemEven | server.js:39 | JavaScript's `x % 2 === 0` holds exactly when x is even, negative x included |
| Text.JsRemThree | server.js:41 | JavaScript's `x % 3 === 0` holds exactly when 3 divides x, negative x included |
| Text.SplitOfJoin | client/src/components/RubiksCube.js:715 | splitting a comma-joined list whose parts contain no comma gives the parts back |
| Text.JoinOfSplit | client/src/components/RubiksCube.js:900 | joining the pieces of a split with the separator gives back the text |
| Text.SplitAtSeparator | client/src/components/RubiksCube.js:900 | a text cut at its first separator splits into the part before it followed by the pieces of the rest |
| Text.Number | client/src/components/RubiksCube.js:900 | `Number` reads the empty text as 0, text that is neither signed nor all digits as NaN, and gives a negative number only for text that starts with a minus sign |
| Text.ParseInt | client/src/components/RubiksCube.js:650 | `parseInt` of text that starts with a non-zero digit is a non-negative number; a negative result needs a minus sign in the text |
| Text.JsRem | server.js:39-41 | `%` truncates toward zero: `a` is the truncated quotient times `b` plus the remainder, which lies in [0,b) for non-negative `a` and in (-b,0] for negative `a` |
| Text.Join | client/src/components/RubiksCube.js:715 | `join` begins with its first part; `Text.SplitOfJoin` states that `split` undoes it |
| Text.Split | client/src/components/RubiksCube.js:900 | `split` yields at least one part, and no part contains the separator |
| Text.UpperNeverOccursInLower | parse_ventilator_spec.py:98 | a word with a capital letter is never a substring of a lower-cased text |
| Text.Strip | parse_ventilator_spec.py:106 | a stripped text neither starts nor ends with white space |
| Text.StripCutsSpace | parse_ventilator_spec.py:116 | stripping only cuts a white-space prefix and a white-space suffix, and keeps the middle as it stands |
| Vocabulary.CharacteristicNamed | server.js:246-255 | a name denotes the characteristic with that display name, and every characteristic is found by its name |
| Vocabulary.LevelNamed | server.js:176-183 | a level name denotes the level with that name, and every level is found by its name |
| Cube.PositionOfKey | client/src/components/RubiksCube.js:900 | splitting a cell key at commas and reading each part gives back the triple |
| Cube.KeyInjective | client/src/components/RubiksCube.js:715 | distinct triples have distinct keys |
| Cube.CubeSize | server.js:30-46 | the grid domain has exactly 125 cells with 125 distinct keys |
| Cube.CoordIndexInverse | server.js:30-46 | each loop index in [0,125) names a cube cell whose index is that loop index |
| Cube.IndexCoordInverse | server.js:30-46 | each cube cell is reached at exactly its own loop index |
| Cube.Fill | server.js:30-46 | the triple loop yields exactly the 125 cube keys, each holding `{ value: f(x,y,z) }` |
| CubeClient.Shown | client/src/components/RubiksCube.js:720-722 | a cell shows as active exactly when it exists with a positive value |
| CubeClient.InfoValue | client/src/components/RubiksCube.js:183-214 | the info panel shows "Not set" exactly for a missing cell or value, and otherwise the shown activation |
| CubeClient.InfoAgreesWithCube | client/src/components/RubiksCube.js:183-214 | the info panel's "Active" agrees with the main cube's colouring |
| CubeClient.Clean | client/src/components/RubiksCube.js:597-605 | cleaning keeps exactly the keys with a comma, each reduced to `{ value: 0 or 1 }` |
| CubeClient.CleanKeepsShown | client/src/components/RubiksCube.js:597-605 | cleaning never changes what a cell key shows |
| CubeClient.CleanIdempotent | client/src/components/RubiksCube.js:549-557 | cleaning twice is cleaning once |
| CubeClient.CleanOfClean | client/src/components/RubiksCube.js:597-605 | a clean grid is a fixed point of cleaning |
| CubeClient.DemoGrid | client/src/components/RubiksCube.js:499-529 | the demo grid has all 125 keys and is clean |
| CubeClient.DemoGridPattern | client/src/components/RubiksCube.js:514-521 | the demo cells that are active: for Philips an even coordinate sum within Manhattan radius 3; otherwise the centre column and the four corner columns |
| CubeClient.DemoValuePattern | client/src/components/RubiksCube.js:514-521 | each demo value is 0 or 1, and 1 exactly under the vendor's pattern, with JavaScript's remainder read as an ordinary one |
| CubeClient.LoadLocal | client/src/components/RubiksCube.js:531-573 | the bundled file, cleaned, if that leaves a cell; otherwise the demo pattern; never an empty grid |
| CubeClient.LoadCubeData | client/src/components/RubiksCube.js:576-621 | the held grid is non-empty and clean, and comes from the first usable source of server, bundle and demo |
| CubeClient.ServerUsedOnlyWithCells | client/src/components/RubiksCube.js:585-595 | the server's answer is used only if it has a comma key; the demo is used only if the bundle has none |
| CubeClient.LoadOfCleanGrid | client/src/components/RubiksCube.js:576-621 | a clean non-empty grid served back is held unchanged |
| CubeClient.AcceptedValue | client/src/components/RubiksCube.js:650-652 | an edit is accepted exactly when `parseInt` reads 0 or 1 |
| CubeClient.SetCell | client/src/components/RubiksCube.js:653-655 | the edited grid differs from the old one at the selected key only |
| CubeClient.SaveCubieData | client/src/components/RubiksCube.js:648-666 | with a selection and an accepted value the cell is written, saved, and the selection cleared; a rejected value alerts; otherwise nothing changes |
| CubeClient.QuickApply | client/src/components/RubiksCube.js:668-691 | an empty field and a missing selection each raise their own alert; an accepted value is written and saved and the selection kept |
| CubeClient.EditChangesOnlySelected | client/src/components/RubiksCube.js:648-691 | an edit that changes the grid had an accepted value and changes no key but the selected one |
| CubeClient.EditKeepsClean | client/src/components/RubiksCube.js:648-691 | edits at cell keys keep the held grid clean |
| CubeClient.CleanCommutesWithSetCell | client/src/components/RubiksCube.js:597-605 | editing then cleaning is cleaning then editing |
| CubeClient.CubieClick | client/src/components/RubiksCube.js:635-646 | a click selects the key and fills the field with text that parses to the cell's shown value, or empties it for a missing value |
| CubeClient.ClickThenSave | client/src/components/RubiksCube.js:635-666 | clicking then saving rewrites the cell as its shown value alone; a cell without a value is untouched |
| CubeClient.ResetGrid | client/src/components/RubiksCube.js:742-759 | the reset grid has all 125 keys at value 0 |
| CubeClient.ResetCubeData | client/src/components/RubiksCube.js:742-759 | reset saves the zero grid it holds and clears the selection and both fields |
| CubeClient.ResetIsClean | client/src/components/RubiksCube.js:742-759 | the reset grid is clean and loads back unchanged |
| CubeClient.Binary | client/src/components/RubiksCube.js:549-557 | a loaded value is 1 exactly when it is present and positive, and 0 otherwise |
| CubeClient.PositionSeed | client/src/components/RubiksCube.js:900-902 | the seed exists exactly when the key has at least three parts and the first three read as numbers |
| CubeClient.PopupHash | client/src/components/RubiksCube.js:904-908 | for every cell of the detail cube, the hash less the seed lies in [111, 345] |
| CubeClient.PositionSeedOfKey | client/src/components/RubiksCube.js:900-902 | a selected cell's seed is 100x + 10y + z of its coordinates |
| CubeClient.PopupValueAsWritten | client/src/components/RubiksCube.js:908-909 | the detail value is 0 or 1 for a non-negative hash and -1 exactly for a negative odd hash |
| CubeClient.PopupBinaryForLargeSeeds | client/src/components/RubiksCube.js:908-909 | seeds of at least -111 keep every detail value in {0,1} |
| CubeClient.PopupMinusOne | client/src/components/RubiksCube.js:900-909 | selecting (-2,-2,-2) gives the detail cell (-1,-1,-2) the value -1 |
| CubeClient.PopupValue | client/src/components/RubiksCube.js:908-909 | the corrected detail value is in {0,1} and has the hash's parity |
| CubeClient.PopupValueCorrects | client/src/components/RubiksCube.js:908-909 | the corrected value equals the written one whenever the hash is non-negative, and is its magnitude otherwise |
| CubeServer.FileNameInjective | server.js:114 | distinct vendors have distinct files |
| CubeServer.FileNameIsNotFallback | server.js:128-140 | no vendor file is the fallback file |
| CubeServer.FileName | server.js:114 | the file name is the vendor name followed by the fixed suffix `VentilatorData.json` |
| CubeServer.SaveVendor | server.js:111 | a save without a vendor writes for "default"; any given vendor, even the empty name, is used as given |
| CubeServer.LoadVendor | server.js:125 | a load never uses the empty vendor name: a missing or empty vendor reads "default", and any other name is used as given |
| CubeServer.SeedValue | server.js:36-42 | every seeded value is 0 or 1, and a vendor other than philips or drager is seeded with 0 everywhere |
| CubeServer.SeedGridPattern | server.js:36-42 | seeded cells: Philips marks an even coordinate sum, Dräger a multiple of 3, any other vendor nothing |
| CubeServer.SeedFile | server.js:52-61 | an existing file is left alone; an absent one is created with the seed |
| CubeServer.InitializeDataFiles | server.js:17-71 | start-up adds the three vendor files and `cubeData.json` and changes no existing file |
| CubeServer.SeededContents | server.js:52-70 | each file absent before start-up holds its vendor's seed; `cubeData.json` holds the default seed |
| CubeServer.InitializeIdempotent | server.js:17-71 | a second start-up changes nothing |
| CubeServer.Save | server.js:109-121 | a save with data writes it verbatim to the vendor's file and touches no other file; without data it fails |
| CubeServer.ReadFile | server.js:131-134 | a parsable file is answered with its object, any other file with an error |
| CubeServer.Load | server.js:123-151 | the vendor's file, else `cubeData.json`, else `{}`; an error only when some stored file does not parse |
| CubeServer.LoadOrder | server.js:125-144 | the fallback file is read exactly when the vendor's file is absent, and `{}` is answered exactly when both are |
| CubeServer.LoadAfterSave | server.js:109-151 | loading after a save for the same non-empty vendor answers the saved object exactly |
| CubeServer.LastWriteWins | server.js:116 | of two saves for one vendor the later wins |
| CubeServer.SaveIsolation | server.js:109-151 | a save leaves what every other vendor loads unchanged |
| CubeServer.EmptyVendorDoesNotRoundTrip | server.js:111-128 | a save for the empty vendor name is not what a load for that name answers |
| CubeServer.UnknownVendorReadsFallback | server.js:137-140 | a vendor without its own file reads `cubeData.json`, whatever the default vendor saved |
| CubeServer.ClientRoundTrip | server.js:109-151 | a clean grid the front end saves is loaded and held again unchanged |
| CubeServer.LevelScore | server.js:176-184 | a level scores 1 to 5, and 0 exactly when it is missing or unknown |
| CubeServer.PropertyValue | server.js:171-187 | the score of the first active Energy item for the property in entry order, else 0 |
| CubeServer.PropertyValueWitness | server.js:171-187 | a non-zero energy score comes from some matching item |
| CubeServer.CompareEnergy | server.js:162-194 | one score in [0,5] per energy property, per vendor, in the property list's order |
| CubeServer.LevelPercent | server.js:230-237 | a level's percentage is 20 times its score |
| CubeServer.MaxPercent | server.js:221-242 | the largest percentage over active items for the characteristic, a multiple of 20 attained by one of them, or 0 |
| CubeServer.FallbackProfile | server.js:246-255 | the hard-coded assessment, between 50 and 92, and 50 for an unknown name |
| CubeServer.SecurityValue | server.js:221-259 | the maximum percentage when an active item scores, else the fallback profile; always in [20,100] |
| CubeServer.CompareSecurity | server.js:212-266 | one value in [20,100] per characteristic, per vendor, in the table's order |
| CubeServer.EmptyFilesShowProfiles | server.js:246-255 | with no scored item the comparison shows the fixed profiles, which differ for every characteristic |
| SecurityUpdate.LevelToZBijection | update_realistic_security.py:82-88 | the level-to-z table is a bijection onto [-2,2] |
| SecurityUpdate.LevelToZ | update_realistic_security.py:82-88 | each level maps into [-2,2], and `ZToLevel` recovers the level |
| SecurityUpdate.ProfileValueIsOne | update_realistic_security.py:13-69 | every profile entry of both vendors stores the value 1 |
| SecurityUpdate.TargetKeyIsCell | update_realistic_security.py:105-108 | each characteristic's target key is the cube cell (index - 2, 1, z of its level) |
| SecurityUpdate.TargetsDistinct | update_realistic_security.py:73-79 | distinct characteristics have distinct targets |
| SecurityUpdate.ResetSecurity | update_realistic_security.py:97-100 | the first pass sets every security-subsystem cell to 0 and leaves the rest |
| SecurityUpdate.FindTarget | update_realistic_security.py:105-114 | a found characteristic targets the key; none found means no characteristic targets it |
| SecurityUpdate.SetTargetsAt | update_realistic_security.py:105-114 | after the second pass a cell carries its target characteristic's value, or is unchanged |
| SecurityUpdate.SetTargets | update_realistic_security.py:105-114 | the second pass adds and removes no key; a missing target is only reported |
| SecurityUpdate.Expected | update_realistic_security.py:97-111 | the final cell differs from the input only in its value; a changed value is 0 or 1, and a security-subsystem cell always ends as 0 or 1 |
| SecurityUpdate.UpdateVentilatorSecurity | update_realistic_security.py:90-120 | no key is added or removed, and each cell is as the two passes prescribe |
| SecurityUpdate.UpdateValues | update_realistic_security.py:90-120 | existing targets hold 1, other security cells 0, other cells are untouched, and only values change |
| SecurityUpdate.UpdateIdempotent | update_realistic_security.py:90-120 | running the update twice is running it once |
| SpecParser.Classify | parse_ventilator_spec.py:131-145 | the label of the first table row with a keyword in the text, else the default |
| SpecParser.DetermineInfoState | parse_ventilator_spec.py:131-137 | storage or transmission exactly when no earlier state's keyword occurs and one of theirs does; processing otherwise |
| SpecParser.DetermineMeasureType | parse_ventilator_spec.py:139-145 | policy or training exactly when no earlier type's keyword occurs and one of theirs does; technology otherwise |
| SpecParser.TechnologyTakesPrecedence | parse_ventilator_spec.py:57-61 | "user training" is a technology measure, because "use" is tried first |
| SpecParser.CapitalKeywordsNeverMatch | parse_ventilator_spec.py:95-101 | keywords with a capital letter can never attribute anything |
| SpecParser.CapitalKeywordsOfTable | parse_ventilator_spec.py:16-47 | "UI", "HIPAA" and "GDPR" attribute nothing |
| SpecParser.SeveralCharacteristics | parse_ventilator_spec.py:95-111 | one requirement can be attributed to several characteristics |
| SpecParser.MakeRequirement | parse_ventilator_spec.py:101-111 | the record names its characteristic, holds the sentence with surrounding white space cut and none left at either end, and classifies the unstripped sentence |
| SpecParser.FilterMap | parse_ventilator_spec.py:97-111 | one image per kept element, in order: the image of a kept element sits after the images of the kept elements before it, and every image comes from a kept element |
| SpecParser.AttributedRequirements | parse_ventilator_spec.py:95-111 | one record per attributed candidate: the record of candidate j sits at the number of attributed candidates before j, so the records follow candidate order with repeats kept; every record comes from an attributed candidate |
| SpecParser.AttributedInOrder | parse_ventilator_spec.py:95-111 | of two attributed candidates, the earlier one's record comes first |
| SpecParser.AttributedCount | parse_ventilator_spec.py:95-111 | there is one record per attributed candidate |
| SpecParser.ExtractRequirements | parse_ventilator_spec.py:77-129 | the matched gaps in order, then a "Limited requirements" note exactly when fewer than two requirements were found |
| SpecParser.GapsOf | parse_ventilator_spec.py:113-127 | one identified, stripped gap per match in order; an unidentified note exists exactly when coverage is limited, and then it comes last |
| SpecParser.EachCharacteristicHasARow | parse_ventilator_spec.py:121-127 | every characteristic has a requirement, a gap or the limited-coverage note |
| SpecParser.Entries | parse_ventilator_spec.py:169-176 | five entries in the table's order, each counting its own requirements, no characteristic twice |
| SpecParser.CharResultOf | parse_ventilator_spec.py:169-176 | the entry names its characteristic, holds its attributed requirements and counts them, keeps every matched gap, and carries the limited-coverage note exactly when fewer than two were found |
| SpecParser.CoverageOf | parse_ventilator_spec.py:180 | coverage is "Good" exactly from three requirements on |
| SpecParser.Summarise | parse_ventilator_spec.py:178-180 | the totals are the sums of the counts and of the gap numbers, and a characteristic no later entry repeats keeps its coverage |
| SpecParser.CoverageMapAt | parse_ventilator_spec.py:180 | a characteristic no later entry repeats is mapped to the coverage of its own count |
| SpecParser.ParseSpecification | parse_ventilator_spec.py:147-182 | nothing for a missing or empty text; otherwise five entries in table order, with totals and coverage "Good" exactly from three requirements |
| SpecParser.CharacteristicRows | parse_ventilator_spec.py:193-216 | a characteristic's requirement rows in order, then its gap rows |
| SpecParser.DataRows | parse_ventilator_spec.py:184-218 | rows exist exactly when every characteristic has a coverage entry; six cells each; characteristic i's rows, written with its coverage, follow those of the characteristics before it |
| SpecParser.SpreadsheetOutput | parse_ventilator_spec.py:184-218 | the header, then each characteristic's block of rows with its coverage, in order |
| SpecParser.SpreadsheetRowsInOrder | parse_ventilator_spec.py:184-218 | after the header, characteristic i's requirement rows (gap column "No") and then its gap rows (blank columns 2-4), all carrying its coverage |
| SpecParser.ParsedResultsFlatten | parse_ventilator_spec.py:147-218 | the parser's own results always flatten, to at least a header and a row per characteristic |
| SpecParser.IaCells | parse_ventilator_spec.py:246-266 | every requirement's coordinate key is a cell, and there are no more cells than requirements |
| SpecParser.ConvertToIaJson | parse_ventilator_spec.py:220-268 | every requirement's key is a cell, there are no more cells than requirements, and each cell has value 1 and a `coordinate_id` equal to its key |
| SpecParser.IaCellsLastWriter | parse_ventilator_spec.py:246-266 | each array cell holds the entry of the last requirement at its coordinate, with value 1 and its key as id |
| SpecParser.AssignLastWriter | parse_ventilator_spec.py:246-266 | each key of a dictionary filled in order holds the value of the last element with that key |
| SpecParser.IaKeyReadsBack | parse_ventilator_spec.py:248-255 | a requirement's coordinate lies inside the array and its key reads back as it |
| SpecParser.IaKeysInArray | parse_ventilator_spec.py:220-268 | every cell key is a coordinate inside the 5 x 3 x 3 array and reads back as it |
| SpecParser.IaCellsCollide | parse_ventilator_spec.py:246-258 | two requirements share a cell exactly when characteristic, state and measure agree |
| SetupWizard.Without | client/src/components/InitialSetup.js:44-52 | filtering removes every copy of the value and keeps every other element, each moved forward by the copies before it, so in order |
| SetupWizard.WithoutConcat | client/src/components/InitialSetup.js:44-52 | filtering a concatenation is filtering each part, the kept elements in their order |
| SetupWizard.WithoutSingle | client/src/components/InitialSetup.js:44-52 | a one-element list loses its element exactly when it is the value filtered out |
| SetupWizard.AddSubsystemTo | client/src/components/InitialSetup.js:33-42 | a new non-blank subsystem is appended with an empty item list; otherwise nothing changes |
| SetupWizard.RemoveSubsystemFrom | client/src/components/InitialSetup.js:44-52 | the subsystem list is filtered, the rest in order; its item list goes and the others stay; the selection is cleared only in the corrected handler |
| SetupWizard.AddCharacteristicTo | client/src/components/InitialSetup.js:60-68 | a new non-blank characteristic is appended; otherwise nothing changes |
| SetupWizard.RemoveCharacteristicFrom | client/src/components/InitialSetup.js:70-75 | the characteristic list is filtered: every copy goes, the rest in order, and the rest of the data stays |
| SetupWizard.AddInfoItemTo | client/src/components/InitialSetup.js:83-97 | a non-blank item is appended to the selected subsystem's list only; it throws exactly when that list is missing |
| SetupWizard.RemoveInfoItemFrom | client/src/components/InitialSetup.js:99-107 | that subsystem's list is filtered: every copy of the item goes, other items keep their copies and order; the other lists stay |
| SetupWizard.Advance | client/src/components/InitialSetup.js:27-111 | Next moves one screen on exactly when the current question is answered |
| SetupWizard.Offered | client/src/components/InitialSetup.js:117-353 | per screen, exactly the controls it renders: the two choices on the first screen; the name, Next and Back on question 1; the input, Add, a remove button per listed entry, Next and Back on questions 2 and 3; on question 4 the drop-down with no choice or a listed subsystem, the item input and Add only once a subsystem is selected, a remove button per listed item, Next and Back; Back and Proceed on the summary |
| SetupWizard.StepWith | client/src/components/InitialSetup.js:18-115 | a control the screen does not offer changes nothing; the only throw is `NotIterable`, from Add on question 4 with a non-blank item and a selected subsystem without a list; `onComplete` fires only for the existing choice on the first screen or for Proceed on the summary, with the state unchanged and, for a new system, the current data |
| SetupWizard.Step | client/src/components/InitialSetup.js:44-52 | with the selection cleared on removal, removing a subsystem never leaves it selected (unless its name is empty), and only the item Add can throw |
| SetupWizard.StepAsWritten | client/src/components/InitialSetup.js:44-52 | as written, removing the selected subsystem leaves it selected although it is gone from the list and from the item map; only the item Add can throw |
| SetupWizard.Run | client/src/components/InitialSetup.js:18-115 | a run fails only with `NotIterable`, and only if it contains an item Add |
| SetupWizard.BackUndoesNext | client/src/components/InitialSetup.js:151-327 | Back undoes a Next that moved |
| SetupWizard.StepKeepsData | client/src/components/InitialSetup.js:18-115 | in the wizard as written and in the corrected one, every step that does not throw keeps the data well formed: no repeated subsystem or characteristic, one item list per subsystem, a non-blank name from question 2 on, a subsystem from question 3 on and a characteristic from question 4 on |
| SetupWizard.RunKeepsData | client/src/components/InitialSetup.js:18-115 | in the wizard as written and in the corrected one, a run of events that does not throw ends with well-formed data |
| SetupWizard.StepKeepsValid | client/src/components/InitialSetup.js:18-115 | in the corrected wizard, every event keeps the data well formed and the selection empty or a listed subsystem, and never throws |
| SetupWizard.RunKeepsValid | client/src/components/InitialSetup.js:18-115 | no sequence of user actions makes the corrected wizard throw or lose consistency |
| SetupWizard.CompletionIsFilledIn | client/src/components/InitialSetup.js:113-115 | from well-formed data, in the wizard as written and in the corrected one, the data handed over on completion is the current data, with a non-blank name, a subsystem, a characteristic and one list per subsystem |
| SetupWizard.ExistingOnlyFromSelection | client/src/components/InitialSetup.js:18-20 | "existing" is reported exactly from the selection screen |
| SetupWizard.BackMovesOneStep | client/src/components/InitialSetup.js:151-327 | each Back moves exactly one screen back and changes nothing else |
| SetupWizard.AsWrittenDiffersOnlyInRemoval | client/src/components/InitialSetup.js:44-52 | the written and the corrected wizard differ only in subsystem removal, and there only in the selection |
| SetupWizard.RunAppend | client/src/components/InitialSetup.js:18-115 | running two event sequences in turn is running their concatenation |
| SetupWizard.StaleSelection | client/src/components/InitialSetup.js:241-264 | after removing the selected subsystem and returning, question 4 still shows it selected |
| SetupWizard.StaleSelectionThrows | client/src/components/InitialSetup.js:83-97 | adding an item then throws in the wizard as written |
| SetupWizard.ClearedSelectionDoesNotThrow | client/src/components/InitialSetup.js:44-52 | the corrected wizard runs the same events without throwing |
| SpecSheet.FieldsInjective | client/src/components/TechnicalSpecParser.js:256 | a row is determined by its six cells |
| SpecSheet.Flatten | client/src/components/TechnicalSpecParser.js:206-228 | one row per requirement and gap |
| SpecSheet.SpreadsheetView | client/src/components/TechnicalSpecParser.js:200-231 | no rows exactly when there is no result |
| SpecSheet.FlattenAt | client/src/components/TechnicalSpecParser.js:206-228 | a characteristic's rows sit after the rows of the characteristics before it |
| SpecSheet.RequirementRowsInOrder | client/src/components/TechnicalSpecParser.js:207-216 | each requirement row is at its place and carries the requirement, state, measure and coverage |
| SpecSheet.GapRowsInOrder | client/src/components/TechnicalSpecParser.js:218-227 | each gap row follows the requirement rows and carries only the gap and the coverage |
| SpecSheet.RowsCarryCoverage | client/src/components/TechnicalSpecParser.js:206-228 | every row names a characteristic and carries its coverage |
| SpecSheet.ConsistentRowCount | client/src/components/TechnicalSpecParser.js:181-231 | a consistent result has exactly total requirements plus total gaps rows |
| SpecSheet.SizeOfCounted | client/src/components/TechnicalSpecParser.js:206-228 | when each count is its number of requirements, the rows number the total count plus the total gaps |
| SpecSheet.MockConsistent | client/src/components/TechnicalSpecParser.js:32-192 | the canned result's counts and totals agree with its contents, whatever its texts, giving 22 rows |
| SpecSheet.HeaderHasNoNewline | client/src/components/TechnicalSpecParser.js:252-254 | the header line is a single line |
| SpecSheet.Escape | client/src/components/TechnicalSpecParser.js:256 | escaping adds no character that the text does not hold; `SpecSheet.ReadEscaped` reads it back |
| SpecSheet.Quoted | client/src/components/TechnicalSpecParser.js:256 | a cell is wrapped in double quotes; unescaped, the inside is the text as given; escaped, reading the cell back gives the text with nothing left over |
| SpecSheet.LineOf | client/src/components/TechnicalSpecParser.js:256 | with escaping, decoding a row's line gives back its six cells |
| SpecSheet.CsvText | client/src/components/TechnicalSpecParser.js:254-257 | the text begins with the header line and a newline, and ends with a newline |
| SpecSheet.ExportCsv | client/src/components/TechnicalSpecParser.js:248-268 | no text without a result; otherwise the header and the view's rows |
| SpecSheet.CsvLines | client/src/components/TechnicalSpecParser.js:254-257 | for rows without newlines, the export splits into the header, one line per row in order, and a final empty line |
| SpecSheet.LinesAsJoin | client/src/components/TechnicalSpecParser.js:254-257 | the row lines, each ended by a newline, are the lines joined by newlines with an empty last piece |
| SpecSheet.DecodeQuoted | client/src/components/TechnicalSpecParser.js:256 | an escaped quoted line decodes back to its cells |
| SpecSheet.ReadEscaped | client/src/components/TechnicalSpecParser.js:256 | reading an escaped text up to its closing quote gives back the text and what follows |
| SpecSheet.EscapedLineRoundTrip | client/src/components/TechnicalSpecParser.js:256 | with escaping, a line reads back as its row, so distinct rows give distinct lines |
| SpecSheet.AsWrittenLinesCollide | client/src/components/TechnicalSpecParser.js:256 | without escaping, two different rows give the same line |

## Left out

- Everything the host environment does is not modelled: HTTP transport and status codes, the file system's bytes and its errors, React rendering and state batching, three.js scenes, `localStorage`, and the Blob/anchor download mechanics. The file store is a map. Each handler is a function from state to state, or a `Result` where the code throws.
- The regular-expression and PDF scans of the specification text are inputs: the candidate requirement sentences and each characteristic's gap matches. Dictionary iteration order and object-entry order are inputs too, as sequences.
- The parser's result metadata (timestamp, file name), the CSV and JSON files its entry point writes, and the updater's console output and `main` are not modelled.
- The analysis endpoint, the report, chart and PDF components, and the remaining screens are not part of this model.
- Concurrent saves are not modelled. Two requests race on the file, and the model only states that the later of two sequential saves wins.
- Cell records that are not JSON objects, or `null`, are not modelled. Neither are keys that collide with `Object.prototype` names such as `__proto__`.
- Cell values are modelled as integers (`Option<int>`, with `None` for a missing value). JSON values such as 0.5, "1" or `true` are not represented. Each of them falls in the same class as some integer under every test the code applies to a value: the client's `> 0` when it cleans a grid (RubiksCube.js:551-553) and the server's `=== 1` when it compares profiles (server.js:174).
- Text.Number models an optional sign and decimal digits only. It leaves out the white-space trimming and the exponent, hexadecimal and fractional forms JavaScript's `Number` also accepts; the program only passes it key parts.
- Text.Lower lower-cases ASCII letters only. Python's `str.lower` also folds non-ASCII letters.
- SpecSheet.Mock leaves out the canned result's metadata. The screen's fallback to the canned result when the parse request fails is also left out; only the canned result's consistency is modelled.
- SpecSheet.MockConsistent is stated for the canned structure with any requirement and gap texts (`SpecSheet.MockWith`); the canned texts themselves (`SpecSheet.MockTexts`) play no part in the counts.
- CubeClient.InfoValue: a `null` or `NaN` value is shown as "Not set", where the code's `!== undefined` test shows 0. The model has one "no value" case for missing, `undefined`, `null` and `NaN`. Every grid the component holds has been cleaned, reset or edited, so each of its cells holds 0 or 1 (`CubeClient.LoadCubeData`, `CubeClient.EditKeepsClean`, `CubeClient.ResetIsClean`). The `CubieInfo` panel (RubiksCube.js:183-214) is also never rendered by the component.
- CubeClient.CubieClick: for a `null` or `NaN` value the field is emptied, where the code fills it with 0. This is the same one "no value" case, and it cannot arise on a held grid.
- CubeClient.ClickThenSave: a cell with a `null` or `NaN` value is left untouched, where the code would write `{value: 0}`. This is the same case again, and a held grid has no such cell.
- The rendering of the detail cube (outer-layer colouring, labels) and of the wizard screens is not modelled. The wizard is modelled by which events each screen offers.

## Findings

| source | as written | input that shows it | evidently intended | confidence | as-written member | corrected member |
|---|---|---|---|---|---|---|
| client/src/components/RubiksCube.js:908-909 | `hashValue % 2` with JavaScript's sign-keeping remainder | select cell (-2,-2,-2): seed -222, and detail cell (-1,-1,-2) has hash -111, so its value is -1 | a value in {0,1} for every detail cell, as the comment at line 252 says | not executed | CubeClient.PopupMinusOne | CubeClient.PopupValueCorrects |
| client/src/components/InitialSetup.js:44-52 | removing a subsystem keeps it selected on question 4 | select "a" on question 4, go back twice, remove "a", return, type "x", press Add | the selection of a removed subsystem is cleared, so adding an item never throws | not executed | SetupWizard.StaleSelectionThrows | SetupWizard.ClearedSelectionDoesNotThrow |
| client/src/components/TechnicalSpecParser.js:256 | cells are wrapped in quotes without doubling inner quotes | rows ("a\",\"b", "c", …) and ("a", "b\",\"c", …) export the same line | quotes doubled as CSV requires, so each line reads back as its row | not executed | SpecSheet.AsWrittenLinesCollide | SpecSheet.EscapedLineRoundTrip |

=== FILE: base.dfy ===
/** Failure-carrying wrappers shared by every module of the model. */
module Base {

  /** A value that may be absent: a missing JSON field, `undefined`, `null` or `NaN`. */
  datatype Option<+T> = None | Some(value: T) {
    function GetOr(default: T): T {
      match this
      case Some(v) => v
      case None => default
    }
  }

  /** The outcome of an operation that can throw; `Err` carries the error message. */
  datatype Result<+T> = Ok(value: T) | Err(message: string)
}

=== FILE: cube.dfy ===
/**
 * The activation grid's data model: a cell is addressed by an integer triple
 * in [-2,2]^3, serialised as the key `"x,y,z"`; a grid maps keys to cell
 * records. Shared by the front end, the server and the security updater.
 */
module Cube {
  import opened Base
  import opened Text

  /** A cell address: x is the property, y the subsystem, z the value slot. */
  datatype Coord = Coord(x: int, y: int, z: int)

  predicate InRange(v: int) {
    -2 <= v <= 2
  }

  predicate InCube(c: Coord) {
    InRange(c.x) && InRange(c.y) && InRange(c.z)
  }

  /** A stored cell record; every field may be absent from the JSON object. */
  datatype Cell = Cell(value: Option<int>, subsystem: Option<string>, property: Option<string>, level: Option<string>)

  /** The record `{ value: v }` the program writes when it builds or edits a cell. */
  function ValueCell(v: int): Cell {
    Cell(Some(v), None, None, None)
  }

  /** A JSON object of cell records, keyed by strings. */
  type Grid = map<string, Cell>

  /**
   * A parsed grid document as the server returns it: its members and, when it
   * has a `data` member holding an object, that nested object (the front end
   * reads `response.data.data || response.data`). The `data` member itself is
   * not among `cells`.
   */
  datatype Doc = Doc(cells: Grid, data: Option<Grid>)

  // ---------------------------------------------------------------------------
  // Keys
  // ---------------------------------------------------------------------------

  /** `[x, y, z].join(',')`. */
  function Key(c: Coord): string {
    Join([IntToString(c.x), IntToString(c.y), IntToString(c.z)], ',')
  }

  /** `key.split(',').map(Number)`; `None` stands for NaN. */
  function Position(key: string): (p: seq<Option<int>>)
    ensures |p| == |Split(key, ',')|
  {
    var parts := Split(key, ',');
    seq(|parts|, i requires 0 <= i < |parts| => Number(parts[i]))
  }

  lemma NoCommaInIntToString(n: int)
    ensures ',' !in IntToString(n)
  {
    var s := IntToString(n);
    forall i | 0 <= i < |s| ensures s[i] != ',' {
      assert IsDigit(s[i]) || s[i] == '-';
    }
  }

  /** Splitting a key on `,` and reading each part as a number gives back the triple. */
  lemma PositionOfKey(c: Coord)
    ensures Position(Key(c)) == [Some(c.x), Some(c.y), Some(c.z)]
  {
    var parts := [IntToString(c.x), IntToString(c.y), IntToString(c.z)];
    NoCommaInIntToString(c.x);
    NoCommaInIntToString(c.y);
    NoCommaInIntToString(c.z);
    SplitOfJoin(parts, ',');
    NumberOfIntToString(c.x);
    NumberOfIntToString(c.y);
    NumberOfIntToString(c.z);
  }

  /** Distinct triples have distinct keys. */
  lemma KeyInjective(c: Coord, d: Coord)
    ensures Key(c) == Key(d) ==> c == d
  {
    PositionOfKey(c);
    PositionOfKey(d);
  }

  /** Every key contains the separator, so the load-time cleaning keeps it. */
  lemma KeyHasComma(c: Coord)
    ensures ',' in Key(c)
  {
    var a := IntToString(c.x);
    var k := Key(c);
    assert k == a + [','] + Join([IntToString(c.y), IntToString(c.z)], ',');
    assert k[|a|] == ',';
  }

  // ---------------------------------------------------------------------------
  // The 125 cells
  // ---------------------------------------------------------------------------

  /**
   * The i-th cell the program's nested loops visit: y outermost, then x,
   * then z innermost, each from -2 to 2.
   */
  function CoordAt(i: int): Coord {
    Coord((i / 5) % 5 - 2, i / 25 - 2, i % 5 - 2)
  }

  function IndexOf(c: Coord): int {
    (c.y + 2) * 25 + (c.x + 2) * 5 + (c.z + 2)
  }

  /** Division by 5 of a number written as 5q + r with 0 <= r < 5. */
  lemma DivFive(q: int, r: int)
    requires 0 <= r < 5
    ensures (5 * q + r) / 5 == q && (5 * q + r) % 5 == r
  {
  }

  /** Division by 25 of a number written as 25q + r with 0 <= r < 25. */
  lemma DivTwentyFive(q: int, r: int)
    requires 0 <= r < 25
    ensures (25 * q + r) / 25 == q
  {
  }

  lemma CoordIndexInverse(i: int)
    requires 0 <= i < 125
    ensures InCube(CoordAt(i)) && IndexOf(CoordAt(i)) == i
  {
    var a, b, d := i / 25, (i / 5) % 5, i % 5;
    assert i == 25 * a + 5 * b + d;
  }

  lemma IndexCoordInverse(c: Coord)
    requires InCube(c)
    ensures 0 <= IndexOf(c) < 125 && CoordAt(IndexOf(c)) == c
  {
    var a, b, d := c.y + 2, c.x + 2, c.z + 2;
    var i := IndexOf(c);
    assert i == 25 * a + (5 * b + d) == 5 * (5 * a + b) + d;
    DivTwentyFive(a, 5 * b + d);
    DivFive(5 * a + b, d);
    DivFive(a, b);
  }

  /** The images of 0 to n - 1 under f. */
  function ImageBelow<B>(f: int -> B, n: nat): set<B> {
    set i | 0 <= i < n :: f(i)
  }

  function Image<A, B>(s: set<A>, f: A -> B): set<B> {
    set a | a in s :: f(a)
  }

  /** The 125 cells of [-2,2]^3. */
  function CubeCoords(): set<Coord> {
    ImageBelow(CoordAt, 125)
  }

  /** The 125 keys of [-2,2]^3. */
  function CubeKeys(): set<string> {
    Image(CubeCoords(), Key)
  }

  lemma InCubeCoords(c: Coord)
    ensures c in CubeCoords() <==> InCube(c)
  {
    if InCube(c) {
      IndexCoordInverse(c);
    }
  }

  lemma CoordAtInjective(i: int, j: int)
    requires 0 <= i < 125 && 0 <= j < 125
    ensures CoordAt(i) == CoordAt(j) ==> i == j
  {
    CoordIndexInverse(i);
    CoordIndexInverse(j);
  }

  /** An injective function maps a set onto a set of the same size. */
  lemma {:induction false} InjectiveImageCard<A, B>(s: set<A>, f: A -> B)
    requires forall a, b | a in s && b in s && f(a) == f(b) :: a == b
    ensures |Image(s, f)| == |s|
  {
    if |s| > 0 {
      var a :| a in s;
      var rest := s - {a};
      InjectiveImageCard(rest, f);
      assert Image(s, f) == Image(rest, f) + {f(a)};
    }
  }

  lemma {:induction false} IndexedImageCard<B>(f: int -> B, n: nat)
    requires forall i, j | 0 <= i < n && 0 <= j < n && f(i) == f(j) :: i == j
    ensures |ImageBelow(f, n)| == n
  {
    if n > 0 {
      IndexedImageCard(f, n - 1);
      assert ImageBelow(f, n) == ImageBelow(f, n - 1) + {f(n - 1)};
    }
  }

  lemma CoordAtInjectiveBelow()
    ensures forall i, j | 0 <= i < 125 && 0 <= j < 125 && CoordAt(i) == CoordAt(j) :: i == j
  {
    forall i, j | 0 <= i < 125 && 0 <= j < 125 && CoordAt(i) == CoordAt(j) ensures i == j {
      CoordAtInjective(i, j);
    }
  }

  /** The grid domain has exactly 125 cells, with 125 distinct keys. */
  lemma CubeSize()
    ensures |CubeCoords()| == 125
    ensures |CubeKeys()| == 125
  {
    CoordAtInjectiveBelow();
    IndexedImageCard(CoordAt, 125);
    KeysDistinct();
    InjectiveImageCard(CubeCoords(), Key);
  }

  /**
   * The grid the program's triple loop builds, with `{ value: f(x, y, z) }`
   * at each of the 125 keys.
   */
  function Fill(f: Coord -> int): (g: Grid)
    ensures g.Keys == CubeKeys()
    ensures |g| == 125
    ensures forall c | InCube(c) :: Key(c) in g && g[Key(c)] == ValueCell(f(c))
  {
    CubeSize();
    KeysDistinct();
    CubeCoordsExact();
    map c | c in CubeCoords() :: Key(c) := ValueCell(f(c))
  }

  /** The cell of a filled grid at one address. */
  lemma FillAt(f: Coord -> int, c: Coord)
    requires InCube(c)
    ensures Key(c) in Fill(f) && Fill(f)[Key(c)] == ValueCell(f(c))
  {
  }

  lemma KeysDistinct()
    ensures forall c, d | Key(c) == Key(d) :: c == d
  {
    forall c, d | Key(c) == Key(d) ensures c == d {
      KeyInjective(c, d);
    }
  }

  lemma CubeCoordsExact()
    ensures forall c :: c in CubeCoords() <==> InCube(c)
  {
    forall c ensures c in CubeCoords() <==> InCube(c) {
      InCubeCoords(c);
    }
  }
}

=== FILE: cube_client.dfy ===
/**
 * The front end's view of the activation grid: how a loaded grid is cleaned,
 * where it comes from (server, bundled JSON, demo pattern), how a cell is
 * shown, how the point edits and the reset change it, and the detail cube
 * shown for a selected cell.
 */
module CubeClient {
  import opened Base
  import opened Text
  import opened Cube

  // ---------------------------------------------------------------------------
  // Reading a cell
  // ---------------------------------------------------------------------------

  /** A stored value read as a binary activation: positive is 1, anything else or absent is 0. */
  function Binary(v: Option<int>): (b: int)
    ensures b == 0 || b == 1
    ensures b == 1 <==> v.Some? && v.value > 0
  {
    if v.Some? && v.value > 0 then 1 else 0
  }

  /** The activation the main cube shows at key `k`; a cell that is absent shows 0. */
  function Shown(g: Grid, k: string): (b: int)
    ensures b == 0 || b == 1
    ensures b == 1 <==> k in g && g[k].value.Some? && g[k].value.value > 0
  {
    if k in g then Binary(g[k].value) else 0
  }

  /** The value the info panel shows for key `k`; `None` is shown as "Not set". */
  function InfoValue(g: Grid, k: string): (r: Option<int>)
    ensures r.None? <==> k !in g || g[k].value.None?
    ensures r.Some? ==> r.value == Shown(g, k)
  {
    if k in g && g[k].value.Some? then Some(Binary(g[k].value)) else None
  }

  /** The info panel's status line says "Active" exactly when the shown value is 1. */
  predicate InfoActive(g: Grid, k: string) {
    InfoValue(g, k) == Some(1)
  }

  /** The info panel and the main cube agree on which cells are active. */
  lemma InfoAgreesWithCube(g: Grid, k: string)
    ensures InfoActive(g, k) <==> Shown(g, k) == 1
  {
  }

  // ---------------------------------------------------------------------------
  // Cleaning a loaded grid
  // ---------------------------------------------------------------------------

  /** `key.includes(',')`: the test that tells a cell key from any other member. */
  predicate IsCoordinateKey(k: string) {
    ',' in k
  }

  /** A grid in the form the front end keeps: comma keys, each holding exactly `{ value: 0 }` or `{ value: 1 }`. */
  predicate IsClean(g: Grid) {
    forall k | k in g :: IsCoordinateKey(k) && (g[k] == ValueCell(0) || g[k] == ValueCell(1))
  }

  /**
   * The cleaning loop run on every loaded object: it keeps exactly the keys
   * containing a comma and replaces each record by its binary value alone.
   */
  function Clean(raw: Grid): (g: Grid)
    ensures forall k :: k in g <==> k in raw && IsCoordinateKey(k)
    ensures forall k | k in g :: g[k] == ValueCell(Shown(raw, k))
    ensures IsClean(g)
  {
    map k | k in raw && IsCoordinateKey(k) :: ValueCell(Binary(raw[k].value))
  }

  /** Cleaning never changes what the cube shows at a cell key. */
  lemma CleanKeepsShown(raw: Grid, k: string)
    requires IsCoordinateKey(k)
    ensures Shown(Clean(raw), k) == Shown(raw, k)
  {
  }

  /** A clean grid is a fixed point of cleaning. */
  lemma CleanOfClean(g: Grid)
    requires IsClean(g)
    ensures Clean(g) == g
  {
    var c := Clean(g);
    assert c.Keys == g.Keys;
    forall k | k in g ensures c[k] == g[k] {
      assert g[k] == ValueCell(0) || g[k] == ValueCell(1);
    }
  }

  /** Cleaning is idempotent. */
  lemma CleanIdempotent(raw: Grid)
    ensures Clean(Clean(raw)) == Clean(raw)
  {
    CleanOfClean(Clean(raw));
  }

  // ---------------------------------------------------------------------------
  // The demo pattern
  // ---------------------------------------------------------------------------

  /** The Philips demo activation, with JavaScript's `%`. */
  predicate PhilipsDemoActive(c: Coord) {
    JsRem(c.x + c.y + c.z, 2) == 0 && Abs(c.x) + Abs(c.y) + Abs(c.z) <= 3
  }

  /** The demo activation of every other vendor: the central column and the four corner columns. */
  predicate OtherDemoActive(c: Coord) {
    (c.x == 0 && c.y == 0) || (Abs(c.x) == 2 && Abs(c.y) == 2)
  }

  function DemoValue(oem: string, c: Coord): int {
    if oem == "philips" then (if PhilipsDemoActive(c) then 1 else 0)
    else (if OtherDemoActive(c) then 1 else 0)
  }

  /** The demo grid built when neither the server nor the bundled file yields cells. */
  function DemoGrid(oem: string): (g: Grid)
    ensures g.Keys == CubeKeys() && |g| == 125
    ensures IsClean(g)
  {
    var g := Fill(c => DemoValue(oem, c));
    FilledIsClean(c => DemoValue(oem, c));
    g
  }

  /** A filled grid whose values are all 0 or 1 is clean. */
  lemma FilledIsClean(f: Coord -> int)
    requires forall c :: f(c) == 0 || f(c) == 1
    ensures IsClean(Fill(f))
  {
    var g := Fill(f);
    CubeCoordsExact();
    forall k | k in g ensures IsCoordinateKey(k) && (g[k] == ValueCell(0) || g[k] == ValueCell(1)) {
      var c :| c in CubeCoords() && Key(c) == k;
      KeyHasComma(c);
    }
  }

  /** The demo pattern cell by cell, with the parity written as ordinary (non-negative) remainder. */
  lemma DemoGridPattern(oem: string, c: Coord)
    requires InCube(c)
    ensures Shown(DemoGrid(oem), Key(c)) == 1 <==>
      if oem == "philips" then (c.x + c.y + c.z) % 2 == 0 && Abs(c.x) + Abs(c.y) + Abs(c.z) <= 3
      else (c.x == 0 && c.y == 0) || (Abs(c.x) == 2 && Abs(c.y) == 2)
  {
    FillAt(c' => DemoValue(oem, c'), c);
    DemoValuePattern(oem, c, DemoValue(oem, c));
  }

  lemma DemoValuePattern(oem: string, c: Coord, v: int)
    requires v == DemoValue(oem, c)
    ensures v == 0 || v == 1
    ensures v == 1 <==>
      if oem == "philips" then (c.x + c.y + c.z) % 2 == 0 && Abs(c.x) + Abs(c.y) + Abs(c.z) <= 3
      else (c.x == 0 && c.y == 0) || (Abs(c.x) == 2 && Abs(c.y) == 2)
  {
    JsRemEven(c.x + c.y + c.z);
  }

  // ---------------------------------------------------------------------------
  // Loading
  // ---------------------------------------------------------------------------

  /** The bundled JSON file the front end falls back to: Philips for "philips", Drager otherwise. `None` is a failed import. */
  function Bundled(oem: string, philips: Option<Grid>, drager: Option<Grid>): Option<Grid> {
    if oem == "philips" then philips else drager
  }

  /** The bundled file, cleaned, if that leaves any cell; the demo pattern otherwise. */
  function LoadLocal(oem: string, bundle: Option<Grid>): (g: Grid)
    ensures |g| > 0 && IsClean(g)
    ensures bundle.Some? && |Clean(bundle.value)| > 0 ==> g == Clean(bundle.value)
    ensures bundle.None? || |Clean(bundle.value)| == 0 ==> g == DemoGrid(oem)
  {
    if bundle.Some? && |Clean(bundle.value)| > 0 then Clean(bundle.value) else DemoGrid(oem)
  }

  /** The server's document has a member whose name contains a comma. */
  predicate HasCoordinateKeys(d: Doc) {
    exists k | k in d.cells :: IsCoordinateKey(k)
  }

  /**
   * `response.data.data || response.data`: the nested object when there is
   * one. A truthy `data` member that is not an object has no keys, so it
   * behaves as `Some(map[])`.
   */
  function Payload(d: Doc): Grid {
    if d.data.Some? then d.data.value else d.cells
  }

  /** Where a load took the grid from. */
  datatype Source = FromServer | FromBundle | FromDemo

  /**
   * The source the load chain picks: the server's payload if the response
   * has a comma key and cleaning the payload leaves a cell, then the bundled
   * file, then the demo pattern. `response` is `None` when the request throws.
   */
  function LoadSource(oem: string, response: Option<Doc>, philips: Option<Grid>, drager: Option<Grid>): Source {
    if response.Some? && HasCoordinateKeys(response.value) && |Clean(Payload(response.value))| > 0 then FromServer
    else
      var bundle := Bundled(oem, philips, drager);
      if bundle.Some? && |Clean(bundle.value)| > 0 then FromBundle else FromDemo
  }

  /** The grid the front end holds after a load. */
  function LoadCubeData(oem: string, response: Option<Doc>, philips: Option<Grid>, drager: Option<Grid>): (g: Grid)
    ensures |g| > 0 && IsClean(g)
    ensures LoadSource(oem, response, philips, drager) == FromServer ==> g == Clean(Payload(response.value))
    ensures LoadSource(oem, response, philips, drager) == FromBundle ==> g == Clean(Bundled(oem, philips, drager).value)
    ensures LoadSource(oem, response, philips, drager) == FromDemo ==> g == DemoGrid(oem)
  {
    if response.Some? && HasCoordinateKeys(response.value) && |Clean(Payload(response.value))| > 0 then
      Clean(Payload(response.value))
    else
      LoadLocal(oem, Bundled(oem, philips, drager))
  }

  /** A failed request, or a response without any cell key, is never taken from the server. */
  lemma ServerUsedOnlyWithCells(oem: string, response: Option<Doc>, philips: Option<Grid>, drager: Option<Grid>)
    ensures LoadSource(oem, response, philips, drager) == FromServer ==>
      response.Some? && (exists k | k in response.value.cells :: IsCoordinateKey(k))
    ensures LoadSource(oem, response, philips, drager) == FromDemo ==>
      var bundle := Bundled(oem, philips, drager);
      bundle.None? || forall k | k in bundle.value :: !IsCoordinateKey(k)
  {
    var bundle := Bundled(oem, philips, drager);
    if LoadSource(oem, response, philips, drager) == FromDemo && bundle.Some? {
      forall k | k in bundle.value ensures !IsCoordinateKey(k) {
      }
    }
  }

  /** A clean, non-empty grid served back as it was saved is loaded unchanged. */
  lemma LoadOfCleanGrid(oem: string, g: Grid, philips: Option<Grid>, drager: Option<Grid>)
    requires IsClean(g) && |g| > 0
    ensures LoadCubeData(oem, Some(Doc(g, None)), philips, drager) == g
  {
    CleanOfClean(g);
    var k :| k in g;
    assert IsCoordinateKey(k);
  }

  // ---------------------------------------------------------------------------
  // The edit panel
  // ---------------------------------------------------------------------------

  /**
   * The editing state: the grid, the selected key, the detail panel's value
   * field and the quick-apply field. The fields hold text; a number written
   * into a field by a click is held as its decimal string.
   */
  datatype Panel = Panel(grid: Grid, selected: Option<string>, value: string, quickValue: string)

  /**
   * What a handler does: the panel afterwards, the grid sent to the server
   * (if any) and the alert raised (if any).
   */
  datatype Outcome = Outcome(panel: Panel, saved: Option<Grid>, alert: Option<string>)

  const MustBeBinary: string := "Value must be either 0 or 1"
  const PleaseEnterValue: string := "Please enter a value"
  const PleaseSelectCubie: string := "Please select a cubie first"

  /** `selectedCubie` is truthy. */
  predicate HasSelection(p: Panel) {
    p.selected.Some? && p.selected.value != ""
  }

  /** The value an edit accepts: what `parseInt` reads, when that is exactly 0 or 1. */
  function AcceptedValue(input: string): (r: Option<int>)
    ensures r.Some? <==> ParseInt(input) == Some(0) || ParseInt(input) == Some(1)
    ensures r.Some? ==> r == ParseInt(input)
  {
    match ParseInt(input)
    case Some(n) => if n == 0 || n == 1 then Some(n) else None
    case None => None
  }

  /** The grid with key `k` set to `{ value: n }` and every other entry kept. */
  function SetCell(g: Grid, k: string, n: int): (h: Grid)
    ensures h.Keys == g.Keys + {k}
    ensures h[k] == ValueCell(n)
    ensures forall j | j in g && j != k :: h[j] == g[j]
  {
    g[k := ValueCell(n)]
  }

  /**
   * The Save button of the detail panel: with a selection and a non-empty
   * field, a value of 0 or 1 is written to the selected key, sent to the
   * server, and the selection and field are cleared; any other value raises
   * an alert; without a selection or with an empty field nothing happens.
   */
  function SaveCubieData(p: Panel): (r: Outcome)
    ensures r.saved.Some? <==> HasSelection(p) && p.value != "" && AcceptedValue(p.value).Some?
    ensures r.saved.Some? ==>
      r.saved.value == r.panel.grid &&
      r.panel.grid == SetCell(p.grid, p.selected.value, AcceptedValue(p.value).value) &&
      r.panel == Panel(r.panel.grid, None, "", p.quickValue) && r.alert.None?
    ensures r.saved.None? ==> r.panel == p
    ensures r.alert == Some(MustBeBinary) <==> HasSelection(p) && p.value != "" && AcceptedValue(p.value).None?
    ensures r.alert.None? || r.alert == Some(MustBeBinary)
  {
    if HasSelection(p) && p.value != "" then
      match AcceptedValue(p.value)
      case Some(n) =>
        var g := SetCell(p.grid, p.selected.value, n);
        Outcome(Panel(g, None, "", p.quickValue), Some(g), None)
      case None => Outcome(p, None, Some(MustBeBinary))
    else Outcome(p, None, None)
  }

  /**
   * The Quick Apply button: an empty field raises "Please enter a value";
   * with a selection, a value of 0 or 1 is written and saved and the field is
   * cleared while the selection stays; another value raises an alert; without
   * a selection the user is asked to select a cell.
   */
  function QuickApply(p: Panel): (r: Outcome)
    ensures r.saved.Some? <==> p.quickValue != "" && HasSelection(p) && AcceptedValue(p.quickValue).Some?
    ensures r.saved.Some? ==>
      r.saved.value == r.panel.grid &&
      r.panel.grid == SetCell(p.grid, p.selected.value, AcceptedValue(p.quickValue).value) &&
      r.panel == Panel(r.panel.grid, p.selected, p.value, "") && r.alert.None?
    ensures r.saved.None? ==> r.panel == p && r.alert.Some?
    ensures r.alert == Some(PleaseEnterValue) <==> p.quickValue == ""
    ensures r.alert == Some(PleaseSelectCubie) <==> p.quickValue != "" && !HasSelection(p)
    ensures r.alert == Some(MustBeBinary) <==> p.quickValue != "" && HasSelection(p) && AcceptedValue(p.quickValue).None?
  {
    if p.quickValue == "" then Outcome(p, None, Some(PleaseEnterValue))
    else if HasSelection(p) then
      match AcceptedValue(p.quickValue)
      case Some(n) =>
        var g := SetCell(p.grid, p.selected.value, n);
        Outcome(Panel(g, p.selected, p.value, ""), Some(g), None)
      case None => Outcome(p, None, Some(MustBeBinary))
    else Outcome(p, None, Some(PleaseSelectCubie))
  }

  /** Any grid change an edit makes is confined to the selected key, which then shows the entered value. */
  lemma EditChangesOnlySelected(p: Panel, quick: bool)
    ensures var r := if quick then QuickApply(p) else SaveCubieData(p);
      var input := if quick then p.quickValue else p.value;
      (r.panel.grid != p.grid ==> HasSelection(p) && AcceptedValue(input).Some?) &&
      forall k | k != (if p.selected.Some? then p.selected.value else "") ::
        (k in r.panel.grid <==> k in p.grid) && (k in p.grid ==> r.panel.grid[k] == p.grid[k])
  {
  }

  /** An edit keeps the front end's grid clean when the selected key is a cell key. */
  lemma EditKeepsClean(p: Panel, quick: bool)
    requires IsClean(p.grid)
    requires p.selected.Some? ==> IsCoordinateKey(p.selected.value)
    ensures IsClean((if quick then QuickApply(p) else SaveCubieData(p)).panel.grid)
  {
  }

  /** Editing and cleaning commute: an edit of a raw grid, cleaned, is the same edit of the cleaned grid. */
  lemma CleanCommutesWithSetCell(g: Grid, k: string, n: int)
    requires IsCoordinateKey(k) && (n == 0 || n == 1)
    ensures Clean(SetCell(g, k, n)) == SetCell(Clean(g), k, n)
  {
    var a := Clean(SetCell(g, k, n));
    var b := SetCell(Clean(g), k, n);
    assert a.Keys == b.Keys;
    forall j | j in a ensures a[j] == b[j] {
    }
  }

  /**
   * Selecting a cell (`handleCubieClick`): the key becomes the selection and
   * the value field shows the cell's activation, or is emptied when the cell
   * or its value is absent.
   */
  function CubieClick(p: Panel, c: Coord): (r: Panel)
    ensures r.grid == p.grid && r.quickValue == p.quickValue
    ensures r.selected == Some(Key(c))
    ensures r.value == "" <==> Key(c) !in p.grid || p.grid[Key(c)].value.None?
    ensures r.value != "" ==> ParseInt(r.value) == Some(Shown(p.grid, Key(c)))
  {
    var k := Key(c);
    if k in p.grid && p.grid[k].value.Some? then
      ParseIntOfIntToString(Binary(p.grid[k].value));
      Panel(p.grid, Some(k), IntToString(Binary(p.grid[k].value)), p.quickValue)
    else Panel(p.grid, Some(k), "", p.quickValue)
  }

  /**
   * Clicking a cell and saving at once rewrites that cell as its shown value
   * alone (dropping any other fields of the record), and clears the selection;
   * a cell without a value is left as it is.
   */
  lemma ClickThenSave(p: Panel, c: Coord)
    ensures var k := Key(c);
      var r := SaveCubieData(CubieClick(p, c));
      if k in p.grid && p.grid[k].value.Some? then
        r.saved == Some(SetCell(p.grid, k, Shown(p.grid, k))) && r.panel.selected.None?
      else
        r.saved.None? && r.panel.grid == p.grid
  {
    var k := Key(c);
    KeyHasComma(c);
    assert k != "";
    var q := CubieClick(p, c);
    if k in p.grid && p.grid[k].value.Some? {
      assert ParseInt(q.value) == Some(Shown(p.grid, k));
    }
  }

  // ---------------------------------------------------------------------------
  // Reset
  // ---------------------------------------------------------------------------

  /** The grid the Reset button writes: the 125 cells, each `{ value: 0 }`. */
  function ResetGrid(): (g: Grid)
    ensures g.Keys == CubeKeys() && |g| == 125
    ensures forall k | k in g :: g[k] == ValueCell(0)
  {
    var g := Fill(c => 0);
    FilledIsClean(c => 0);
    CubeCoordsExact();
    g
  }

  /** The Reset button: the zero grid is held and saved, and the selection and both fields are cleared. */
  function ResetCubeData(p: Panel): (r: Outcome)
    ensures r.saved == Some(r.panel.grid) && r.alert.None?
    ensures r.panel.selected.None? && r.panel.value == "" && r.panel.quickValue == ""
    ensures forall c | InCube(c) :: Key(c) in r.panel.grid && Shown(r.panel.grid, Key(c)) == 0
    ensures |r.panel.grid| == 125
  {
    var g := ResetGrid();
    CubeCoordsExact();
    Outcome(Panel(g, None, "", ""), Some(g), None)
  }

  /** After a reset the grid is clean, and loading it back from the server returns it unchanged. */
  lemma ResetIsClean(p: Panel, oem: string, philips: Option<Grid>, drager: Option<Grid>)
    ensures IsClean(ResetCubeData(p).panel.grid)
    ensures var g := ResetCubeData(p).panel.grid; LoadCubeData(oem, Some(Doc(g, None)), philips, drager) == g
  {
    var g := ResetCubeData(p).panel.grid;
    FilledIsClean(c => 0);
    LoadOfCleanGrid(oem, g, philips, drager);
  }

  // ---------------------------------------------------------------------------
  // The detail cube of a selected cell
  // ---------------------------------------------------------------------------

  /** The 3 x 4 x 5 block of the detail cube: x in [-1,1], y in [-1,2], z in [-2,2]. */
  predicate InPopup(c: Coord) {
    -1 <= c.x <= 1 && -1 <= c.y <= 2 && -2 <= c.z <= 2
  }

  /** `position[0] * 100 + position[1] * 10 + position[2]` for the key's numbers; `None` is NaN. */
  function PositionSeed(key: string): (r: Option<int>)
    ensures r.Some? <==> |Position(key)| >= 3 && forall i | 0 <= i < 3 :: Position(key)[i].Some?
  {
    var p := Position(key);
    if |p| >= 3 && p[0].Some? && p[1].Some? && p[2].Some? then
      Some(p[0].value * 100 + p[1].value * 10 + p[2].value)
    else None
  }

  /** A selected cell's seed is read back from its key. */
  lemma PositionSeedOfKey(c: Coord)
    ensures PositionSeed(Key(c)) == Some(c.x * 100 + c.y * 10 + c.z)
  {
    PositionOfKey(c);
    PositionSeedOfParts(Key(c), c.x, c.y, c.z);
  }

  /** The seed of a key whose parts read as `x`, `y` and `z`. */
  lemma PositionSeedOfParts(key: string, x: int, y: int, z: int)
    requires Position(key) == [Some(x), Some(y), Some(z)]
    ensures PositionSeed(key) == Some(x * 100 + y * 10 + z)
  {
  }

  /** `hashValue`: the detail cell's offset from the block's corner, shifted by the seed. */
  function PopupHash(seed: int, c: Coord): (h: int)
    ensures InPopup(c) ==> 111 <= h - seed <= 345
  {
    (c.x + 2) * 100 + (c.y + 2) * 10 + (c.z + 3) + seed
  }

  /** The detail cube's cell value as written, `hashValue % 2` with JavaScript's `%`. */
  function PopupValueAsWritten(seed: int, c: Coord): (v: int)
    ensures PopupHash(seed, c) >= 0 ==> v == 0 || v == 1
    ensures v == -1 <==> PopupHash(seed, c) < 0 && PopupHash(seed, c) % 2 == 1
  {
    JsRem(PopupHash(seed, c), 2)
  }

  /** Every seed of at least -111 keeps the hash non-negative over the whole detail cube. */
  lemma PopupBinaryForLargeSeeds(seed: int, c: Coord)
    requires InPopup(c) && seed >= -111
    ensures PopupValueAsWritten(seed, c) == 0 || PopupValueAsWritten(seed, c) == 1
  {
  }

  /**
   * Selecting the corner cell (-2,-2,-2) gives the seed -222, and the detail
   * cell (-1,-1,-2) then gets the value -1, which the detail cube labels
   * "-1" in the colour of an inactive cell on the shading of an active one.
   */
  lemma PopupMinusOne()
    ensures var sel := Coord(-2, -2, -2);
      InCube(sel) && PositionSeed(Key(sel)) == Some(-222) &&
      InPopup(Coord(-1, -1, -2)) && PopupValueAsWritten(-222, Coord(-1, -1, -2)) == -1
  {
    PositionSeedOfKey(Coord(-2, -2, -2));
  }

  /** The detail cube's value with the parity taken as a non-negative remainder, as intended. */
  function PopupValue(seed: int, c: Coord): (v: int)
    ensures v == 0 || v == 1
    ensures (PopupHash(seed, c) - v) % 2 == 0
  {
    PopupHash(seed, c) % 2
  }

  /** The corrected value agrees with the written one whenever that one is 0 or 1, and is its magnitude otherwise. */
  lemma PopupValueCorrects(seed: int, c: Coord)
    ensures PopupValue(seed, c) == Abs(PopupValueAsWritten(seed, c))
    ensures PopupHash(seed, c) >= 0 ==> PopupValue(seed, c) == PopupValueAsWritten(seed, c)
  {
    var h := PopupHash(seed, c);
    assert h == JsQuot(h, 2) * 2 + JsRem(h, 2);
  }
}

=== FILE: cube_server.dfy ===
/**
 * The Express server's grid store: the data files seeded at start-up, the
 * save and load routes with their fallback chain, and the two comparison
 * routes that score each vendor's file. The file system is a map from file
 * names to file contents.
 */
module CubeServer {
  import opened Base
  import opened Text
  import opened Vocabulary
  import opened Cube
  import CubeClient

  // ---------------------------------------------------------------------------
  // Files
  // ---------------------------------------------------------------------------

  /** A data file: a JSON object the parser reads, or text `JSON.parse` rejects. */
  datatype File = Parsed(doc: Doc) | Unparsable

  /** The server's working directory. */
  type Store = map<string, File>

  /** The file holding a vendor's grid: `${oem}VentilatorData.json`. */
  function FileName(oem: string): (f: string)
    ensures |f| == |oem| + 19 && f[..|oem|] == oem
    ensures f[|oem|..] == "VentilatorData.json"
  {
    oem + "VentilatorData.json"
  }

  /** The legacy file every load falls back to. */
  const FallbackFile: string := "cubeData.json"

  /** Distinct vendors have distinct files. */
  lemma FileNameInjective(a: string, b: string)
    ensures FileName(a) == FileName(b) ==> a == b
  {
    if FileName(a) == FileName(b) {
      assert a == FileName(a)[..|a|];
      assert |a| == |b|;
    }
  }

  /** No vendor's file is the fallback file, so a save never changes what the fallback serves. */
  lemma FileNameIsNotFallback(oem: string)
    ensures FileName(oem) != FallbackFile
  {
    assert |FileName(oem)| >= 19 > |FallbackFile|;
  }

  // ---------------------------------------------------------------------------
  // Seeding at start-up
  // ---------------------------------------------------------------------------

  /** The seed value of a cell: Philips marks an even x+y+z, Drager a multiple of 3, any other vendor nothing. */
  function SeedValue(oem: string, c: Coord): (v: int)
    ensures v == 0 || v == 1
    ensures oem != "philips" && oem != "drager" ==> v == 0
  {
    if oem == "philips" then (if JsRem(c.x + c.y + c.z, 2) == 0 then 1 else 0)
    else if oem == "drager" then (if JsRem(c.x + c.y + c.z, 3) == 0 then 1 else 0)
    else 0
  }

  /** The grid `createEmptyData` builds for a vendor. */
  function SeedGrid(oem: string): (g: Grid)
    ensures g.Keys == CubeKeys() && |g| == 125
  {
    Fill(c => SeedValue(oem, c))
  }

  /** The seed patterns cell by cell, with the divisibility tests written as ordinary remainders. */
  lemma SeedGridPattern(oem: string, c: Coord)
    requires InCube(c)
    ensures Key(c) in SeedGrid(oem) && SeedGrid(oem)[Key(c)] == ValueCell(
      if oem == "philips" then (if (c.x + c.y + c.z) % 2 == 0 then 1 else 0)
      else if oem == "drager" then (if (c.x + c.y + c.z) % 3 == 0 then 1 else 0)
      else 0)
  {
    FillAt(c' => SeedValue(oem, c'), c);
    SeedValueRemainder(oem, c, SeedValue(oem, c));
  }

  lemma SeedValueRemainder(oem: string, c: Coord, v: int)
    requires v == SeedValue(oem, c)
    ensures v ==
      if oem == "philips" then (if (c.x + c.y + c.z) % 2 == 0 then 1 else 0)
      else if oem == "drager" then (if (c.x + c.y + c.z) % 3 == 0 then 1 else 0)
      else 0
  {
    JsRemEven(c.x + c.y + c.z);
    JsRemThree(c.x + c.y + c.z);
  }

  /** Creates `file` holding `g` unless the file exists already. */
  function SeedFile(store: Store, file: string, g: Grid): (r: Store)
    ensures r.Keys == store.Keys + {file}
    ensures file in store ==> r == store
    ensures file !in store ==> r[file] == Parsed(Doc(g, None))
    ensures forall f | f in store :: r[f] == store[f]
  {
    if file in store then store else store[file := Parsed(Doc(g, None))]
  }

  /** `initializeDataFiles`: the three vendor files and the fallback file, each only if absent. */
  function InitializeDataFiles(store: Store): (r: Store)
    ensures r.Keys == store.Keys + {FileName("philips"), FileName("drager"), FileName("default"), FallbackFile}
    ensures forall f | f in store :: r[f] == store[f]
  {
    SeedAll(store, SeedGrid("philips"), SeedGrid("drager"), SeedGrid("default"))
  }

  /** The four seeding steps with the three seed grids as parameters. */
  function SeedAll(store: Store, philips: Grid, drager: Grid, default: Grid): (r: Store)
    ensures r.Keys == store.Keys + {FileName("philips"), FileName("drager"), FileName("default"), FallbackFile}
    ensures forall f | f in store :: r[f] == store[f]
    ensures FileName("philips") !in store ==> r[FileName("philips")] == Parsed(Doc(philips, None))
    ensures FileName("drager") !in store ==> r[FileName("drager")] == Parsed(Doc(drager, None))
    ensures FileName("default") !in store ==> r[FileName("default")] == Parsed(Doc(default, None))
    ensures FallbackFile !in store ==> r[FallbackFile] == Parsed(Doc(default, None))
  {
    FileNameInjective("philips", "drager");
    FileNameInjective("philips", "default");
    FileNameInjective("drager", "default");
    FileNameIsNotFallback("philips");
    FileNameIsNotFallback("drager");
    FileNameIsNotFallback("default");
    SeedFour(store, FileName("philips"), philips, FileName("drager"), drager, FileName("default"), default, FallbackFile, default)
  }

  /** Seeds four distinct files in turn. */
  function SeedFour(store: Store, f1: string, g1: Grid, f2: string, g2: Grid, f3: string, g3: Grid, f4: string, g4: Grid): (r: Store)
    requires f1 != f2 && f1 != f3 && f1 != f4 && f2 != f3 && f2 != f4 && f3 != f4
    ensures r.Keys == store.Keys + {f1, f2, f3, f4}
    ensures forall f | f in store :: r[f] == store[f]
    ensures f1 !in store ==> r[f1] == Parsed(Doc(g1, None))
    ensures f2 !in store ==> r[f2] == Parsed(Doc(g2, None))
    ensures f3 !in store ==> r[f3] == Parsed(Doc(g3, None))
    ensures f4 !in store ==> r[f4] == Parsed(Doc(g4, None))
  {
    var s2 := SeedTwo(store, f1, g1, f2, g2);
    var r := SeedTwo(s2, f3, g3, f4, g4);
    assert r.Keys == store.Keys + {f1, f2, f3, f4} by {
      assert s2.Keys + {f3, f4} == store.Keys + {f1, f2, f3, f4};
    }
    assert f3 in s2 <==> f3 in store;
    assert f4 in s2 <==> f4 in store;
    assert f1 in r && f2 in r && r[f1] == s2[f1] && r[f2] == s2[f2];
    r
  }

  /** Seeds two distinct files in turn. */
  function SeedTwo(store: Store, f1: string, g1: Grid, f2: string, g2: Grid): (r: Store)
    requires f1 != f2
    ensures r.Keys == store.Keys + {f1, f2}
    ensures forall f | f in store :: r[f] == store[f]
    ensures f1 !in store ==> r[f1] == Parsed(Doc(g1, None))
    ensures f2 !in store ==> r[f2] == Parsed(Doc(g2, None))
  {
    SeedFile(SeedFile(store, f1, g1), f2, g2)
  }

  /** A file absent before start-up holds its seed afterwards. */
  lemma SeededContents(store: Store, oem: string)
    requires oem == "philips" || oem == "drager" || oem == "default"
    ensures FileName(oem) !in store ==>
      FileName(oem) in InitializeDataFiles(store) && InitializeDataFiles(store)[FileName(oem)] == Parsed(Doc(SeedGrid(oem), None))
    ensures FallbackFile !in store ==>
      FallbackFile in InitializeDataFiles(store) && InitializeDataFiles(store)[FallbackFile] == Parsed(Doc(SeedGrid("default"), None))
  {
    if oem == "philips" {
    } else if oem == "drager" {
    } else {
    }
  }

  /** Starting the server twice changes nothing the first start did not. */
  lemma InitializeIdempotent(store: Store)
    ensures InitializeDataFiles(InitializeDataFiles(store)) == InitializeDataFiles(store)
  {
  }

  // ---------------------------------------------------------------------------
  // The save and load routes
  // ---------------------------------------------------------------------------

  /** The vendor a save writes for: the body's `oem`, or "default" when the field is missing. */
  function SaveVendor(oem: Option<string>): (v: string)
    ensures oem.Some? ==> v == oem.value
    ensures oem.None? ==> v == "default"
  {
    oem.GetOr("default")
  }

  /** The vendor a load reads for: the query's `oem`, or "default" when it is missing or empty. */
  function LoadVendor(oem: Option<string>): (v: string)
    ensures v != ""
    ensures oem.Some? && oem.value != "" ==> v == oem.value
    ensures v == "default" <==> oem.None? || oem.value in {"", "default"}
  {
    if oem.None? || oem.value == "" then "default" else oem.value
  }

  /** The error a write of `undefined` throws. */
  const UndefinedData: string := "data argument received undefined"

  /** The error `JSON.parse` throws on a malformed file. */
  const BadJson: string := "unexpected token in JSON"

  /**
   * `POST /api/save`: writes the body's `data` verbatim to the vendor's file.
   * A missing `data` makes the write throw, and the route answers with an
   * error.
   */
  function Save(store: Store, oem: Option<string>, data: Option<Doc>): (r: Result<Store>)
    ensures r.Ok? <==> data.Some?
    ensures r.Ok? ==>
      var file := FileName(SaveVendor(oem));
      r.value.Keys == store.Keys + {file} &&
      r.value[file] == Parsed(data.value) &&
      forall f | f in store && f != file :: r.value[f] == store[f]
  {
    match data
    case None => Err(UndefinedData)
    case Some(d) => Ok(store[FileName(SaveVendor(oem)) := Parsed(d)])
  }

  /** What reading one existing file answers: its object, or an error if it does not parse. */
  function ReadFile(f: File): (r: Result<Doc>)
    ensures r.Ok? <==> f.Parsed?
    ensures r.Ok? ==> r.value == f.doc
  {
    match f
    case Parsed(d) => Ok(d)
    case Unparsable => Err(BadJson)
  }

  /** The file a load reads, if any: the vendor's file, else the fallback file. */
  function LoadedFile(store: Store, oem: Option<string>): Option<string> {
    if FileName(LoadVendor(oem)) in store then Some(FileName(LoadVendor(oem)))
    else if FallbackFile in store then Some(FallbackFile)
    else None
  }

  /**
   * `GET /api/load`: the vendor's file if it exists, else the fallback file
   * if that exists, else the empty object; a file that does not parse gives
   * an error.
   */
  function Load(store: Store, oem: Option<string>): (r: Result<Doc>)
    ensures LoadedFile(store, oem).None? ==> r == Ok(Doc(map[], None))
    ensures LoadedFile(store, oem).Some? ==>
      LoadedFile(store, oem).value in store && r == ReadFile(store[LoadedFile(store, oem).value])
    ensures r.Err? ==> exists f | f in store :: store[f] == Unparsable
  {
    var file := FileName(LoadVendor(oem));
    if file in store then ReadFile(store[file])
    else if FallbackFile in store then ReadFile(store[FallbackFile])
    else Ok(Doc(map[], None))
  }

  /** The load chain in terms of which files exist. */
  lemma LoadOrder(store: Store, oem: Option<string>)
    ensures FileName(LoadVendor(oem)) in store ==> LoadedFile(store, oem) == Some(FileName(LoadVendor(oem)))
    ensures FileName(LoadVendor(oem)) !in store && FallbackFile in store ==> LoadedFile(store, oem) == Some(FallbackFile)
    ensures LoadedFile(store, oem).None? <==> FileName(LoadVendor(oem)) !in store && FallbackFile !in store
  {
  }

  /** A load after a save for the same non-empty vendor returns the saved object exactly, unnormalised. */
  lemma LoadAfterSave(store: Store, oem: Option<string>, d: Doc)
    requires oem.None? || oem.value != ""
    ensures Save(store, oem, Some(d)).Ok?
    ensures Load(Save(store, oem, Some(d)).value, oem) == Ok(d)
  {
  }

  /** Of two saves for the same vendor, the later one wins. */
  lemma LastWriteWins(store: Store, oem: Option<string>, d1: Doc, d2: Doc)
    ensures Save(store, oem, Some(d1)).Ok?
    ensures Save(Save(store, oem, Some(d1)).value, oem, Some(d2)) == Save(store, oem, Some(d2))
  {
    var file := FileName(SaveVendor(oem));
    var a := Save(Save(store, oem, Some(d1)).value, oem, Some(d2)).value;
    var b := Save(store, oem, Some(d2)).value;
    assert a.Keys == b.Keys;
    assert forall f | f in a :: a[f] == b[f];
    assert a == b;
  }

  /** A save for one vendor leaves what every other vendor loads unchanged. */
  lemma SaveIsolation(store: Store, oem: Option<string>, other: Option<string>, d: Doc)
    requires FileName(SaveVendor(oem)) != FileName(LoadVendor(other))
    ensures Save(store, oem, Some(d)).Ok?
    ensures Load(Save(store, oem, Some(d)).value, other) == Load(store, other)
  {
    FileNameIsNotFallback(SaveVendor(oem));
  }

  /**
   * Saving for the empty vendor name writes `VentilatorData.json`, but
   * loading for the empty name reads the default vendor's file, so the saved
   * object is not what comes back.
   */
  lemma EmptyVendorDoesNotRoundTrip(d: Doc, e: Doc)
    requires d != e
    ensures var store := map[FileName("default") := Parsed(e)];
      Save(store, Some(""), Some(d)).Ok? &&
      Load(Save(store, Some(""), Some(d)).value, Some("")) == Ok(e)
  {
    assert FileName("") != FileName("default") by {
      FileNameInjective("", "default");
    }
  }

  /**
   * A vendor without its own file reads the fallback file, not the default
   * vendor's file: a save for the default vendor does not change what it
   * loads.
   */
  lemma UnknownVendorReadsFallback(store: Store, oem: string, d: Doc)
    requires oem != "" && oem != "default"
    requires FileName(oem) !in store && FallbackFile in store
    ensures Save(store, None, Some(d)).Ok?
    ensures Load(Save(store, None, Some(d)).value, Some(oem)) == ReadFile(store[FallbackFile])
  {
    FileNameInjective(oem, "default");
    FileNameIsNotFallback("default");
  }

  /**
   * The front end's save and reload: a clean, non-empty grid posted for a
   * vendor is stored, served back, and held again unchanged.
   */
  lemma ClientRoundTrip(store: Store, oem: string, g: Grid, philips: Option<Grid>, drager: Option<Grid>)
    requires oem != "" && CubeClient.IsClean(g) && |g| > 0
    ensures Save(store, Some(oem), Some(Doc(g, None))).Ok?
    ensures var s := Save(store, Some(oem), Some(Doc(g, None))).value;
      Load(s, Some(oem)) == Ok(Doc(g, None)) &&
      CubeClient.LoadCubeData(oem, Some(Load(s, Some(oem)).value), philips, drager) == g
  {
    LoadAfterSave(store, Some(oem), Doc(g, None));
    CubeClient.LoadOfCleanGrid(oem, g, philips, drager);
  }

  // ---------------------------------------------------------------------------
  // Energy comparison
  // ---------------------------------------------------------------------------

  /** The five energy properties, in the order the comparison lists them. */
  const EnergyProperties: seq<string> :=
    ["Power Efficiency", "Energy Storage", "Power Stability", "Backup Systems", "Grid Integration"]

  /** The score of a stored level: 1 (Very Low) to 5 (Very High), 0 for an unknown or missing level. */
  function LevelScore(level: Option<string>): (r: nat)
    ensures r <= 5
    ensures r == 0 <==> level.None? || LevelNamed(level.value).None?
  {
    if level.Some? then
      match LevelNamed(level.value)
      case Some(l) => l.Rank()
      case None => 0
    else 0
  }

  /** An active Energy item for `property`. */
  predicate EnergyMatch(item: Cell, property: string) {
    item.subsystem == Some("Energy") && item.property == Some(property) && item.value == Some(1)
  }

  /**
   * `getPropertyValue`: the level score of the first matching item in the
   * file's entry order, or 0 when no item matches.
   */
  function PropertyValue(items: seq<Cell>, property: string): (r: nat)
    ensures r <= 5
    ensures (forall i | 0 <= i < |items| :: !EnergyMatch(items[i], property)) ==> r == 0
    ensures forall i | 0 <= i < |items| && EnergyMatch(items[i], property) ::
      (forall j | 0 <= j < i :: !EnergyMatch(items[j], property)) ==> r == LevelScore(items[i].level)
  {
    if |items| == 0 then 0
    else if EnergyMatch(items[0], property) then LevelScore(items[0].level)
    else
      var r := PropertyValue(items[1..], property);
      assert forall i | 1 <= i < |items| :: items[i] == items[1..][i - 1];
      r
  }

  /** A non-zero score is the score of some matching item. */
  lemma {:induction false} PropertyValueWitness(items: seq<Cell>, property: string)
    ensures PropertyValue(items, property) > 0 ==>
      exists i | 0 <= i < |items| :: EnergyMatch(items[i], property) && PropertyValue(items, property) == LevelScore(items[i].level)
  {
    if |items| > 0 && !EnergyMatch(items[0], property) {
      PropertyValueWitness(items[1..], property);
      if PropertyValue(items, property) > 0 {
        var i :| 0 <= i < |items[1..]| && EnergyMatch(items[1..][i], property) &&
          PropertyValue(items[1..], property) == LevelScore(items[1..][i].level);
        assert items[i + 1] == items[1..][i];
      }
    }
  }

  /** The energy comparison: one score per property, for each vendor's file, in the order of the property list. */
  datatype EnergyComparison = EnergyComparison(properties: seq<string>, philips: seq<nat>, drager: seq<nat>)

  function CompareEnergy(philipsItems: seq<Cell>, dragerItems: seq<Cell>): (r: EnergyComparison)
    ensures r.properties == EnergyProperties
    ensures |r.philips| == |r.properties| && |r.drager| == |r.properties|
    ensures forall i | 0 <= i < |r.properties| ::
      r.philips[i] == PropertyValue(philipsItems, r.properties[i]) && r.drager[i] == PropertyValue(dragerItems, r.properties[i])
    ensures forall i | 0 <= i < |r.properties| :: r.philips[i] <= 5 && r.drager[i] <= 5
  {
    var ps := EnergyProperties;
    EnergyComparison(ps,
      seq(|ps|, i requires 0 <= i < |ps| => PropertyValue(philipsItems, ps[i])),
      seq(|ps|, i requires 0 <= i < |ps| => PropertyValue(dragerItems, ps[i])))
  }

  // ---------------------------------------------------------------------------
  // Security comparison
  // ---------------------------------------------------------------------------

  /** The percentage of a stored level: 20 (Very Low) to 100 (Very High), 0 for an unknown or missing level. */
  function LevelPercent(level: Option<string>): (r: nat)
    ensures r == 20 * LevelScore(level)
    ensures r <= 100 && r % 20 == 0
  {
    if level.Some? then
      match LevelNamed(level.value)
      case Some(l) => 20 * l.Rank()
      case None => 0
    else 0
  }

  /** An active item for `characteristic`, whatever its subsystem. */
  predicate SecurityMatch(item: Cell, characteristic: string) {
    item.property == Some(characteristic) && item.value == Some(1)
  }

  /** The largest percentage over the matching items, starting from 0. */
  function MaxPercent(items: seq<Cell>, characteristic: string): (r: nat)
    ensures r <= 100 && r % 20 == 0
    ensures forall i | 0 <= i < |items| && SecurityMatch(items[i], characteristic) :: LevelPercent(items[i].level) <= r
    ensures r == 0 || exists i | 0 <= i < |items| :: SecurityMatch(items[i], characteristic) && r == LevelPercent(items[i].level)
  {
    if |items| == 0 then 0
    else
      var rest := MaxPercent(items[1..], characteristic);
      assert forall i | 1 <= i < |items| :: items[i] == items[1..][i - 1];
      if SecurityMatch(items[0], characteristic) && LevelPercent(items[0].level) > rest then LevelPercent(items[0].level)
      else
        assert rest > 0 ==> exists i | 1 <= i < |items| :: SecurityMatch(items[i], characteristic) && rest == LevelPercent(items[i].level) by {
          if rest > 0 {
            var i :| 0 <= i < |items[1..]| && SecurityMatch(items[1..][i], characteristic) && rest == LevelPercent(items[1..][i].level);
            assert items[i + 1] == items[1..][i];
          }
        }
        rest
  }

  /** The hard-coded assessment used when a file has no scored item for a characteristic; 50 for a name outside the table. */
  function FallbackProfile(characteristic: string, vendor: Vendor): (r: nat)
    ensures CharacteristicNamed(characteristic).None? ==> r == 50
    ensures 50 <= r <= 92
  {
    match CharacteristicNamed(characteristic)
    case None => 50
    case Some(c) =>
      match c
      case Confidentiality => if vendor == Philips then 72 else 85
      case Integrity => if vendor == Philips then 88 else 75
      case Availability => if vendor == Philips then 92 else 90
      case HumanTrust => if vendor == Philips then 68 else 78
      case Authentication => if vendor == Philips then 76 else 88
  }

  /**
   * `getSecurityValue`: the highest percentage over the matching items, or
   * the fallback profile when there is none above 0.
   */
  function SecurityValue(items: seq<Cell>, characteristic: string, vendor: Vendor): (r: nat)
    ensures 20 <= r <= 100
    ensures (exists i | 0 <= i < |items| :: SecurityMatch(items[i], characteristic) && LevelPercent(items[i].level) > 0) ==>
      r % 20 == 0 &&
      (forall i | 0 <= i < |items| && SecurityMatch(items[i], characteristic) :: LevelPercent(items[i].level) <= r) &&
      exists i | 0 <= i < |items| :: SecurityMatch(items[i], characteristic) && r == LevelPercent(items[i].level)
    ensures (forall i | 0 <= i < |items| && SecurityMatch(items[i], characteristic) :: LevelPercent(items[i].level) == 0) ==>
      r == FallbackProfile(characteristic, vendor)
  {
    var m := MaxPercent(items, characteristic);
    if m == 0 then FallbackProfile(characteristic, vendor) else m
  }

  /** The security comparison: one percentage per characteristic, for each vendor's file. */
  datatype SecurityComparison = SecurityComparison(characteristics: seq<string>, philips: seq<nat>, drager: seq<nat>)

  function CompareSecurity(philipsItems: seq<Cell>, dragerItems: seq<Cell>): (r: SecurityComparison)
    ensures |r.characteristics| == 5
    ensures forall i | 0 <= i < 5 :: r.characteristics[i] == AllCharacteristics[i].Name()
    ensures |r.philips| == |r.characteristics| && |r.drager| == |r.characteristics|
    ensures forall i | 0 <= i < |r.characteristics| ::
      r.philips[i] == SecurityValue(philipsItems, r.characteristics[i], Philips) &&
      r.drager[i] == SecurityValue(dragerItems, r.characteristics[i], Drager)
    ensures forall i | 0 <= i < |r.characteristics| :: 20 <= r.philips[i] <= 100 && 20 <= r.drager[i] <= 100
  {
    var cs := seq(5, i requires 0 <= i < 5 => AllCharacteristics[i].Name());
    SecurityComparison(cs,
      seq(5, i requires 0 <= i < 5 => SecurityValue(philipsItems, cs[i], Philips)),
      seq(5, i requires 0 <= i < 5 => SecurityValue(dragerItems, cs[i], Drager)))
  }

  /** With no scored item at all, the comparison shows the fixed profiles, which differ between the vendors for every characteristic. */
  lemma EmptyFilesShowProfiles()
    ensures var r := CompareSecurity([], []);
      r.philips == [72, 88, 92, 68, 76] && r.drager == [85, 75, 90, 78, 88]
  {
    var r := CompareSecurity([], []);
    forall i | 0 <= i < 5
      ensures r.philips[i] == FallbackProfile(AllCharacteristics[i].Name(), Philips)
      ensures r.drager[i] == FallbackProfile(AllCharacteristics[i].Name(), Drager)
    {
      EmptyFileFallback(AllCharacteristics[i].Name(), Philips);
      EmptyFileFallback(AllCharacteristics[i].Name(), Drager);
    }
    ProfileTable();
  }

  /** A file without items falls back to the profile. */
  lemma EmptyFileFallback(name: string, v: Vendor)
    ensures SecurityValue([], name, v) == FallbackProfile(name, v)
  {
  }

  /** The fixed profiles, characteristic by characteristic in table order. */
  lemma ProfileTable()
    ensures seq(5, i requires 0 <= i < 5 => FallbackProfile(AllCharacteristics[i].Name(), Philips)) == [72, 88, 92, 68, 76]
    ensures seq(5, i requires 0 <= i < 5 => FallbackProfile(AllCharacteristics[i].Name(), Drager)) == [85, 75, 90, 78, 88]
  {
    forall c: Characteristic ensures CharacteristicNamed(c.Name()) == Some(c) {
    }
  }
}

=== FILE: security_update.dfy ===
/**
 * The security-profile updater: it clears every cell of the "Security and
 * Human Trust" subsystem, then marks, for each characteristic, the cell at
 * the characteristic's column whose z coordinate encodes the vendor's
 * assessed level.
 */
module SecurityUpdate {
  import opened Base
  import opened Text
  import opened Vocabulary
  import opened Cube

  const SecuritySubsystem: string := "Security and Human Trust"

  /** One row of a vendor's profile: the assessed level and the value to store. */
  datatype Setting = Setting(level: Level, value: int)

  /** The assessed profile of each vendor. */
  function Profile(v: Vendor, c: Characteristic): Setting {
    match v
    case Philips =>
      (match c
       case Confidentiality => Setting(Medium, 1)
       case Integrity => Setting(High, 1)
       case Availability => Setting(VeryHigh, 1)
       case HumanTrust => Setting(Medium, 1)
       case Authentication => Setting(Medium, 1))
    case Drager =>
      (match c
       case Confidentiality => Setting(High, 1)
       case Integrity => Setting(High, 1)
       case Availability => Setting(VeryHigh, 1)
       case HumanTrust => Setting(High, 1)
       case Authentication => Setting(High, 1))
  }

  /** The `"x,y"` prefix of each characteristic's column. */
  function BaseCoord(c: Characteristic): string {
    match c
    case Confidentiality => "-2,1"
    case Integrity => "-1,1"
    case Availability => "0,1"
    case HumanTrust => "1,1"
    case Authentication => "2,1"
  }

  /** The z coordinate that encodes a level. */
  function LevelToZ(l: Level): (z: int)
    ensures -2 <= z <= 2 && ZToLevel(z) == l
  {
    match l
    case VeryLow => -2
    case Low => -1
    case Medium => 0
    case High => 1
    case VeryHigh => 2
  }

  /** The level a z coordinate in [-2,2] encodes. */
  function ZToLevel(z: int): Level {
    if z <= -2 then VeryLow else if z == -1 then Low else if z == 0 then Medium else if z == 1 then High else VeryHigh
  }

  /** Level-to-z is a bijection from the five levels onto [-2,2], with inverse `ZToLevel`. */
  lemma LevelToZBijection()
    ensures forall l: Level :: -2 <= LevelToZ(l) <= 2 && ZToLevel(LevelToZ(l)) == l
    ensures forall z | -2 <= z <= 2 :: LevelToZ(ZToLevel(z)) == z
  {
  }

  /** Every assessed characteristic is stored as 1. */
  lemma ProfileValueIsOne(v: Vendor, c: Characteristic)
    ensures Profile(v, c).value == 1
  {
  }

  /** The key of the cell that receives a characteristic's assessment: `f"{base},{z}"`. */
  function TargetKey(v: Vendor, c: Characteristic): string {
    BaseCoord(c) + "," + IntToString(LevelToZ(Profile(v, c).level))
  }

  /** The target is the cube cell (Index - 2, 1, z). */
  lemma TargetKeyIsCell(v: Vendor, c: Characteristic)
    ensures TargetKey(v, c) == Key(Coord(c.Index() - 2, 1, LevelToZ(Profile(v, c).level)))
    ensures InCube(Coord(c.Index() - 2, 1, LevelToZ(Profile(v, c).level)))
  {
    var x := IntToString(c.Index() - 2);
    var z := IntToString(LevelToZ(Profile(v, c).level));
    BaseCoordOf(c);
    JoinThree(x, IntToString(1), z, ',');
  }

  /** Each column prefix is the text of `(index - 2, 1)`. */
  lemma BaseCoordOf(c: Characteristic)
    ensures BaseCoord(c) == IntToString(c.Index() - 2) + [','] + IntToString(1)
  {
  }

  /** Joining three parts puts the separator between them. */
  lemma JoinThree(a: string, b: string, c: string, sep: char)
    ensures Join([a, b, c], sep) == a + [sep] + b + [sep] + c
  {
    assert [a, b, c][1..] == [b, c] && [b, c][1..] == [c];
    assert Join([b, c], sep) == b + [sep] + c;
    assert Join([a, b, c], sep) == a + [sep] + (b + [sep] + c);
  }

  /** Distinct characteristics have distinct targets. */
  lemma TargetsDistinct(v: Vendor, c: Characteristic, d: Characteristic)
    ensures TargetKey(v, c) == TargetKey(v, d) ==> c == d
  {
    TargetKeyIsCell(v, c);
    TargetKeyIsCell(v, d);
    KeyInjective(Coord(c.Index() - 2, 1, LevelToZ(Profile(v, c).level)), Coord(d.Index() - 2, 1, LevelToZ(Profile(v, d).level)));
  }

  /** The first pass: every security-subsystem cell gets value 0, other fields kept. */
  function ResetSecurity(data: Grid): (r: Grid)
    ensures r.Keys == data.Keys
    ensures forall k | k in data :: r[k] == (if data[k].subsystem == Some(SecuritySubsystem) then data[k].(value := Some(0)) else data[k])
  {
    map k | k in data :: if data[k].subsystem == Some(SecuritySubsystem) then data[k].(value := Some(0)) else data[k]
  }

  /** The last characteristic of `cs` whose target is `k`. */
  function FindTarget(v: Vendor, cs: seq<Characteristic>, k: string): (r: Option<Characteristic>)
    ensures r.Some? ==> r.value in cs && TargetKey(v, r.value) == k
    ensures r.None? ==> forall c | c in cs :: TargetKey(v, c) != k
  {
    if |cs| == 0 then None
    else if TargetKey(v, cs[|cs| - 1]) == k then Some(cs[|cs| - 1])
    else
      assert forall c | c in cs :: c in cs[..|cs| - 1] || c == cs[|cs| - 1];
      FindTarget(v, cs[..|cs| - 1], k)
  }

  /** The second pass over the characteristics `cs`: each target that exists gets the profile's value. */
  function SetTargets(data: Grid, v: Vendor, cs: seq<Characteristic>): (r: Grid)
    ensures r.Keys == data.Keys
  {
    if |cs| == 0 then data
    else
      var r := SetTargets(data, v, cs[..|cs| - 1]);
      var c := cs[|cs| - 1];
      var k := TargetKey(v, c);
      if k in r then r[k := r[k].(value := Some(Profile(v, c).value))] else r
  }

  /** After the second pass a cell carries the value of its target characteristic, if it has one. */
  lemma {:induction false} SetTargetsAt(data: Grid, v: Vendor, cs: seq<Characteristic>, k: string)
    requires k in data
    ensures SetTargets(data, v, cs)[k] ==
      match FindTarget(v, cs, k)
      case Some(c) => data[k].(value := Some(Profile(v, c).value))
      case None => data[k]
  {
    if |cs| > 0 {
      SetTargetsAt(data, v, cs[..|cs| - 1], k);
      var c := cs[|cs| - 1];
      if TargetKey(v, c) == k {
        var front := FindTarget(v, cs[..|cs| - 1], k);
        var r := SetTargets(data, v, cs[..|cs| - 1]);
        assert r[k].(value := Some(Profile(v, c).value)) == data[k].(value := Some(Profile(v, c).value)) by {
          match front
          case Some(_) =>
          case None =>
        }
      }
    }
  }

  /** The cell a key receives in the update, stated per key. */
  function Expected(data: Grid, v: Vendor, k: string): (r: Cell)
    requires k in data
    ensures r == data[k].(value := r.value)
    ensures r.value != data[k].value ==> r.value == Some(0) || r.value == Some(1)
    ensures data[k].subsystem == Some(SecuritySubsystem) ==> r.value == Some(0) || r.value == Some(1)
  {
    match FindTarget(v, AllCharacteristics, k)
    case Some(c) => data[k].(value := Some(Profile(v, c).value))
    case None => if data[k].subsystem == Some(SecuritySubsystem) then data[k].(value := Some(0)) else data[k]
  }

  /**
   * `update_ventilator_security`: no key is added or removed; each target
   * that exists carries its profile value; every other security cell carries
   * 0; every other cell is unchanged.
   */
  function UpdateVentilatorSecurity(data: Grid, v: Vendor): (r: Grid)
    ensures r.Keys == data.Keys
    ensures forall k | k in data :: r[k] == Expected(data, v, k)
  {
    var r := SetTargets(ResetSecurity(data), v, AllCharacteristics);
    UpdateAt(data, v);
    r
  }

  lemma UpdateAt(data: Grid, v: Vendor)
    ensures forall k | k in data :: SetTargets(ResetSecurity(data), v, AllCharacteristics)[k] == Expected(data, v, k)
  {
    forall k | k in data ensures SetTargets(ResetSecurity(data), v, AllCharacteristics)[k] == Expected(data, v, k) {
      SetTargetsAt(ResetSecurity(data), v, AllCharacteristics, k);
    }
  }

  /** Every characteristic is in the table the profile is applied from. */
  lemma AllCharacteristicsListed(c: Characteristic)
    ensures c in AllCharacteristics
  {
    match c
    case Confidentiality => assert AllCharacteristics[0] == c;
    case Integrity => assert AllCharacteristics[1] == c;
    case Availability => assert AllCharacteristics[2] == c;
    case HumanTrust => assert AllCharacteristics[3] == c;
    case Authentication => assert AllCharacteristics[4] == c;
  }

  /**
   * Every security cell that is not a target ends with value 0, every
   * existing target ends with value 1, and nothing but the value changes.
   */
  lemma UpdateValues(data: Grid, v: Vendor, k: string)
    requires k in data
    ensures (forall c: Characteristic :: TargetKey(v, c) != k) && data[k].subsystem == Some(SecuritySubsystem) ==>
      UpdateVentilatorSecurity(data, v)[k].value == Some(0)
    ensures (exists c: Characteristic :: TargetKey(v, c) == k) ==> UpdateVentilatorSecurity(data, v)[k].value == Some(1)
    ensures UpdateVentilatorSecurity(data, v)[k].(value := data[k].value) == data[k]
    ensures (forall c: Characteristic :: TargetKey(v, c) != k) && data[k].subsystem != Some(SecuritySubsystem) ==>
      UpdateVentilatorSecurity(data, v)[k] == data[k]
  {
    var e := Expected(data, v, k);
    assert UpdateVentilatorSecurity(data, v)[k] == e;
    var t := FindTarget(v, AllCharacteristics, k);
    match t
    case Some(c) =>
      ProfileValueIsOne(v, c);
    case None =>
      forall c: Characteristic ensures TargetKey(v, c) != k {
        AllCharacteristicsListed(c);
      }
  }

  /** Running the update twice gives the same grid as running it once. */
  lemma UpdateIdempotent(data: Grid, v: Vendor)
    ensures UpdateVentilatorSecurity(UpdateVentilatorSecurity(data, v), v) == UpdateVentilatorSecurity(data, v)
  {
    var once := UpdateVentilatorSecurity(data, v);
    var twice := UpdateVentilatorSecurity(once, v);
    assert twice.Keys == once.Keys;
    forall k | k in once ensures twice[k] == once[k] {
    }
  }
}

=== FILE: setup_wizard.dfy ===
/**
 * The new-IoT setup wizard: a selection screen, four questions (name,
 * subsystems, characteristics, information items per subsystem) and a
 * summary screen. Each user action is an event; the wizard's state is the
 * current screen, the collected data and the contents of the input boxes.
 */
module SetupWizard {
  import opened Base
  import opened Text

  // ---------------------------------------------------------------------------
  // Lists
  // ---------------------------------------------------------------------------

  /** Every element occurs once. */
  predicate NoDuplicates<T(==,!new)>(xs: seq<T>) {
    forall x | x in multiset(xs) :: multiset(xs)[x] == 1
  }

  function Elements<T(!new)>(xs: seq<T>): set<T> {
    set x | x in xs
  }

  /** The filtering loop itself: the head, when kept, then the filtered tail. */
  function Filtered<T(==)>(xs: seq<T>, s: T): seq<T> {
    if |xs| == 0 then []
    else if xs[0] == s then Filtered(xs[1..], s)
    else [xs[0]] + Filtered(xs[1..], s)
  }

  /**
   * `xs.filter(x => x !== s)`: every copy of `s` dropped, the rest kept in
   * order, so a kept element moves forward by the copies of `s` before it.
   */
  function Without<T(==,!new)>(xs: seq<T>, s: T): (r: seq<T>)
    ensures multiset(r) == multiset(xs)[s := 0]
    ensures forall x :: x in r <==> x in xs && x != s
    ensures s !in xs ==> r == xs
    ensures forall i {:trigger KeptAt(xs, s, r, i)} | 0 <= i < |xs| && xs[i] != s :: KeptAt(xs, s, r, i)
  {
    FilteredSpec(xs, s);
    Filtered(xs, s)
  }

  /**
   * The kept element `xs[i]` sits in `r` at `i` less the copies of `s`
   * before it.
   */
  predicate KeptAt<T(==)>(xs: seq<T>, s: T, r: seq<T>, i: nat)
    requires i < |xs|
  {
    i - multiset(xs[..i])[s] < |r| && r[i - multiset(xs[..i])[s]] == xs[i]
  }

  /** What the filtering loop keeps, how often, and where. */
  lemma {:induction false} FilteredSpec<T(!new)>(xs: seq<T>, s: T)
    ensures var r := Filtered(xs, s);
      multiset(r) == multiset(xs)[s := 0]
      && (forall x :: x in r <==> x in xs && x != s)
      && (s !in xs ==> r == xs)
      && forall i {:trigger KeptAt(xs, s, r, i)} | 0 <= i < |xs| && xs[i] != s :: KeptAt(xs, s, r, i)
    decreases |xs|
  {
    if |xs| > 0 {
      assert xs == [xs[0]] + xs[1..];
      FilteredSpec(xs[1..], s);
      WithoutShift(xs, s, Filtered(xs[1..], s));
    }
  }

  /** The position clause of `Without` for `xs` from the one for its tail. */
  lemma WithoutShift<T(!new)>(xs: seq<T>, s: T, rest: seq<T>)
    requires |xs| > 0
    requires forall i | 0 <= i < |xs[1..]| && xs[1..][i] != s :: KeptAt(xs[1..], s, rest, i)
    ensures var r := if xs[0] == s then rest else [xs[0]] + rest;
      forall i | 0 <= i < |xs| && xs[i] != s :: KeptAt(xs, s, r, i)
  {
    var r := if xs[0] == s then rest else [xs[0]] + rest;
    forall i | 0 <= i < |xs| && xs[i] != s
      ensures KeptAt(xs, s, r, i)
    {
      if i > 0 {
        assert xs[..i] == [xs[0]] + xs[1..][..i - 1];
        assert xs[1..][i - 1] == xs[i];
        assert KeptAt(xs[1..], s, rest, i - 1);
      }
    }
  }

  /** Filtering a concatenation filters each part: the kept elements keep their order. */
  lemma WithoutConcat<T(!new)>(xs: seq<T>, ys: seq<T>, s: T)
    ensures Without(xs + ys, s) == Without(xs, s) + Without(ys, s)
  {
    FilteredConcat(xs, ys, s);
  }

  lemma {:induction false} FilteredConcat<T(!new)>(xs: seq<T>, ys: seq<T>, s: T)
    ensures Filtered(xs + ys, s) == Filtered(xs, s) + Filtered(ys, s)
    decreases |xs|
  {
    if |xs| == 0 {
      assert xs + ys == ys;
    } else {
      assert (xs + ys)[1..] == xs[1..] + ys && (xs + ys)[0] == xs[0];
      FilteredConcat(xs[1..], ys, s);
    }
  }

  /** A one-element list loses its element exactly when it is the one filtered out. */
  lemma WithoutSingle<T(!new)>(x: T, s: T)
    ensures Without([x], s) == if x == s then [] else [x]
  {
    assert [x][1..] == [] && Filtered([], s) == [];
  }

  lemma AppendFresh<T(!new)>(xs: seq<T>, s: T)
    requires NoDuplicates(xs) && s !in xs
    ensures NoDuplicates(xs + [s])
    ensures Elements(xs + [s]) == Elements(xs) + {s}
  {
    assert multiset(xs + [s]) == multiset(xs) + multiset{s};
  }

  lemma WithoutKeepsDistinct<T(!new)>(xs: seq<T>, s: T)
    requires NoDuplicates(xs)
    ensures NoDuplicates(Without(xs, s))
    ensures Elements(Without(xs, s)) == Elements(xs) - {s}
  {
  }

  // ---------------------------------------------------------------------------
  // State
  // ---------------------------------------------------------------------------

  /** The wizard's screens, in order; any other step value renders the selection screen. */
  datatype Screen = Selection | Q1 | Q2 | Q3 | Q4 | Complete {
    function Rank(): nat {
      match this
      case Selection => 0
      case Q1 => 1
      case Q2 => 2
      case Q3 => 3
      case Q4 => 4
      case Complete => 5
    }
  }

  /** The screen each Back button returns to. */
  function Previous(s: Screen): (p: Screen)
    ensures s != Selection ==> p.Rank() + 1 == s.Rank()
  {
    match s
    case Selection => Selection
    case Q1 => Selection
    case Q2 => Q1
    case Q3 => Q2
    case Q4 => Q3
    case Complete => Q4
  }

  /** The collected description of the new system (`iotData`). */
  datatype IotData = IotData(name: string, subsystems: seq<string>, characteristics: seq<string>, informationItems: map<string, seq<string>>)

  /**
   * The component's whole state: the screen, the data, the three text inputs
   * and the subsystem chosen in the question-4 drop-down (`""` for none).
   */
  datatype Wizard = Wizard(step: Screen, data: IotData, subsystemInput: string, characteristicInput: string, infoItemInput: string, selected: string)

  /** One user action on the rendered screen. */
  datatype Event =
    | ChooseExisting
    | ChooseNew
    | EditName(name: string)
    | Next
    | Back
    | TypeSubsystem(text: string)
    | AddSubsystem
    | RemoveSubsystem(subsystem: string)
    | TypeCharacteristic(text: string)
    | AddCharacteristic
    | RemoveCharacteristic(characteristic: string)
    | SelectSubsystem(choice: string)
    | TypeInfoItem(text: string)
    | AddInfoItem
    | RemoveInfoItem(owner: string, item: string)
    | Proceed

  /** The arguments of `onComplete`: `('existing', null)` or `('new', iotData)`. */
  datatype Completion = Existing | New(data: IotData)

  datatype Outcome = Outcome(wizard: Wizard, completed: Option<Completion>)

  const Initial: Wizard := Wizard(Selection, IotData("", [], [], map[]), "", "", "", "")

  /**
   * A label for the `TypeError` thrown when the item list of the selected
   * subsystem is `undefined` and an array literal spreads it; the exact
   * message text depends on the JavaScript engine.
   */
  const NotIterable: string := "TypeError: prev.informationItems[selectedSubsystemForInfo] is not iterable"

  /** `!list.includes(s)` and `s.trim()`: the add buttons' guard. */
  predicate Admits(list: seq<string>, s: string) {
    !IsBlank(s) && s !in list
  }

  /**
   * The data the wizard keeps consistent: no repeated subsystem or
   * characteristic, and one information-item list per subsystem.
   */
  predicate WellFormed(d: IotData) {
    NoDuplicates(d.subsystems) && NoDuplicates(d.characteristics) && d.informationItems.Keys == Elements(d.subsystems)
  }

  /** The data is well formed and holds what the screens before the current one demanded. */
  predicate DataValid(w: Wizard) {
    WellFormed(w.data)
    && (w.step.Rank() >= 2 ==> !IsBlank(w.data.name))
    && (w.step.Rank() >= 3 ==> |w.data.subsystems| > 0)
    && (w.step.Rank() >= 4 ==> |w.data.characteristics| > 0)
  }

  /** The data is valid and the drop-down selection is empty or a listed subsystem. */
  predicate Valid(w: Wizard) {
    DataValid(w) && (w.selected == "" || w.selected in w.data.subsystems)
  }

  lemma InitialValid()
    ensures Valid(Initial)
  {
  }

  // ---------------------------------------------------------------------------
  // Handlers
  // ---------------------------------------------------------------------------

  /** `addSubsystem`: appends the typed name and gives it an empty item list, or does nothing. */
  function AddSubsystemTo(w: Wizard): (r: Wizard)
    ensures var s := w.subsystemInput;
      if Admits(w.data.subsystems, s) then
        r.data.subsystems == w.data.subsystems + [s] && r.subsystemInput == ""
        && r.data.informationItems.Keys == w.data.informationItems.Keys + {s} && r.data.informationItems[s] == []
        && (forall k | k in w.data.informationItems && k != s :: r.data.informationItems[k] == w.data.informationItems[k])
        && r.data.name == w.data.name && r.data.characteristics == w.data.characteristics
        && r.step == w.step && r.selected == w.selected
        && r == w.(data := r.data, subsystemInput := "")
      else r == w
  {
    var s := w.subsystemInput;
    if Admits(w.data.subsystems, s) then
      w.(data := w.data.(subsystems := w.data.subsystems + [s], informationItems := w.data.informationItems[s := []]), subsystemInput := "")
    else w
  }

  /**
   * `removeSubsystem`: drops the subsystem and its item list, leaving the
   * others' lists as they were. With `clearSelection` false this is the
   * handler as written, which leaves the question-4 selection alone; with it
   * true a selection of the removed subsystem is also cleared.
   */
  function RemoveSubsystemFrom(w: Wizard, s: string, clearSelection: bool): (r: Wizard)
    ensures r.data.subsystems == Without(w.data.subsystems, s)
    ensures forall x :: x in r.data.subsystems <==> x in w.data.subsystems && x != s
    ensures r.data.informationItems.Keys == w.data.informationItems.Keys - {s}
    ensures forall k | k in r.data.informationItems :: r.data.informationItems[k] == w.data.informationItems[k]
    ensures r.data.name == w.data.name && r.data.characteristics == w.data.characteristics && r.step == w.step
    ensures r.selected == (if clearSelection && w.selected == s then "" else w.selected)
    ensures r == w.(data := r.data, selected := r.selected)
  {
    var items := map k | k in w.data.informationItems && k != s :: w.data.informationItems[k];
    var d := w.data.(subsystems := Without(w.data.subsystems, s), informationItems := items);
    w.(data := d, selected := if clearSelection && w.selected == s then "" else w.selected)
  }

  /** `addCharacteristic`: the same non-blank, not-yet-listed rule as for subsystems. */
  function AddCharacteristicTo(w: Wizard): (r: Wizard)
    ensures var c := w.characteristicInput;
      if Admits(w.data.characteristics, c) then
        r.data.characteristics == w.data.characteristics + [c] && r.characteristicInput == ""
        && r.data.(characteristics := w.data.characteristics) == w.data
        && r.step == w.step && r.selected == w.selected
        && r == w.(data := r.data, characteristicInput := "")
      else r == w
  {
    var c := w.characteristicInput;
    if Admits(w.data.characteristics, c) then
      w.(data := w.data.(characteristics := w.data.characteristics + [c]), characteristicInput := "")
    else w
  }

  /** `removeCharacteristic`: filters out every equal entry. */
  function RemoveCharacteristicFrom(w: Wizard, c: string): (r: Wizard)
    ensures r.data.characteristics == Without(w.data.characteristics, c)
    ensures forall x :: x in r.data.characteristics <==> x in w.data.characteristics && x != c
    ensures multiset(r.data.characteristics) == multiset(w.data.characteristics)[c := 0]
    ensures r.data.(characteristics := w.data.characteristics) == w.data && r.step == w.step && r.selected == w.selected
    ensures r == w.(data := r.data)
  {
    w.(data := w.data.(characteristics := Without(w.data.characteristics, c)))
  }

  /**
   * `addInformationItem`: with a non-blank item and a selection, appends the
   * item (repeats allowed) to the selected subsystem's list and to no other.
   * When the selected subsystem has no list, spreading the missing list throws.
   */
  function AddInfoItemTo(w: Wizard): (r: Result<Wizard>)
    ensures var s := w.selected;
      if IsBlank(w.infoItemInput) || s == "" then r == Ok(w)
      else if s !in w.data.informationItems then r == Err(NotIterable)
      else
        r.Ok? && r.value.data.informationItems.Keys == w.data.informationItems.Keys
        && r.value.data.informationItems[s] == w.data.informationItems[s] + [w.infoItemInput]
        && (forall k | k in w.data.informationItems && k != s :: r.value.data.informationItems[k] == w.data.informationItems[k])
        && r.value.data.(informationItems := w.data.informationItems) == w.data
        && r.value.infoItemInput == "" && r.value.step == w.step && r.value.selected == s
        && r.value == w.(data := r.value.data, infoItemInput := "")
  {
    var s := w.selected;
    if IsBlank(w.infoItemInput) || s == "" then Ok(w)
    else if s !in w.data.informationItems then Err(NotIterable)
    else
      var items := w.data.informationItems[s := w.data.informationItems[s] + [w.infoItemInput]];
      Ok(w.(data := w.data.(informationItems := items), infoItemInput := ""))
  }

  /** `removeInformationItem`: removes every equal item from that subsystem's list only. */
  function RemoveInfoItemFrom(w: Wizard, s: string, item: string): (r: Wizard)
    requires s in w.data.informationItems
    ensures r.data.informationItems.Keys == w.data.informationItems.Keys
    ensures r.data.informationItems[s] == Without(w.data.informationItems[s], item)
    ensures multiset(r.data.informationItems[s]) == multiset(w.data.informationItems[s])[item := 0]
    ensures forall x :: x in r.data.informationItems[s] <==> x in w.data.informationItems[s] && x != item
    ensures forall k | k in w.data.informationItems && k != s :: r.data.informationItems[k] == w.data.informationItems[k]
    ensures r.data.(informationItems := w.data.informationItems) == w.data && r.step == w.step && r.selected == w.selected
    ensures r == w.(data := r.data)
  {
    var items := w.data.informationItems[s := Without(w.data.informationItems[s], item)];
    w.(data := w.data.(informationItems := items))
  }

  /**
   * The Next buttons: question 1 needs a non-blank name, question 2 a
   * subsystem, question 3 a characteristic; question 4 always moves on.
   */
  function Advance(w: Wizard): (r: Wizard)
    ensures r == w.(step := r.step)
    ensures r.step != w.step <==>
      (w.step == Q1 && !IsBlank(w.data.name)) || (w.step == Q2 && |w.data.subsystems| > 0)
      || (w.step == Q3 && |w.data.characteristics| > 0) || w.step == Q4
    ensures r.step != w.step ==> r.step.Rank() == w.step.Rank() + 1
  {
    match w.step
    case Q1 => if !IsBlank(w.data.name) then w.(step := Q2) else w
    case Q2 => if |w.data.subsystems| > 0 then w.(step := Q3) else w
    case Q3 => if |w.data.characteristics| > 0 then w.(step := Q4) else w
    case Q4 => w.(step := Complete)
    case _ => w
  }

  /** Back undoes a Next that moved. */
  lemma BackUndoesNext(w: Wizard)
    requires Advance(w).step != w.step
    ensures Advance(w).(step := Previous(Advance(w).step)) == w
  {
  }

  // ---------------------------------------------------------------------------
  // Events
  // ---------------------------------------------------------------------------

  /**
   * Whether the current screen renders a control that raises `e`: a remove
   * button exists only for a listed entry, the drop-down offers only listed
   * subsystems, and the item input only appears once a subsystem is selected.
   */
  predicate Offered(w: Wizard, e: Event): (r: bool)
    ensures w.step == Selection ==> (r <==> e == ChooseExisting || e == ChooseNew)
    ensures w.step == Q1 ==> (r <==> e.EditName? || e == Next || e == Back)
    ensures w.step == Q2 ==> (r <==>
      e.TypeSubsystem? || e == AddSubsystem || (e.RemoveSubsystem? && e.subsystem in w.data.subsystems) || e == Next || e == Back)
    ensures w.step == Q3 ==> (r <==>
      e.TypeCharacteristic? || e == AddCharacteristic || (e.RemoveCharacteristic? && e.characteristic in w.data.characteristics) || e == Next || e == Back)
    ensures w.step == Q4 ==> (r <==>
      (e.SelectSubsystem? && (e.choice == "" || e.choice in w.data.subsystems))
      || ((e.TypeInfoItem? || e == AddInfoItem) && w.selected != "")
      || (e.RemoveInfoItem? && e.owner in w.data.subsystems && e.owner in w.data.informationItems
          && e.item in w.data.informationItems[e.owner])
      || e == Next || e == Back)
    ensures w.step == Complete ==> (r <==> e == Back || e == Proceed)
  {
    match e
    case ChooseExisting => w.step == Selection
    case ChooseNew => w.step == Selection
    case EditName(_) => w.step == Q1
    case Next => w.step in {Q1, Q2, Q3, Q4}
    case Back => w.step != Selection
    case TypeSubsystem(_) => w.step == Q2
    case AddSubsystem => w.step == Q2
    case RemoveSubsystem(s) => w.step == Q2 && s in w.data.subsystems
    case TypeCharacteristic(_) => w.step == Q3
    case AddCharacteristic => w.step == Q3
    case RemoveCharacteristic(c) => w.step == Q3 && c in w.data.characteristics
    case SelectSubsystem(s) => w.step == Q4 && (s == "" || s in w.data.subsystems)
    case TypeInfoItem(_) => w.step == Q4 && w.selected != ""
    case AddInfoItem => w.step == Q4 && w.selected != ""
    case RemoveInfoItem(s, item) =>
      w.step == Q4 && s in w.data.subsystems && s in w.data.informationItems && item in w.data.informationItems[s]
    case Proceed => w.step == Complete
  }

  /**
   * One event. An event the screen does not offer changes nothing; the
   * completion events report `onComplete`'s arguments.
   */
  function StepWith(w: Wizard, e: Event, clearSelection: bool): (r: Result<Outcome>)
    ensures !Offered(w, e) ==> r == Ok(Outcome(w, None))
    ensures r.Err? ==> r == Err(NotIterable)
    ensures r.Err? <==>
      Offered(w, e) && e == AddInfoItem && !IsBlank(w.infoItemInput) && w.selected !in w.data.informationItems
    ensures r.Ok? && r.value.completed.Some? ==>
      && r.value.wizard == w
      && ((w.step == Selection && e == ChooseExisting && r.value.completed == Some(Existing))
          || (w.step == Complete && e == Proceed && r.value.completed == Some(New(w.data))))
  {
    if !Offered(w, e) then Ok(Outcome(w, None))
    else
      match e
      case ChooseExisting => Ok(Outcome(w, Some(Existing)))
      case ChooseNew => Ok(Outcome(w.(step := Q1), None))
      case EditName(n) => Ok(Outcome(w.(data := w.data.(name := n)), None))
      case Next => Ok(Outcome(Advance(w), None))
      case Back => Ok(Outcome(w.(step := Previous(w.step)), None))
      case TypeSubsystem(t) => Ok(Outcome(w.(subsystemInput := t), None))
      case AddSubsystem => Ok(Outcome(AddSubsystemTo(w), None))
      case RemoveSubsystem(s) => Ok(Outcome(RemoveSubsystemFrom(w, s, clearSelection), None))
      case TypeCharacteristic(t) => Ok(Outcome(w.(characteristicInput := t), None))
      case AddCharacteristic => Ok(Outcome(AddCharacteristicTo(w), None))
      case RemoveCharacteristic(c) => Ok(Outcome(RemoveCharacteristicFrom(w, c), None))
      case SelectSubsystem(s) => Ok(Outcome(w.(selected := s), None))
      case TypeInfoItem(t) => Ok(Outcome(w.(infoItemInput := t), None))
      case AddInfoItem =>
        (match AddInfoItemTo(w)
         case Ok(v) => Ok(Outcome(v, None))
         case Err(m) => Err(m))
      case RemoveInfoItem(s, item) => Ok(Outcome(RemoveInfoItemFrom(w, s, item), None))
      case Proceed => Ok(Outcome(w, Some(New(w.data))))
  }

  /** The component as written. */
  function StepAsWritten(w: Wizard, e: Event): (r: Result<Outcome>)
    ensures r.Err? ==> e == AddInfoItem && w.selected !in w.data.informationItems
    ensures Offered(w, e) && e.RemoveSubsystem? && w.selected == e.subsystem ==>
      r.Ok? && r.value.wizard.selected == e.subsystem
      && e.subsystem !in r.value.wizard.data.subsystems && e.subsystem !in r.value.wizard.data.informationItems
  {
    StepWith(w, e, false)
  }

  /** The component with a removed subsystem's selection cleared. */
  function Step(w: Wizard, e: Event): (r: Result<Outcome>)
    ensures r.Err? ==> e == AddInfoItem && w.selected !in w.data.informationItems
    ensures Offered(w, e) && e.RemoveSubsystem? ==>
      r.Ok? && (r.value.wizard.selected == "" || r.value.wizard.selected != e.subsystem)
  {
    StepWith(w, e, true)
  }

  /** A sequence of events from `w`; the first thrown error ends the run. */
  function Run(w: Wizard, es: seq<Event>, clearSelection: bool): (r: Result<Wizard>)
    ensures r.Err? ==> r == Err(NotIterable) && AddInfoItem in es
    decreases |es|
  {
    if |es| == 0 then Ok(w)
    else
      match StepWith(w, es[0], clearSelection)
      case Ok(o) => Run(o.wizard, es[1..], clearSelection)
      case Err(m) => Err(m)
  }

  // ---------------------------------------------------------------------------
  // Properties
  // ---------------------------------------------------------------------------

  lemma AddSubsystemValid(w: Wizard)
    requires DataValid(w) && w.step == Q2
    ensures DataValid(AddSubsystemTo(w))
  {
    if Admits(w.data.subsystems, w.subsystemInput) {
      AppendFresh(w.data.subsystems, w.subsystemInput);
    }
  }

  lemma RemoveSubsystemValid(w: Wizard, s: string, clearSelection: bool)
    requires DataValid(w) && w.step == Q2
    ensures DataValid(RemoveSubsystemFrom(w, s, clearSelection))
  {
    WithoutKeepsDistinct(w.data.subsystems, s);
  }

  lemma AddCharacteristicValid(w: Wizard)
    requires DataValid(w) && w.step == Q3
    ensures DataValid(AddCharacteristicTo(w))
  {
    if Admits(w.data.characteristics, w.characteristicInput) {
      AppendFresh(w.data.characteristics, w.characteristicInput);
    }
  }

  lemma RemoveCharacteristicValid(w: Wizard, c: string)
    requires DataValid(w) && w.step == Q3
    ensures DataValid(RemoveCharacteristicFrom(w, c))
  {
    WithoutKeepsDistinct(w.data.characteristics, c);
  }

  /**
   * Adding an item that does not throw keeps the data valid; in a valid
   * state a selected subsystem always has a list, so adding never throws.
   */
  lemma AddInfoItemValid(w: Wizard)
    requires DataValid(w) && w.step == Q4
    ensures AddInfoItemTo(w).Ok? ==> DataValid(AddInfoItemTo(w).value)
    ensures Valid(w) ==> AddInfoItemTo(w).Ok? && Valid(AddInfoItemTo(w).value)
  {
  }

  /**
   * Every step that does not throw keeps the data valid, in the wizard as
   * written and in the corrected one alike.
   */
  lemma StepKeepsData(w: Wizard, e: Event, clearSelection: bool)
    requires DataValid(w)
    ensures StepWith(w, e, clearSelection).Ok? ==> DataValid(StepWith(w, e, clearSelection).value.wizard)
  {
    if Offered(w, e) {
      match e
      case AddSubsystem => AddSubsystemValid(w);
      case RemoveSubsystem(s) => RemoveSubsystemValid(w, s, clearSelection);
      case AddCharacteristic => AddCharacteristicValid(w);
      case RemoveCharacteristic(c) => RemoveCharacteristicValid(w, c);
      case AddInfoItem => AddInfoItemValid(w);
      case _ =>
    }
  }

  /** A run that does not throw ends in valid data, in the wizard as written and in the corrected one. */
  lemma {:induction false} RunKeepsData(w: Wizard, es: seq<Event>, clearSelection: bool)
    requires DataValid(w)
    ensures Run(w, es, clearSelection).Ok? ==> DataValid(Run(w, es, clearSelection).value)
    decreases |es|
  {
    if |es| > 0 {
      StepKeepsData(w, es[0], clearSelection);
      if StepWith(w, es[0], clearSelection).Ok? {
        RunKeepsData(StepWith(w, es[0], clearSelection).value.wizard, es[1..], clearSelection);
      }
    }
  }

  /**
   * Every offered event keeps the state valid and, with the selection
   * cleared on removal, never throws.
   */
  lemma StepKeepsValid(w: Wizard, e: Event)
    requires Valid(w)
    ensures Step(w, e).Ok? && Valid(Step(w, e).value.wizard)
  {
    StepKeepsData(w, e, true);
    if Offered(w, e) && e == AddInfoItem {
      AddInfoItemValid(w);
    }
  }

  /** No sequence of user actions from the first screen makes the wizard throw. */
  lemma {:induction false} RunKeepsValid(w: Wizard, es: seq<Event>)
    requires Valid(w)
    ensures Run(w, es, true).Ok? && Valid(Run(w, es, true).value)
    decreases |es|
  {
    if |es| > 0 {
      StepKeepsValid(w, es[0]);
      RunKeepsValid(Step(w, es[0]).value.wizard, es[1..]);
    }
  }

  /**
   * `onComplete('new', data)` hands over the current data, and it is always
   * filled in: a non-blank name, at least one subsystem and characteristic,
   * and one item list per subsystem.
   */
  lemma CompletionIsFilledIn(w: Wizard, e: Event)
    requires DataValid(w)
    ensures FilledInCompletion(w, StepAsWritten(w, e))
    ensures FilledInCompletion(w, Step(w, e))
  {
  }

  /** A `('new', d)` completion hands over the current data, filled in. */
  predicate FilledInCompletion(w: Wizard, r: Result<Outcome>) {
    match r
    case Ok(Outcome(_, Some(New(d)))) =>
      d == w.data && !IsBlank(d.name) && |d.subsystems| > 0 && |d.characteristics| > 0 && WellFormed(d)
    case _ => true
  }

  /** `onComplete('existing', null)` is raised only from the selection screen, and leaves it as it is. */
  lemma ExistingOnlyFromSelection(w: Wizard, e: Event)
    ensures Step(w, e) == Ok(Outcome(w, Some(Existing))) <==> w.step == Selection && e == ChooseExisting
  {
  }

  /** Each Back button moves exactly one screen back and changes nothing else. */
  lemma BackMovesOneStep(w: Wizard)
    requires w.step != Selection
    ensures Step(w, Back) == Ok(Outcome(w.(step := Previous(w.step)), None))
    ensures Previous(w.step).Rank() + 1 == w.step.Rank()
  {
  }

  /** The as-written handler and the corrected one differ only in the removal of a subsystem. */
  lemma AsWrittenDiffersOnlyInRemoval(w: Wizard, e: Event)
    ensures !e.RemoveSubsystem? ==> StepAsWritten(w, e) == Step(w, e)
    ensures e.RemoveSubsystem? ==>
      StepAsWritten(w, e).Ok? && Step(w, e).Ok?
      && StepAsWritten(w, e).value.wizard == Step(w, e).value.wizard.(selected := StepAsWritten(w, e).value.wizard.selected)
  {
  }

  /** A state on question 4 with subsystem "a" selected; it is valid. */
  function Chosen(): (w: Wizard)
    ensures Valid(w) && w.step == Q4 && w.selected == "a"
  {
    var d := IotData("V", ["a", "b"], ["c"], map["a" := [], "b" := []]);
    assert multiset(d.subsystems) == multiset{"a", "b"};
    assert Elements(d.subsystems) == {"a", "b"};
    assert multiset(d.characteristics) == multiset{"c"};
    assert !IsJsSpace(d.name[0]);
    Wizard(Q4, d, "", "", "", "a")
  }

  /** Running two event sequences one after the other is running their concatenation. */
  lemma {:induction false} RunAppend(w: Wizard, a: seq<Event>, b: seq<Event>, clearSelection: bool)
    ensures Run(w, a + b, clearSelection) ==
      match Run(w, a, clearSelection)
      case Ok(v) => Run(v, b, clearSelection)
      case Err(m) => Err(m)
    decreases |a|
  {
    if |a| > 0 {
      assert (a + b)[0] == a[0] && (a + b)[1..] == a[1..] + b;
      match StepWith(w, a[0], clearSelection)
      case Ok(o) => RunAppend(o.wizard, a[1..], b, clearSelection);
      case Err(_) =>
    } else {
      assert a + b == b;
    }
  }

  /** The events that go back, remove the selected subsystem and return to question 4. */
  const RemoveSelectedAndReturn: seq<Event> := [Back, Back, RemoveSubsystem("a"), Next, Next]

  /** Where those events leave the component as written: question 4, the stale "a" still selected. */
  lemma StaleSelection()
    ensures Run(Chosen(), RemoveSelectedAndReturn, false).Ok?
    ensures var w := Run(Chosen(), RemoveSelectedAndReturn, false).value;
      w.step == Q4 && w.selected == "a" && "a" !in w.data.informationItems
  {
    assert RemoveSelectedAndReturn == [Back, Back] + [RemoveSubsystem("a"), Next, Next];
    RunAppend(Chosen(), [Back, Back], [RemoveSubsystem("a"), Next, Next], false);
    BackTwice(Chosen());
    RemoveAndReturn(Chosen().(step := Q2));
  }

  /** Two steps back from question 4 reach question 2 with nothing else changed. */
  lemma BackTwice(w: Wizard)
    requires w.step == Q4
    ensures Run(w, [Back, Back], false) == Ok(w.(step := Q2))
  {
    var w1 := w.(step := Q3);
    assert StepWith(w1, Back, false) == Ok(Outcome(w1.(step := Q2), None));
    assert StepWith(w, Back, false) == Ok(Outcome(w1, None));
  }

  /** On question 2, removing the selected "a" and going forward twice keeps "a" selected. */
  lemma RemoveAndReturn(w2: Wizard)
    requires w2 == Chosen().(step := Q2)
    ensures Run(w2, [RemoveSubsystem("a"), Next, Next], false).Ok?
    ensures var w := Run(w2, [RemoveSubsystem("a"), Next, Next], false).value;
      w.step == Q4 && w.selected == "a" && "a" !in w.data.informationItems
  {
    var w3 := RemoveSubsystemFrom(w2, "a", false);
    assert "b" in w3.data.subsystems && w3.selected == "a" && "a" !in w3.data.informationItems;
    RemoveSubsystemStep(w2, "a", false);
    assert [RemoveSubsystem("a"), Next, Next][1..] == [Next, Next];
    ForwardTwice(w3);
  }

  /** On question 2 the remove button of a listed subsystem runs the remove handler. */
  lemma RemoveSubsystemStep(w: Wizard, s: string, clearSelection: bool)
    requires w.step == Q2 && s in w.data.subsystems
    ensures StepWith(w, RemoveSubsystem(s), clearSelection) == Ok(Outcome(RemoveSubsystemFrom(w, s, clearSelection), None))
  {
  }

  /** From question 2 with subsystems and characteristics, two steps forward reach question 4. */
  lemma ForwardTwice(w: Wizard)
    requires w.step == Q2 && |w.data.subsystems| > 0 && |w.data.characteristics| > 0
    ensures Run(w, [Next, Next], false) == Ok(w.(step := Q4))
  {
    var w1 := w.(step := Q3);
    assert StepWith(w1, Next, false) == Ok(Outcome(w1.(step := Q4), None));
    assert Run(w1, [Next], false) == Ok(w1.(step := Q4));
    assert StepWith(w, Next, false) == Ok(Outcome(w1, None));
  }

  /** On question 4 with a selection that has no list, typing an item and adding it throws. */
  lemma AddingToStaleSelectionThrows(w: Wizard, item: string)
    requires w.step == Q4 && w.selected != "" && w.selected !in w.data.informationItems && !IsBlank(item)
    ensures Run(w, [TypeInfoItem(item), AddInfoItem], false) == Err(NotIterable)
  {
    var w6 := w.(infoItemInput := item);
    assert StepWith(w, TypeInfoItem(item), false) == Ok(Outcome(w6, None));
    assert StepWith(w6, AddInfoItem, false) == Err(NotIterable);
    assert [TypeInfoItem(item), AddInfoItem][1..] == [AddInfoItem];
  }

  /**
   * After those events, typing an item and adding it makes the component as
   * written throw, because the selected subsystem no longer has a list.
   */
  lemma StaleSelectionThrows()
    ensures Run(Chosen(), RemoveSelectedAndReturn + [TypeInfoItem("x"), AddInfoItem], false) == Err(NotIterable)
  {
    StaleSelection();
    var w5 := Run(Chosen(), RemoveSelectedAndReturn, false).value;
    RunAppend(Chosen(), RemoveSelectedAndReturn, [TypeInfoItem("x"), AddInfoItem], false);
    assert !IsJsSpace("x"[0]);
    AddingToStaleSelectionThrows(w5, "x");
  }

  /** The corrected component runs the same events without throwing. */
  lemma ClearedSelectionDoesNotThrow()
    ensures Run(Chosen(), RemoveSelectedAndReturn + [TypeInfoItem("x"), AddInfoItem], true).Ok?
  {
    RunKeepsValid(Chosen(), RemoveSelectedAndReturn + [TypeInfoItem("x"), AddInfoItem]);
  }
}

=== FILE: spec_parser.dfy ===
/**
 * The specification parser: it attributes candidate requirement sentences to
 * the five security characteristics by keyword, classifies each by
 * information state and measure type, records gaps, summarises coverage, and
 * flattens the result into spreadsheet rows and into cells of the
 * characteristic x state x measure array. The regular-expression scans of the
 * document text are inputs: the candidate requirement sentences (shared by
 * all characteristics) and the gap matches of each characteristic.
 */
module SpecParser {
  import opened Base
  import opened Text
  import opened Vocabulary
  import opened Cube

  // ---------------------------------------------------------------------------
  // Keyword classification
  // ---------------------------------------------------------------------------

  /** Some keyword of the list is a substring of the text (Python's `any(k in text for k in keywords)`). */
  predicate AnyOccurs(keywords: seq<string>, text: string) {
    exists k | k in keywords :: Occurs(k, text)
  }

  /**
   * The label of the first row of the table with a keyword in the text, or
   * the default when no row has one: the loop over a keyword dictionary in
   * its declaration order.
   */
  function Classify<T>(table: seq<(T, seq<string>)>, text: string, default: T): (r: T)
    ensures (forall i | 0 <= i < |table| :: !AnyOccurs(table[i].1, text)) ==> r == default
    ensures forall i | 0 <= i < |table| && AnyOccurs(table[i].1, text) ::
      (forall j | 0 <= j < i :: !AnyOccurs(table[j].1, text)) ==> r == table[i].0
  {
    if |table| == 0 then default
    else if AnyOccurs(table[0].1, text) then table[0].0
    else
      assert forall i | 1 <= i < |table| :: table[i] == table[1..][i - 1];
      Classify(table[1..], text, default)
  }

  /** The three information states, in the order the parser tries them. */
  datatype InfoState = Processing | Storage | Transmission {
    function Name(): string {
      match this
      case Processing => "processing"
      case Storage => "storage"
      case Transmission => "transmission"
    }

    /** The state's coordinate in the assurance array. */
    function Index(): nat {
      match this
      case Processing => 0
      case Storage => 1
      case Transmission => 2
    }
  }

  const ProcessingKeywords: seq<string> := ["process", "compute", "calculate", "analyze", "real-time"]
  const StorageKeywords: seq<string> := ["store", "save", "record", "log", "database", "memory"]
  const TransmissionKeywords: seq<string> := ["transmit", "send", "transfer", "communicate", "network"]

  const InfoStateTable: seq<(InfoState, seq<string>)> :=
    [(Processing, ProcessingKeywords), (Storage, StorageKeywords), (Transmission, TransmissionKeywords)]

  /**
   * `_determine_info_state`: the first state with a keyword in the
   * lower-cased text, processing by default.
   */
  function DetermineInfoState(text: string): (r: InfoState)
    ensures var t := Lower(text);
      (r == Storage <==> !AnyOccurs(ProcessingKeywords, t) && AnyOccurs(StorageKeywords, t)) &&
      (r == Transmission <==> !AnyOccurs(ProcessingKeywords, t) && !AnyOccurs(StorageKeywords, t) && AnyOccurs(TransmissionKeywords, t)) &&
      (r == Processing <==> AnyOccurs(ProcessingKeywords, t) || (!AnyOccurs(StorageKeywords, t) && !AnyOccurs(TransmissionKeywords, t)))
  {
    var t := Lower(text);
    var table := InfoStateTable;
    assert table[0] == (Processing, ProcessingKeywords);
    assert table[1] == (Storage, StorageKeywords);
    assert table[2] == (Transmission, TransmissionKeywords);
    Classify(table, t, Processing)
  }

  /** The three measure types, in the order the parser tries them. */
  datatype MeasureType = Technology | Policy | Training {
    function Name(): string {
      match this
      case Technology => "technology"
      case Policy => "policy"
      case Training => "training"
    }

    /** The measure's coordinate in the assurance array. */
    function Index(): nat {
      match this
      case Technology => 0
      case Policy => 1
      case Training => 2
    }
  }

  const TechnologyKeywords: seq<string> := ["implement", "deploy", "use", "install", "configure"]
  const PolicyKeywords: seq<string> := ["policy", "procedure", "guideline", "standard", "compliance"]
  const TrainingKeywords: seq<string> := ["train", "educate", "learn", "competency", "certification"]

  const MeasureTable: seq<(MeasureType, seq<string>)> :=
    [(Technology, TechnologyKeywords), (Policy, PolicyKeywords), (Training, TrainingKeywords)]

  /**
   * `_determine_measure_type`: the first measure type with a keyword in the
   * lower-cased text, technology by default.
   */
  function DetermineMeasureType(text: string): (r: MeasureType)
    ensures var t := Lower(text);
      (r == Policy <==> !AnyOccurs(TechnologyKeywords, t) && AnyOccurs(PolicyKeywords, t)) &&
      (r == Training <==> !AnyOccurs(TechnologyKeywords, t) && !AnyOccurs(PolicyKeywords, t) && AnyOccurs(TrainingKeywords, t)) &&
      (r == Technology <==> AnyOccurs(TechnologyKeywords, t) || (!AnyOccurs(PolicyKeywords, t) && !AnyOccurs(TrainingKeywords, t)))
  {
    var t := Lower(text);
    var table := MeasureTable;
    assert table[0] == (Technology, TechnologyKeywords);
    assert table[1] == (Policy, PolicyKeywords);
    assert table[2] == (Training, TrainingKeywords);
    Classify(table, t, Technology)
  }

  /** A text made of lower-case letters and punctuation is its own lower-case form. */
  lemma LowerOfLowercase(s: string)
    requires forall i | 0 <= i < |s| :: !IsUpper(s[i])
    ensures Lower(s) == s
  {
  }

  /**
   * The keyword "use" is tried before every training keyword, so a sentence
   * about training users is classified as a technology measure.
   */
  lemma TechnologyTakesPrecedence()
    ensures DetermineMeasureType("user training") == Technology
  {
    var s := "user training";
    LowerOfLowercase(s);
    assert "use" <= s[0..];
    assert Occurs("use", Lower(s));
    assert "use" in TechnologyKeywords;
  }

  // ---------------------------------------------------------------------------
  // Attribution to characteristics
  // ---------------------------------------------------------------------------

  /** The keywords that attribute a requirement to each characteristic. */
  function Keywords(c: Characteristic): seq<string> {
    match c
    case Confidentiality =>
      ["encryption", "confidential", "privacy", "data protection", "access control", "HIPAA", "GDPR", "secure", "classified"]
    case Integrity =>
      ["validation", "integrity", "checksum", "signature", "verification", "calibration", "accuracy", "tamper", "corruption"]
    case Availability =>
      ["uptime", "availability", "redundancy", "failover", "backup", "fault tolerance", "reliability", "emergency", "continuous"]
    case HumanTrust =>
      ["user interface", "UI", "training", "alarm", "trust", "usability", "intuitive", "workflow", "human factors", "ergonomic"]
    case Authentication =>
      ["authentication", "login", "password", "biometric", "multi-factor", "authorization", "identity", "access", "credential"]
  }

  /** A requirement goes to a characteristic when one of its keywords is a substring of the lower-cased requirement. */
  predicate Attributed(req: string, c: Characteristic) {
    AnyOccurs(Keywords(c), Lower(req))
  }

  /** The keywords of a list that have no capital letter, in order. */
  function WithoutCapitals(keywords: seq<string>): (r: seq<string>)
    ensures forall k | k in r :: k in keywords && !HasUpper(k)
    ensures forall k | k in keywords && !HasUpper(k) :: k in r
  {
    if |keywords| == 0 then []
    else (if HasUpper(keywords[0]) then [] else [keywords[0]]) + WithoutCapitals(keywords[1..])
  }

  /** Keywords with a capital letter can never match a lower-cased text, so only the others decide. */
  lemma CapitalKeywordsNeverMatch(keywords: seq<string>, text: string)
    ensures AnyOccurs(keywords, Lower(text)) <==> AnyOccurs(WithoutCapitals(keywords), Lower(text))
  {
    if AnyOccurs(keywords, Lower(text)) {
      var k :| k in keywords && Occurs(k, Lower(text));
      if HasUpper(k) {
        UpperNeverOccursInLower(k, text);
      }
    }
  }

  /** "UI", "HIPAA" and "GDPR" attribute nothing. */
  lemma CapitalKeywordsOfTable(req: string)
    ensures !Occurs("UI", Lower(req)) && !Occurs("HIPAA", Lower(req)) && !Occurs("GDPR", Lower(req))
  {
    assert "UI"[0] == 'U' && IsUpper('U');
    UpperNeverOccursInLower("UI", req);
    assert "HIPAA"[0] == 'H' && IsUpper('H');
    UpperNeverOccursInLower("HIPAA", req);
    assert "GDPR"[0] == 'G' && IsUpper('G');
    UpperNeverOccursInLower("GDPR", req);
  }

  /** One requirement can be attributed to several characteristics. */
  lemma SeveralCharacteristics()
    ensures Attributed("access control encryption", Confidentiality)
    ensures Attributed("access control encryption", Authentication)
  {
    var s := "access control encryption";
    LowerOfLowercase(s);
    assert "access control" <= s[0..];
    assert "access control" in Keywords(Confidentiality);
    assert "access" <= s[0..];
    assert "access" in Keywords(Authentication);
  }

  // ---------------------------------------------------------------------------
  // Requirements and gaps of one characteristic
  // ---------------------------------------------------------------------------

  /** An attributed requirement: its stripped text and its classification of the unstripped text. */
  datatype Requirement = Requirement(requirement: string, characteristic: Characteristic, infoState: InfoState, measureType: MeasureType)

  /** A gap: a matched gap sentence (`identified`), or the parser's own note of thin coverage. */
  datatype Gap = Gap(gap: string, characteristic: Characteristic, identified: bool)

  /** `t` is `req` with a white-space prefix and a white-space suffix cut off. */
  ghost predicate StrippedOf(req: string, t: string) {
    exists k: nat :: CutsSpace(req, t, k)
  }

  lemma StripIsStripped(req: string)
    ensures StrippedOf(req, Strip(req))
  {
    StripCutsSpace(req);
  }

  /**
   * The record of an attributed sentence: its text with surrounding white
   * space cut, classified on the text before stripping.
   */
  function MakeRequirement(req: string, c: Characteristic): (r: Requirement)
    ensures r.characteristic == c
    ensures StrippedOf(req, r.requirement)
    ensures |r.requirement| == 0 || (!IsPySpace(r.requirement[0]) && !IsPySpace(r.requirement[|r.requirement| - 1]))
    ensures r.infoState == DetermineInfoState(req) && r.measureType == DetermineMeasureType(req)
  {
    StripIsStripped(req);
    Requirement(Strip(req), c, DetermineInfoState(req), DetermineMeasureType(req))
  }

  /** How many elements of `xs` satisfy `keep`. */
  function Kept<A>(xs: seq<A>, keep: A -> bool): nat {
    if |xs| == 0 then 0
    else Kept(xs[..|xs| - 1], keep) + (if keep(xs[|xs| - 1]) then 1 else 0)
  }

  /** The image of the kept `xs[j]` sits in `r` after the images of the kept elements before it. */
  predicate PlacedAt<A, B(==)>(xs: seq<A>, keep: A -> bool, f: A -> B, r: seq<B>, j: nat)
    requires j < |xs|
  {
    Kept(xs[..j], keep) < |r| && r[Kept(xs[..j], keep)] == f(xs[j])
  }

  /** Every element of `r` is the image of a kept element of `xs`. */
  predicate ImagesOfKept<A, B(==)>(xs: seq<A>, keep: A -> bool, f: A -> B, r: seq<B>) {
    forall y | y in r :: exists j | 0 <= j < |xs| :: keep(xs[j]) && y == f(xs[j])
  }

  /**
   * The images under `f` of the elements satisfying `keep`, in order: one
   * image per kept element, placed after the images of those before it.
   */
  function FilterMap<A, B(==)>(xs: seq<A>, keep: A -> bool, f: A -> B): (r: seq<B>)
    ensures |r| == Kept(xs, keep) && |r| <= |xs|
    ensures forall j {:trigger PlacedAt(xs, keep, f, r, j)} | 0 <= j < |xs| && keep(xs[j]) :: PlacedAt(xs, keep, f, r, j)
    ensures ImagesOfKept(xs, keep, f, r)
    decreases |xs|
  {
    if |xs| == 0 then []
    else
      var n := |xs| - 1;
      var prefix := FilterMap(xs[..n], keep, f);
      FilterMapStep(xs, keep, f, prefix);
      prefix + (if keep(xs[n]) then [f(xs[n])] else [])
  }

  /** The contract of `FilterMap` for `xs` from the one for `xs` less its last element. */
  lemma FilterMapStep<A, B>(xs: seq<A>, keep: A -> bool, f: A -> B, prefix: seq<B>)
    requires |xs| > 0
    requires var n := |xs| - 1;
      |prefix| == Kept(xs[..n], keep) && |prefix| <= n
      && (forall j {:trigger PlacedAt(xs[..n], keep, f, prefix, j)} | 0 <= j < n && keep(xs[..n][j]) :: PlacedAt(xs[..n], keep, f, prefix, j))
      && ImagesOfKept(xs[..n], keep, f, prefix)
    ensures var n := |xs| - 1;
      var r := prefix + (if keep(xs[n]) then [f(xs[n])] else []);
      |r| == Kept(xs, keep) && |r| <= |xs|
      && (forall j {:trigger PlacedAt(xs, keep, f, r, j)} | 0 <= j < |xs| && keep(xs[j]) :: PlacedAt(xs, keep, f, r, j))
      && ImagesOfKept(xs, keep, f, r)
  {
    var n := |xs| - 1;
    var r := prefix + (if keep(xs[n]) then [f(xs[n])] else []);
    assert xs[..n + 1] == xs;
    forall j | 0 <= j < |xs| && keep(xs[j])
      ensures PlacedAt(xs, keep, f, r, j)
    {
      if j < n {
        assert xs[..n][..j] == xs[..j] && xs[..n][j] == xs[j];
        assert PlacedAt(xs[..n], keep, f, prefix, j);
      }
    }
    forall y | y in r
      ensures exists j | 0 <= j < |xs| :: keep(xs[j]) && y == f(xs[j])
    {
      if y in prefix {
        var j :| 0 <= j < n && keep(xs[..n][j]) && y == f(xs[..n][j]);
        assert xs[..n][j] == xs[j];
      } else {
        assert keep(xs[n]) && y == f(xs[n]);
      }
    }
  }

  /** Of two kept elements, the earlier one's image comes first. */
  lemma {:induction false} KeptBefore<A>(xs: seq<A>, keep: A -> bool, j: nat, k: nat)
    requires j < k <= |xs| && keep(xs[j])
    ensures Kept(xs[..j], keep) < Kept(xs[..k], keep)
    decreases k
  {
    assert xs[..k][..k - 1] == xs[..k - 1];
    if j == k - 1 {
      assert xs[..k][k - 1] == xs[j];
    } else {
      KeptBefore(xs, keep, j, k - 1);
    }
  }

  /** The test `any(keyword in req.lower() ...)` for characteristic `c`, as a function value. */
  function AttributedTo(c: Characteristic): string -> bool {
    req => Attributed(req, c)
  }

  function RecordFor(c: Characteristic): string -> Requirement {
    req => MakeRequirement(req, c)
  }

  /** The number of candidates attributed to `c`. */
  function CountAttributed(candidates: seq<string>, c: Characteristic): nat {
    Kept(candidates, AttributedTo(c))
  }

  /**
   * The record of candidate `j` sits in `r` after the records of the
   * attributed candidates before it.
   */
  predicate RecordAt(candidates: seq<string>, c: Characteristic, r: seq<Requirement>, j: nat)
    requires j < |candidates|
  {
    CountAttributed(candidates[..j], c) < |r| && r[CountAttributed(candidates[..j], c)] == MakeRequirement(candidates[j], c)
  }

  /**
   * The requirement records of the candidates attributed to `c`, in
   * candidate order: one record per attributed candidate, each placed after
   * the records of the attributed candidates before it.
   */
  function AttributedRequirements(candidates: seq<string>, c: Characteristic): (r: seq<Requirement>)
    ensures |r| == CountAttributed(candidates, c) && |r| <= |candidates|
    ensures forall j {:trigger RecordAt(candidates, c, r, j)} | 0 <= j < |candidates| && Attributed(candidates[j], c) ::
      RecordAt(candidates, c, r, j)
    ensures forall j | 0 <= j < |candidates| && Attributed(candidates[j], c) :: MakeRequirement(candidates[j], c) in r
    ensures forall x | x in r :: exists j | 0 <= j < |candidates| :: Attributed(candidates[j], c) && x == MakeRequirement(candidates[j], c)
  {
    var r := FilterMap(candidates, AttributedTo(c), RecordFor(c));
    assert forall j | 0 <= j < |candidates| && Attributed(candidates[j], c) :: RecordAt(candidates, c, r, j) by {
      forall j | 0 <= j < |candidates| && Attributed(candidates[j], c)
        ensures RecordAt(candidates, c, r, j)
      {
        assert AttributedTo(c)(candidates[j]);
        assert PlacedAt(candidates, AttributedTo(c), RecordFor(c), r, j);
      }
    }
    assert ImagesOfKept(candidates, AttributedTo(c), RecordFor(c), r);
    r
  }

  /** Of two attributed candidates, the earlier one's record comes first. */
  lemma AttributedInOrder(candidates: seq<string>, c: Characteristic, j: nat, k: nat)
    requires j < k < |candidates| && Attributed(candidates[j], c) && Attributed(candidates[k], c)
    ensures CountAttributed(candidates[..j], c) < CountAttributed(candidates[..k], c)
    ensures var r := AttributedRequirements(candidates, c);
      CountAttributed(candidates[..k], c) < |r|
      && r[CountAttributed(candidates[..j], c)] == MakeRequirement(candidates[j], c)
      && r[CountAttributed(candidates[..k], c)] == MakeRequirement(candidates[k], c)
  {
    var r := AttributedRequirements(candidates, c);
    assert RecordAt(candidates, c, r, j) && RecordAt(candidates, c, r, k);
    assert AttributedTo(c)(candidates[j]);
    KeptBefore(candidates, AttributedTo(c), j, k);
  }

  /** There is one record per attributed candidate. */
  lemma {:induction false} AttributedCount(candidates: seq<string>, c: Characteristic)
    ensures |AttributedRequirements(candidates, c)| == CountAttributed(candidates, c)
  {
    if |candidates| > 0 {
      AttributedCount(candidates[..|candidates| - 1], c);
    }
  }

  const LimitedPrefix: string := "Limited requirements found for "

  /** What `extract_requirements` returns for one characteristic. */
  datatype Extracted = Extracted(requirements: seq<Requirement>, gaps: seq<Gap>)

  /**
   * The gap records of one characteristic: the matched gap sentences,
   * stripped and marked identified, then the parser's note of limited
   * coverage when `limited` holds.
   */
  function GapsOf(gapMatches: seq<string>, c: Characteristic, limited: bool): (gs: seq<Gap>)
    ensures |gs| == |gapMatches| + (if limited then 1 else 0)
    ensures forall i | 0 <= i < |gapMatches| :: gs[i] == Gap(Strip(gapMatches[i]), c, true)
    ensures (exists g | g in gs :: !g.identified) <==> limited
    ensures limited ==> gs[|gs| - 1] == Gap(LimitedPrefix + c.Name(), c, false)
    ensures forall g | g in gs :: g.characteristic == c
  {
    var found := FoundGaps(gapMatches, c);
    if limited then
      var note := Gap(LimitedPrefix + c.Name(), c, false);
      assert (found + [note])[|found|] == note;
      found + [note]
    else found
  }

  /** The matched gaps, each stripped and marked identified. */
  function FoundGaps(gapMatches: seq<string>, c: Characteristic): (gs: seq<Gap>)
    ensures |gs| == |gapMatches|
    ensures forall i | 0 <= i < |gapMatches| :: gs[i] == Gap(Strip(gapMatches[i]), c, true)
    ensures forall g | g in gs :: g.identified && g.characteristic == c
  {
    seq(|gapMatches|, i requires 0 <= i < |gapMatches| => Gap(Strip(gapMatches[i]), c, true))
  }

  /**
   * `extract_requirements`: the attributed requirements, then the matched
   * gaps (stripped, identified), then a note of limited coverage when fewer
   * than two requirements were found.
   */
  function ExtractRequirements(candidates: seq<string>, gapMatches: seq<string>, c: Characteristic): (r: Extracted)
    ensures r.requirements == AttributedRequirements(candidates, c)
    ensures |r.gaps| == |gapMatches| + (if |r.requirements| < 2 then 1 else 0)
    ensures forall i | 0 <= i < |gapMatches| :: r.gaps[i] == Gap(Strip(gapMatches[i]), c, true)
    ensures (exists g | g in r.gaps :: !g.identified) <==> |r.requirements| < 2
    ensures |r.requirements| < 2 ==> r.gaps[|r.gaps| - 1] == Gap(LimitedPrefix + c.Name(), c, false)
    ensures forall g | g in r.gaps :: g.characteristic == c
  {
    var reqs := AttributedRequirements(candidates, c);
    Extracted(reqs, GapsOf(gapMatches, c, |reqs| < 2))
  }

  // ---------------------------------------------------------------------------
  // The whole document
  // ---------------------------------------------------------------------------

  datatype Coverage = Good | Limited {
    function Name(): string {
      match this
      case Good => "Good"
      case Limited => "Limited"
    }
  }

  /** Coverage is good from three requirements on. */
  function CoverageOf(count: nat): (r: Coverage)
    ensures r == Good <==> count >= 3
  {
    if count >= 3 then Good else Limited
  }

  /** One characteristic's entry of the results. */
  datatype CharResult = CharResult(characteristic: Characteristic, requirements: seq<Requirement>, gaps: seq<Gap>, count: nat)

  datatype Summary = Summary(totalRequirements: nat, totalGaps: nat, coverage: map<Characteristic, Coverage>)

  /** The parse results; `characteristics` is in the table's order. */
  datatype Results = Results(characteristics: seq<CharResult>, summary: Summary)

  function SumCounts(rs: seq<CharResult>): nat {
    if |rs| == 0 then 0 else SumCounts(rs[..|rs| - 1]) + rs[|rs| - 1].count
  }

  function SumGaps(rs: seq<CharResult>): nat {
    if |rs| == 0 then 0 else SumGaps(rs[..|rs| - 1]) + |rs[|rs| - 1].gaps|
  }

  /** The coverage of each entry, a later entry for the same characteristic replacing an earlier one. */
  function CoverageMap(rs: seq<CharResult>): map<Characteristic, Coverage> {
    if |rs| == 0 then map[] else CoverageMap(rs[..|rs| - 1])[rs[|rs| - 1].characteristic := CoverageOf(rs[|rs| - 1].count)]
  }

  /** An entry whose characteristic no later entry repeats keeps its coverage in the map. */
  lemma {:induction false} CoverageMapAt(rs: seq<CharResult>, i: nat)
    requires i < |rs|
    requires forall j | i < j < |rs| :: rs[j].characteristic != rs[i].characteristic
    ensures rs[i].characteristic in CoverageMap(rs) && CoverageMap(rs)[rs[i].characteristic] == CoverageOf(rs[i].count)
  {
    var n := |rs| - 1;
    if i < n {
      assert forall j | i < j < n :: rs[..n][j] == rs[j];
      CoverageMapAt(rs[..n], i);
      assert rs[..n][i] == rs[i];
    }
  }

  /** The entry the parser builds for one characteristic. */
  function CharResultOf(candidates: seq<string>, gapsFor: Characteristic -> seq<string>, c: Characteristic): (r: CharResult)
    ensures r.characteristic == c && r.count == |r.requirements|
    ensures r.requirements == AttributedRequirements(candidates, c)
    ensures |r.gaps| >= |gapsFor(c)|
    ensures (exists g | g in r.gaps :: !g.identified) <==> r.count < 2
  {
    var e := ExtractRequirements(candidates, gapsFor(c), c);
    CharResult(c, e.requirements, e.gaps, |e.requirements|)
  }

  /** One entry per characteristic, in the table's order, each counting its own requirements. */
  function Entries(candidates: seq<string>, gapsFor: Characteristic -> seq<string>): (rs: seq<CharResult>)
    ensures |rs| == 5
    ensures forall i | 0 <= i < 5 :: rs[i] == CharResultOf(candidates, gapsFor, AllCharacteristics[i])
    ensures forall i | 0 <= i < 5 :: rs[i].characteristic == AllCharacteristics[i] && rs[i].count == |rs[i].requirements|
    ensures forall i, j | 0 <= i < j < 5 :: rs[i].characteristic != rs[j].characteristic
  {
    AllCharacteristicsIndexed();
    seq(5, j requires 0 <= j < 5 => CharResultOf(candidates, gapsFor, AllCharacteristics[j]))
  }

  /**
   * The summary loop of `parse_specification`: the totals and the coverage
   * map accumulated over the entries in order.
   */
  method Summarise(rs: seq<CharResult>) returns (totalRequirements: nat, totalGaps: nat, coverage: map<Characteristic, Coverage>)
    ensures totalRequirements == SumCounts(rs) && totalGaps == SumGaps(rs)
    ensures coverage == CoverageMap(rs)
    ensures forall i | 0 <= i < |rs| && (forall j | i < j < |rs| :: rs[j].characteristic != rs[i].characteristic) ::
      rs[i].characteristic in coverage && coverage[rs[i].characteristic] == CoverageOf(rs[i].count)
  {
    totalRequirements, totalGaps, coverage := 0, 0, map[];
    for i := 0 to |rs|
      invariant totalRequirements == SumCounts(rs[..i])
      invariant totalGaps == SumGaps(rs[..i])
      invariant coverage == CoverageMap(rs[..i])
    {
      assert rs[..i + 1][..i] == rs[..i];
      totalRequirements := totalRequirements + rs[i].count;
      totalGaps := totalGaps + |rs[i].gaps|;
      coverage := coverage[rs[i].characteristic := CoverageOf(rs[i].count)];
    }
    assert rs[..|rs|] == rs;
    forall i | 0 <= i < |rs| && (forall j | i < j < |rs| :: rs[j].characteristic != rs[i].characteristic)
      ensures rs[i].characteristic in coverage && coverage[rs[i].characteristic] == CoverageOf(rs[i].count)
    {
      CoverageMapAt(rs, i);
    }
  }

  /**
   * `parse_specification`: nothing for a missing or empty document text;
   * otherwise one entry per characteristic with the totals and the coverage
   * of each accumulated along the way.
   */
  method ParseSpecification(text: Option<string>, candidates: seq<string>, gapsFor: Characteristic -> seq<string>)
    returns (r: Option<Results>)
    ensures r.None? <==> text.None? || text.value == ""
    ensures r.Some? ==>
      var rs := r.value.characteristics;
      |rs| == 5 &&
      (forall i | 0 <= i < 5 :: rs[i] == CharResultOf(candidates, gapsFor, AllCharacteristics[i])) &&
      (forall i | 0 <= i < 5 :: rs[i].count == |rs[i].requirements|) &&
      r.value.summary.totalRequirements == SumCounts(rs) &&
      r.value.summary.totalGaps == SumGaps(rs) &&
      (forall i | 0 <= i < 5 :: AllCharacteristics[i] in r.value.summary.coverage &&
        (r.value.summary.coverage[AllCharacteristics[i]] == Good <==> rs[i].count >= 3))
  {
    if text.None? || text.value == "" {
      return None;
    }
    var rs := Entries(candidates, gapsFor);
    var totalRequirements, totalGaps, coverage := Summarise(rs);
    forall i | 0 <= i < 5
      ensures AllCharacteristics[i] in coverage && coverage[AllCharacteristics[i]] == CoverageOf(rs[i].count)
    {
      assert forall j | i < j < 5 :: rs[j].characteristic != rs[i].characteristic;
      CoverageMapAt(rs, i);
    }
    return Some(Results(rs, Summary(totalRequirements, totalGaps, coverage)));
  }

  // ---------------------------------------------------------------------------
  // Spreadsheet rows
  // ---------------------------------------------------------------------------

  const SpreadsheetHeader: seq<string> :=
    ["Characteristic", "Requirement", "Information State", "Measure Type", "Gap Identified", "Coverage"]

  function RequirementRow(c: Characteristic, r: Requirement, coverage: string): seq<string> {
    [c.Name(), r.requirement, r.infoState.Name(), r.measureType.Name(), "No", coverage]
  }

  function GapRow(c: Characteristic, g: Gap, coverage: string): seq<string> {
    [c.Name(), "", "", "", g.gap, coverage]
  }

  /** The rows of one characteristic: its requirements, then its gaps. */
  function CharacteristicRows(cr: CharResult, coverage: string): (rows: seq<seq<string>>)
    ensures |rows| == |cr.requirements| + |cr.gaps|
    ensures forall i | 0 <= i < |cr.requirements| :: rows[i] == RequirementRow(cr.characteristic, cr.requirements[i], coverage)
    ensures forall i | 0 <= i < |cr.gaps| :: rows[|cr.requirements| + i] == GapRow(cr.characteristic, cr.gaps[i], coverage)
  {
    seq(|cr.requirements|, i requires 0 <= i < |cr.requirements| => RequirementRow(cr.characteristic, cr.requirements[i], coverage)) +
    seq(|cr.gaps|, i requires 0 <= i < |cr.gaps| => GapRow(cr.characteristic, cr.gaps[i], coverage))
  }

  function SumRows(rs: seq<CharResult>): nat {
    if |rs| == 0 then 0 else SumRows(rs[..|rs| - 1]) + |rs[|rs| - 1].requirements| + |rs[|rs| - 1].gaps|
  }

  /**
   * The rows of `rs[i]`, written with its coverage, sit in `rows` right
   * after the rows of the characteristics before it.
   */
  predicate BlockAt(rs: seq<CharResult>, coverage: map<Characteristic, Coverage>, rows: seq<seq<string>>, i: nat)
    requires i < |rs| && rs[i].characteristic in coverage
  {
    var block := CharacteristicRows(rs[i], coverage[rs[i].characteristic].Name());
    SumRows(rs[..i]) + |block| <= |rows| && rows[SumRows(rs[..i])..SumRows(rs[..i]) + |block|] == block
  }

  /**
   * The data rows of every characteristic in order; `None` when a coverage
   * entry is missing (a `KeyError`).
   */
  function DataRows(rs: seq<CharResult>, coverage: map<Characteristic, Coverage>): (rows: Option<seq<seq<string>>>)
    ensures rows.Some? <==> forall i | 0 <= i < |rs| :: rs[i].characteristic in coverage
    ensures rows.Some? ==> |rows.value| == SumRows(rs) && forall j | 0 <= j < |rows.value| :: |rows.value[j]| == 6
    ensures rows.Some? ==> forall i {:trigger BlockAt(rs, coverage, rows.value, i)} | 0 <= i < |rs| :: BlockAt(rs, coverage, rows.value, i)
    decreases |rs|
  {
    if |rs| == 0 then Some([])
    else
      var n := |rs| - 1;
      var front := DataRows(rs[..n], coverage);
      assert forall i | 0 <= i < n :: rs[..n][i] == rs[i];
      if front.Some? && rs[n].characteristic in coverage then
        var more := CharacteristicRows(rs[n], coverage[rs[n].characteristic].Name());
        DataRowsStep(rs, coverage, front.value, more);
        Some(front.value + more)
      else None
  }

  /** The block clause of `DataRows` for `rs` from the one for `rs` less its last entry. */
  lemma DataRowsStep(rs: seq<CharResult>, coverage: map<Characteristic, Coverage>, front: seq<seq<string>>, more: seq<seq<string>>)
    requires |rs| > 0 && forall i | 0 <= i < |rs| :: rs[i].characteristic in coverage
    requires var n := |rs| - 1;
      |front| == SumRows(rs[..n])
      && (forall i {:trigger BlockAt(rs[..n], coverage, front, i)} | 0 <= i < n :: BlockAt(rs[..n], coverage, front, i))
      && more == CharacteristicRows(rs[n], coverage[rs[n].characteristic].Name())
    ensures forall i {:trigger BlockAt(rs, coverage, front + more, i)} | 0 <= i < |rs| :: BlockAt(rs, coverage, front + more, i)
  {
    var n := |rs| - 1;
    var rows := front + more;
    assert rows[|front|..|front| + |more|] == more;
    forall i | 0 <= i < |rs|
      ensures BlockAt(rs, coverage, rows, i)
    {
      if i < n {
        assert rs[..n][..i] == rs[..i] && rs[..n][i] == rs[i];
        assert BlockAt(rs[..n], coverage, front, i);
        var block := CharacteristicRows(rs[i], coverage[rs[i].characteristic].Name());
        var start := SumRows(rs[..i]);
        assert rows[start..start + |block|] == front[start..start + |block|];
      } else {
        assert rs[..i] == rs[..n];
      }
    }
  }

  /**
   * `generate_spreadsheet_output`: the header, then the rows of every
   * characteristic in order, each block written with its coverage.
   */
  function SpreadsheetOutput(results: Results): (rows: Option<seq<seq<string>>>)
    ensures rows.Some? <==> forall i | 0 <= i < |results.characteristics| :: results.characteristics[i].characteristic in results.summary.coverage
    ensures rows.Some? ==>
      |rows.value| == 1 + SumRows(results.characteristics) && rows.value[0] == SpreadsheetHeader &&
      forall j | 0 <= j < |rows.value| :: |rows.value[j]| == 6
    ensures rows.Some? ==>
      forall i {:trigger BlockAt(results.characteristics, results.summary.coverage, rows.value[1..], i)} | 0 <= i < |results.characteristics| ::
        BlockAt(results.characteristics, results.summary.coverage, rows.value[1..], i)
  {
    match DataRows(results.characteristics, results.summary.coverage)
    case Some(rows) =>
      assert ([SpreadsheetHeader] + rows)[1..] == rows;
      Some([SpreadsheetHeader] + rows)
    case None => None
  }

  /**
   * Row by row: after the header, characteristic `i`'s requirement rows
   * (gap column "No") and then its gap rows (blank columns 2-4), every one
   * carrying the characteristic's coverage.
   */
  lemma SpreadsheetRowsInOrder(results: Results, i: nat)
    requires SpreadsheetOutput(results).Some? && i < |results.characteristics|
    ensures var rows := SpreadsheetOutput(results).value;
      var cr := results.characteristics[i];
      var cov := results.summary.coverage[cr.characteristic].Name();
      var start := 1 + SumRows(results.characteristics[..i]);
      start + |cr.requirements| + |cr.gaps| <= |rows|
      && (forall j | 0 <= j < |cr.requirements| :: rows[start + j] == RequirementRow(cr.characteristic, cr.requirements[j], cov))
      && (forall j | 0 <= j < |cr.gaps| :: rows[start + |cr.requirements| + j] == GapRow(cr.characteristic, cr.gaps[j], cov))
  {
    var rows := SpreadsheetOutput(results).value;
    var cr := results.characteristics[i];
    var cov := results.summary.coverage[cr.characteristic].Name();
    var start := 1 + SumRows(results.characteristics[..i]);
    assert BlockAt(results.characteristics, results.summary.coverage, rows[1..], i);
    var block := CharacteristicRows(cr, cov);
    assert rows[start..start + |block|] == rows[1..][start - 1..start - 1 + |block|];
    forall k | 0 <= k < |block|
      ensures rows[start + k] == block[k]
    {
      assert rows[start..start + |block|][k] == rows[start + k];
    }
  }

  /** The parser's own results always flatten, to 1 + Σ(requirements + gaps) rows. */
  method ParsedResultsFlatten(text: string, candidates: seq<string>, gapsFor: Characteristic -> seq<string>)
    returns (rows: seq<seq<string>>)
    requires text != ""
    ensures |rows| >= 6
    ensures rows[0] == SpreadsheetHeader
    ensures forall j | 0 <= j < |rows| :: |rows[j]| == 6
  {
    var r := ParseSpecification(Some(text), candidates, gapsFor);
    var results := r.value;
    var out := SpreadsheetOutput(results);
    assert out.Some?;
    rows := out.value;
    forall i | 0 <= i < |results.characteristics|
      ensures |results.characteristics[i].requirements| + |results.characteristics[i].gaps| >= 1
    {
      EachCharacteristicHasARow(candidates, gapsFor, AllCharacteristics[i]);
    }
    RowsAtLeastOnePerCharacteristic(results.characteristics);
  }

  /** A characteristic with fewer than two requirements gets the limited-coverage note, so it always has a row. */
  lemma EachCharacteristicHasARow(candidates: seq<string>, gapsFor: Characteristic -> seq<string>, c: Characteristic)
    ensures var cr := CharResultOf(candidates, gapsFor, c); |cr.requirements| + |cr.gaps| >= 1
  {
  }

  lemma {:induction false} RowsAtLeastOnePerCharacteristic(rs: seq<CharResult>)
    requires forall i | 0 <= i < |rs| :: |rs[i].requirements| + |rs[i].gaps| >= 1
    ensures SumRows(rs) >= |rs|
  {
    if |rs| > 0 {
      var n := |rs| - 1;
      assert forall i | 0 <= i < n :: rs[..n][i] == rs[i];
      RowsAtLeastOnePerCharacteristic(rs[..n]);
    }
  }

  // ---------------------------------------------------------------------------
  // The assurance-array cells
  // ---------------------------------------------------------------------------

  /** One cell of the characteristic x state x measure array. */
  datatype IaEntry = IaEntry(coordinateId: string, characteristic: Characteristic, infoState: InfoState,
                             measureType: MeasureType, description: string, requirement: string, value: int)

  /** The array coordinate of a requirement of characteristic `c`. */
  function IaCoord(c: Characteristic, r: Requirement): Coord {
    Coord(c.Index(), r.infoState.Index(), r.measureType.Index())
  }

  /** The coordinates the array has: c in [0,4], s in [0,2], m in [0,2]. */
  predicate InIaArray(p: Coord) {
    0 <= p.x <= 4 && 0 <= p.y <= 2 && 0 <= p.z <= 2
  }

  function IaEntryOf(c: Characteristic, r: Requirement): IaEntry {
    IaEntry(Key(IaCoord(c, r)), c, r.infoState, r.measureType,
      c.Name() + " - " + r.infoState.Name() + " - " + r.measureType.Name(), r.requirement, 1)
  }

  /** Every requirement of the results with its characteristic, in output order. */
  function AllRequirements(rs: seq<CharResult>): seq<(Characteristic, Requirement)> {
    if |rs| == 0 then []
    else
      var cr := rs[|rs| - 1];
      AllRequirements(rs[..|rs| - 1]) + seq(|cr.requirements|, i requires 0 <= i < |cr.requirements| => (cr.characteristic, cr.requirements[i]))
  }

  /**
   * The map built by writing `val(x)` at `key(x)` for each element in turn:
   * every key present comes from the last element that has it.
   */
  function Assign<A, K, V>(xs: seq<A>, key: A -> K, val: A -> V): (m: map<K, V>)
    ensures |m| <= |xs|
    ensures forall i | 0 <= i < |xs| :: key(xs[i]) in m
  {
    if |xs| == 0 then map[]
    else
      var n := |xs| - 1;
      var m := Assign(xs[..n], key, val);
      assert forall i | 0 <= i < n :: xs[..n][i] == xs[i];
      m[key(xs[n]) := val(xs[n])]
  }

  /** Every entry of `Assign` was written by the last element with its key. */
  lemma {:induction false} AssignLastWriter<A, K, V>(xs: seq<A>, key: A -> K, val: A -> V, k: K)
    requires k in Assign(xs, key, val)
    ensures exists i | 0 <= i < |xs| ::
      k == key(xs[i]) && Assign(xs, key, val)[k] == val(xs[i]) && forall j | i < j < |xs| :: key(xs[j]) != k
  {
    var n := |xs| - 1;
    if key(xs[n]) != k {
      var front := xs[..n];
      AssignLastWriter(front, key, val, k);
      var i :| 0 <= i < |front| &&
        k == key(front[i]) && Assign(front, key, val)[k] == val(front[i]) && forall j | i < j < |front| :: key(front[j]) != k;
      assert front[i] == xs[i];
      assert forall j | i < j < n :: front[j] == xs[j];
    }
  }

  /** Every key of `Assign` is the key of some element. */
  lemma {:induction false} AssignKeyFrom<A, K, V>(xs: seq<A>, key: A -> K, val: A -> V, k: K)
    requires k in Assign(xs, key, val)
    ensures exists i | 0 <= i < |xs| :: k == key(xs[i])
  {
    var n := |xs| - 1;
    if key(xs[n]) != k {
      AssignKeyFrom(xs[..n], key, val, k);
      var i :| 0 <= i < n && k == key(xs[..n][i]);
      assert xs[..n][i] == xs[i];
    }
  }

  function IaKey(p: (Characteristic, Requirement)): string {
    Key(IaCoord(p.0, p.1))
  }

  function IaValue(p: (Characteristic, Requirement)): IaEntry {
    IaEntryOf(p.0, p.1)
  }

  /**
   * The array cells the requirements fill, each written in turn so that a
   * later requirement at the same coordinate replaces an earlier one.
   */
  function IaCells(reqs: seq<(Characteristic, Requirement)>): (m: map<string, IaEntry>)
    ensures |m| <= |reqs|
    ensures forall i | 0 <= i < |reqs| :: IaKey(reqs[i]) in m
  {
    Assign(reqs, IaKey, IaValue)
  }

  /**
   * Each cell holds the entry of the last requirement with its coordinate:
   * value 1 and `coordinate_id` equal to its key.
   */
  lemma IaCellsLastWriter(reqs: seq<(Characteristic, Requirement)>, k: string)
    requires k in IaCells(reqs)
    ensures exists i | 0 <= i < |reqs| ::
      k == IaKey(reqs[i]) && IaCells(reqs)[k] == IaEntryOf(reqs[i].0, reqs[i].1) &&
      forall j | i < j < |reqs| :: IaKey(reqs[j]) != k
    ensures IaCells(reqs)[k].value == 1 && IaCells(reqs)[k].coordinateId == k
  {
    AssignLastWriter(reqs, IaKey, IaValue, k);
  }

  /** `convert_to_ia_json_schema`. */
  function ConvertToIaJson(results: Results): (m: map<string, IaEntry>)
    ensures var reqs := AllRequirements(results.characteristics);
      |m| <= |reqs| && forall i | 0 <= i < |reqs| :: IaKey(reqs[i]) in m
    ensures forall k | k in m :: m[k].value == 1 && m[k].coordinateId == k
  {
    var m := IaCells(AllRequirements(results.characteristics));
    assert forall k | k in m :: m[k].value == 1 && m[k].coordinateId == k by {
      forall k | k in m
        ensures m[k].value == 1 && m[k].coordinateId == k
      {
        IaCellsLastWriter(AllRequirements(results.characteristics), k);
      }
    }
    m
  }

  /** Every cell key is `"c,s,m"` of a coordinate inside the array, and reads back as that coordinate. */
  lemma IaKeysInArray(results: Results, k: string)
    requires k in ConvertToIaJson(results)
    ensures exists p | InIaArray(p) :: k == Key(p) && Position(k) == [Some(p.x), Some(p.y), Some(p.z)]
  {
    var reqs := AllRequirements(results.characteristics);
    AssignKeyFrom(reqs, IaKey, IaValue, k);
    var i :| 0 <= i < |reqs| && k == IaKey(reqs[i]);
    IaKeyReadsBack(reqs[i]);
  }

  /** A requirement's cell key names a coordinate inside the array and reads back as it. */
  lemma IaKeyReadsBack(q: (Characteristic, Requirement))
    ensures var p := IaCoord(q.0, q.1);
      InIaArray(p) && Position(IaKey(q)) == [Some(p.x), Some(p.y), Some(p.z)]
  {
    PositionOfKey(IaCoord(q.0, q.1));
  }

  /** Two requirements land in the same cell exactly when characteristic, state and measure all agree. */
  lemma IaCellsCollide(c: Characteristic, r: Requirement, d: Characteristic, s: Requirement)
    ensures Key(IaCoord(c, r)) == Key(IaCoord(d, s)) <==>
      c == d && r.infoState == s.infoState && r.measureType == s.measureType
  {
    KeyInjective(IaCoord(c, r), IaCoord(d, s));
  }
}

=== FILE: spec_sheet.dfy ===
/**
 * The specification-analysis screen's spreadsheet view and CSV export: the
 * parse result's characteristics, in the object's entry order, are
 * flattened into one row per requirement followed by one row per gap, and
 * the rows are written out as comma-separated, double-quoted fields.
 */
module SpecSheet {
  import opened Base
  import opened Text

  // ---------------------------------------------------------------------------
  // The parse result as the screen receives it
  // ---------------------------------------------------------------------------

  datatype Requirement = Requirement(requirement: string, infoState: string, measureType: string)

  datatype GapNote = GapNote(gap: string, characteristic: string)

  datatype CharacteristicResult = CharacteristicResult(requirements: seq<Requirement>, gaps: seq<GapNote>, count: int, coverage: string)

  /** One `[name, result]` pair of `Object.entries(parseResults.characteristics)`. */
  datatype Entry = Entry(name: string, result: CharacteristicResult)

  /** The parse result: its characteristics in entry order and the summary block. */
  datatype ParseResults = ParseResults(characteristics: seq<Entry>, totalRequirements: int, totalGaps: int, coverage: map<string, string>)

  /** One spreadsheet row. */
  datatype Row = Row(characteristic: string, requirement: string, infoState: string, measureType: string, gap: string, coverage: string)

  /** A row's six cells, in column order. */
  function Fields(r: Row): (fs: seq<string>)
    ensures |fs| == 6
  {
    [r.characteristic, r.requirement, r.infoState, r.measureType, r.gap, r.coverage]
  }

  lemma FieldsInjective(a: Row, b: Row)
    ensures Fields(a) == Fields(b) ==> a == b
  {
    if Fields(a) == Fields(b) {
      assert Fields(a)[0] == Fields(b)[0] && Fields(a)[1] == Fields(b)[1] && Fields(a)[2] == Fields(b)[2];
      assert Fields(a)[3] == Fields(b)[3] && Fields(a)[4] == Fields(b)[4] && Fields(a)[5] == Fields(b)[5];
    }
  }

  // ---------------------------------------------------------------------------
  // `generateSpreadsheetView`
  // ---------------------------------------------------------------------------

  /** A requirement's row: no gap text, the characteristic's coverage. */
  function RequirementRow(name: string, c: CharacteristicResult, q: Requirement): Row {
    Row(name, q.requirement, q.infoState, q.measureType, "", c.coverage)
  }

  /** A gap's row: empty requirement, state and measure cells, the characteristic's coverage. */
  function GapRow(name: string, c: CharacteristicResult, g: GapNote): Row {
    Row(name, "", "", "", g.gap, c.coverage)
  }

  /** One characteristic's rows: its requirements, then its gaps. */
  function Block(e: Entry): seq<Row> {
    var c := e.result;
    seq(|c.requirements|, j requires 0 <= j < |c.requirements| => RequirementRow(e.name, c, c.requirements[j]))
    + seq(|c.gaps|, k requires 0 <= k < |c.gaps| => GapRow(e.name, c, c.gaps[k]))
  }

  /** The number of rows the entries contribute: requirements plus gaps, summed. */
  function Size(es: seq<Entry>): nat {
    if |es| == 0 then 0 else |es[0].result.requirements| + |es[0].result.gaps| + Size(es[1..])
  }

  function Flatten(es: seq<Entry>): (rows: seq<Row>)
    ensures |rows| == Size(es)
  {
    if |es| == 0 then [] else Block(es[0]) + Flatten(es[1..])
  }

  /**
   * `generateSpreadsheetView`: nothing without a parse result; otherwise one
   * row per requirement and per gap.
   */
  function SpreadsheetView(results: Option<ParseResults>): (r: Option<seq<Row>>)
    ensures r.None? <==> results.None?
    ensures r.Some? ==> |r.value| == Size(results.value.characteristics)
  {
    match results
    case None => None
    case Some(p) => Some(Flatten(p.characteristics))
  }

  /**
   * The rows of the i-th characteristic start after the rows of the ones
   * before it: first its requirements in order, then its gaps in order.
   */
  lemma {:induction false} FlattenAt(es: seq<Entry>, i: nat, j: nat)
    requires i < |es| && j < |Block(es[i])|
    ensures Size(es[..i]) + j < |Flatten(es)|
    ensures Flatten(es)[Size(es[..i]) + j] == Block(es[i])[j]
  {
    if i > 0 {
      FlattenAt(es[1..], i - 1, j);
      assert es[..i][1..] == es[1..][..i - 1];
      assert es[1..][i - 1] == es[i];
    }
  }

  lemma {:induction false} SizeOfPrefix(es: seq<Entry>, i: nat)
    requires i <= |es|
    ensures Size(es[..i]) <= Size(es)
  {
    if i > 0 {
      SizeOfPrefix(es[1..], i - 1);
      assert es[..i][1..] == es[1..][..i - 1];
    }
  }

  lemma BlockRequirement(e: Entry, j: nat)
    requires j < |e.result.requirements|
    ensures j < |Block(e)| && Block(e)[j] == RequirementRow(e.name, e.result, e.result.requirements[j])
  {
  }

  lemma BlockGap(e: Entry, k: nat)
    requires k < |e.result.gaps|
    ensures |e.result.requirements| + k < |Block(e)|
    ensures Block(e)[|e.result.requirements| + k] == GapRow(e.name, e.result, e.result.gaps[k])
  {
  }

  /** The i-th characteristic's requirement rows follow the rows before it, in their order. */
  lemma RequirementRowsInOrder(es: seq<Entry>, i: nat)
    requires i < |es|
    ensures Size(es[..i]) + |es[i].result.requirements| <= |Flatten(es)|
    ensures var start := Size(es[..i]);
      forall n | start <= n < start + |es[i].result.requirements| ::
        Flatten(es)[n] == RequirementRow(es[i].name, es[i].result, es[i].result.requirements[n - start])
  {
    var e := es[i];
    var start := Size(es[..i]);
    GapRowsFit(es, i);
    forall n | start <= n < start + |e.result.requirements|
      ensures Flatten(es)[n] == RequirementRow(e.name, e.result, e.result.requirements[n - start])
    {
      var k := n - start;
      BlockRequirement(e, k);
      FlattenAt(es, i, k);
    }
  }

  /** The i-th characteristic's block ends within the rows. */
  lemma GapRowsFit(es: seq<Entry>, i: nat)
    requires i < |es|
    ensures Size(es[..i]) + |es[i].result.requirements| + |es[i].result.gaps| <= |Flatten(es)|
  {
    var e := es[i];
    if |e.result.gaps| > 0 {
      BlockGap(e, |e.result.gaps| - 1);
      FlattenAt(es, i, |e.result.requirements| + |e.result.gaps| - 1);
    } else if |e.result.requirements| > 0 {
      BlockRequirement(e, |e.result.requirements| - 1);
      FlattenAt(es, i, |e.result.requirements| - 1);
    } else {
      SizeOfPrefix(es, i);
    }
  }

  /** The i-th characteristic's gap rows come right after its requirement rows, in their order. */
  lemma GapRowsInOrder(es: seq<Entry>, i: nat)
    requires i < |es|
    ensures Size(es[..i]) + |es[i].result.requirements| + |es[i].result.gaps| <= |Flatten(es)|
    ensures var start := Size(es[..i]) + |es[i].result.requirements|;
      forall n | start <= n < start + |es[i].result.gaps| ::
        Flatten(es)[n] == GapRow(es[i].name, es[i].result, es[i].result.gaps[n - start])
  {
    var e := es[i];
    var start := Size(es[..i]) + |e.result.requirements|;
    GapRowsFit(es, i);
    forall n | start <= n < start + |e.result.gaps|
      ensures Flatten(es)[n] == GapRow(e.name, e.result, e.result.gaps[n - start])
    {
      var k := n - start;
      BlockGap(e, k);
      FlattenAt(es, i, |e.result.requirements| + k);
      assert Size(es[..i]) + (|e.result.requirements| + k) == n;
    }
  }

  /** Every row names one of the characteristics and carries that characteristic's coverage. */
  lemma {:induction false} RowsCarryCoverage(es: seq<Entry>, n: nat)
    requires n < |Flatten(es)|
    ensures exists i | 0 <= i < |es| ::
      Flatten(es)[n].characteristic == es[i].name && Flatten(es)[n].coverage == es[i].result.coverage
  {
    var b := |Block(es[0])|;
    if n < b {
      assert Flatten(es)[n] == Block(es[0])[n];
      assert Flatten(es)[n].characteristic == es[0].name && Flatten(es)[n].coverage == es[0].result.coverage;
    } else {
      RowsCarryCoverage(es[1..], n - b);
      var i :| 0 <= i < |es[1..]| && Flatten(es[1..])[n - b].characteristic == es[1..][i].name
        && Flatten(es[1..])[n - b].coverage == es[1..][i].result.coverage;
      assert Flatten(es)[n] == Flatten(es[1..])[n - b];
      assert es[1..][i] == es[i + 1];
    }
  }

  // ---------------------------------------------------------------------------
  // Summary consistency and the canned result
  // ---------------------------------------------------------------------------

  function SumCounts(es: seq<Entry>): int {
    if |es| == 0 then 0 else es[0].result.count + SumCounts(es[1..])
  }

  function SumGaps(es: seq<Entry>): nat {
    if |es| == 0 then 0 else |es[0].result.gaps| + SumGaps(es[1..])
  }

  /**
   * Each `count` is its number of requirements, the totals are the sums, and
   * the summary's coverage agrees with each characteristic's.
   */
  predicate Consistent(p: ParseResults) {
    (forall i | 0 <= i < |p.characteristics| :: p.characteristics[i].result.count == |p.characteristics[i].result.requirements|)
    && p.totalRequirements == SumCounts(p.characteristics)
    && p.totalGaps == SumGaps(p.characteristics)
    && (forall i | 0 <= i < |p.characteristics| ::
          p.characteristics[i].name in p.coverage && p.coverage[p.characteristics[i].name] == p.characteristics[i].result.coverage)
  }

  lemma {:induction false} SizeOfCounted(es: seq<Entry>)
    requires forall i | 0 <= i < |es| :: es[i].result.count == |es[i].result.requirements|
    ensures Size(es) == SumCounts(es) + SumGaps(es)
  {
    if |es| > 0 {
      assert es[0].result.count == |es[0].result.requirements|;
      SizeOfCounted(es[1..]);
    }
  }

  /** For a consistent result the spreadsheet has exactly `total_requirements + total_gaps` rows. */
  lemma ConsistentRowCount(p: ParseResults)
    requires Consistent(p)
    ensures SpreadsheetView(Some(p)) == Some(Flatten(p.characteristics))
    ensures |Flatten(p.characteristics)| == p.totalRequirements + p.totalGaps
  {
    SizeOfCounted(p.characteristics);
  }

  /** The `i`-th of `texts`, or the empty text past its end. */
  function TextAt(texts: seq<string>, i: nat): string {
    if i < |texts| then texts[i] else ""
  }

  /**
   * The canned result the screen shows when the parse request fails (its
   * metadata left out), with its twenty requirement texts and two gap texts
   * drawn from `texts`.
   */
  function MockWith(texts: seq<string>): ParseResults {
    ParseResults(
      [ Entry("Confidentiality", CharacteristicResult(
          [ Requirement(TextAt(texts, 0), "storage", "technology"),
            Requirement(TextAt(texts, 1), "processing", "policy"),
            Requirement(TextAt(texts, 2), "transmission", "technology"),
            Requirement(TextAt(texts, 3), "storage", "policy") ],
          [], 4, "Good")),
        Entry("Integrity", CharacteristicResult(
          [ Requirement(TextAt(texts, 4), "processing", "technology"),
            Requirement(TextAt(texts, 5), "processing", "technology"),
            Requirement(TextAt(texts, 6), "processing", "technology"),
            Requirement(TextAt(texts, 7), "storage", "technology") ],
          [], 4, "Good")),
        Entry("Availability", CharacteristicResult(
          [ Requirement(TextAt(texts, 8), "processing", "technology"),
            Requirement(TextAt(texts, 9), "processing", "technology"),
            Requirement(TextAt(texts, 10), "processing", "technology"),
            Requirement(TextAt(texts, 11), "processing", "technology") ],
          [], 4, "Good")),
        Entry("Human/Trust", CharacteristicResult(
          [ Requirement(TextAt(texts, 12), "processing", "technology"),
            Requirement(TextAt(texts, 13), "processing", "technology"),
            Requirement(TextAt(texts, 14), "processing", "training"),
            Requirement(TextAt(texts, 15), "processing", "technology") ],
          [GapNote(TextAt(texts, 20), "Human/Trust")], 4, "Good")),
        Entry("Authentication", CharacteristicResult(
          [ Requirement(TextAt(texts, 16), "processing", "technology"),
            Requirement(TextAt(texts, 17), "processing", "technology"),
            Requirement(TextAt(texts, 18), "storage", "policy"),
            Requirement(TextAt(texts, 19), "processing", "technology") ],
          [GapNote(TextAt(texts, 21), "Authentication")], 4, "Good")) ],
      20, 2,
      map["Confidentiality" := "Good", "Integrity" := "Good", "Availability" := "Good", "Human/Trust" := "Good", "Authentication" := "Good"])
  }

  /** The canned requirement texts, then the canned gap texts. */
  const MockTexts: seq<string> :=
    [ "Implement AES-256 encryption for all patient data",
      "Deploy RBAC with minimum privilege principle",
      "Use TLS 1.3 for all network communications",
      "Maintain audit logs for 7 years per HIPAA requirements",
      "Implement real-time parameter validation",
      "Deploy secure boot with firmware signature verification",
      "Perform automated calibration checks every 24 hours",
      "Use blockchain for immutable calibration logging",
      "Achieve 99.999% uptime (less than 5.26 minutes downtime/year)",
      "Implement N+1 redundancy for all critical components",
      "Provide 8-hour battery backup minimum",
      "Enable emergency ventilation mode within 2 seconds",
      "Implement intuitive UI with <3 clicks to any function",
      "Reduce false positive alarms by minimum 70%",
      "Provide built-in training mode with certification tracking",
      "Display confidence intervals for all measurements",
      "Implement two-factor authentication for all users",
      "Integrate with hospital LDAP/Active Directory",
      "Maintain tamper-proof audit logs for 7 years",
      "Enable emergency override with dual authentication",
      "Limited multilingual support",
      "No continuous authentication" ]

  /** The canned result itself. */
  function Mock(): ParseResults {
    MockWith(MockTexts)
  }

  /** The totals of five entries, written out. */
  lemma SumsOfFive(es: seq<Entry>)
    requires |es| == 5
    ensures SumCounts(es) == es[0].result.count + es[1].result.count + es[2].result.count + es[3].result.count + es[4].result.count
    ensures SumGaps(es) == |es[0].result.gaps| + |es[1].result.gaps| + |es[2].result.gaps| + |es[3].result.gaps| + |es[4].result.gaps|
  {
    assert es == es[0..];
    SumsFrom(es, 0);
    SumsFrom(es, 1);
    SumsFrom(es, 2);
    SumsFrom(es, 3);
    SumsFrom(es, 4);
  }

  /** One step of the totals, at position `k`. */
  lemma SumsFrom(es: seq<Entry>, k: nat)
    requires k < |es|
    ensures SumCounts(es[k..]) == es[k].result.count + SumCounts(es[k + 1..])
    ensures SumGaps(es[k..]) == |es[k].result.gaps| + SumGaps(es[k + 1..])
  {
    assert es[k..][1..] == es[k + 1..];
  }

  /**
   * The canned result is self-consistent whatever its texts, so its
   * spreadsheet has 20 + 2 rows.
   */
  lemma MockConsistent(texts: seq<string>)
    ensures Consistent(MockWith(texts))
    ensures |Flatten(MockWith(texts).characteristics)| == 22
  {
    SumsOfFive(MockWith(texts).characteristics);
    ConsistentRowCount(MockWith(texts));
  }

  // ---------------------------------------------------------------------------
  // `exportToCSV`
  // ---------------------------------------------------------------------------

  const Headers: seq<string> := ["Characteristic", "Requirement", "Information State", "Measure Type", "Gap", "Coverage"]

  /** `headers.join(',')`: the header line, written without quotes. */
  const HeaderLine: string := Join(Headers, ',')

  lemma HeaderHasNoNewline()
    ensures '\n' !in HeaderLine
  {
    assert '\n' !in Headers[0] && '\n' !in Headers[1] && '\n' !in Headers[2];
    assert '\n' !in Headers[3] && '\n' !in Headers[4] && '\n' !in Headers[5];
    JoinAvoids(Headers, ',', '\n');
  }

  /** Doubles each double quote, so a quoted field can be read back. */
  function Escape(s: string): (t: string)
    ensures forall c | c in t :: c in s
  {
    if |s| == 0 then ""
    else
      var rest := Escape(s[1..]);
      assert forall c | c in rest :: c in s by {
        assert forall c | c in s[1..] :: c in s;
      }
      (if s[0] == '"' then "\"\"" else [s[0]]) + rest
  }

  /**
   * A double-quoted cell. With `escape` false the text goes in as it is, as
   * the template literal writes it; with `escape` true quotes are doubled.
   */
  function Quoted(s: string, escape: bool): (q: string)
    ensures |q| >= 2 && q[0] == '"' && q[|q| - 1] == '"'
    ensures !escape ==> q[1..|q| - 1] == s
    ensures escape ==> ReadQuoted(q[1..]) == Some((s, ""))
  {
    var q := ['"'] + (if escape then Escape(s) else s) + ['"'];
    assert escape ==> ReadQuoted(q[1..]) == Some((s, "")) by {
      if escape {
        assert q[1..] == Escape(s) + ['"'] + "";
        ReadEscaped(s, "");
      }
    }
    q
  }

  function QuotedAll(fs: seq<string>, escape: bool): (qs: seq<string>)
    ensures |qs| == |fs|
  {
    seq(|fs|, i requires 0 <= i < |fs| => Quoted(fs[i], escape))
  }

  /** A row's line, without its newline. */
  function LineOf(r: Row, escape: bool): (l: string)
    ensures escape ==> DecodeLine(l) == Some(Fields(r))
  {
    assert escape ==> DecodeLine(Join(QuotedAll(Fields(r), escape), ',')) == Some(Fields(r)) by {
      if escape {
        DecodeQuoted(Fields(r));
      }
    }
    Join(QuotedAll(Fields(r), escape), ',')
  }

  /** The row lines, each followed by a newline. */
  function Lines(rows: seq<Row>, escape: bool): (t: string)
  {
    if |rows| == 0 then "" else LineOf(rows[0], escape) + "\n" + Lines(rows[1..], escape)
  }

  /** Every row line is followed by a newline, so the row text ends in one. */
  lemma {:induction false} LinesEndInNewline(rows: seq<Row>, escape: bool)
    requires |rows| > 0
    ensures var t := Lines(rows, escape); |t| > 0 && t[|t| - 1] == '\n'
  {
    if |rows| > 1 {
      LinesEndInNewline(rows[1..], escape);
    }
  }

  /** The exported text: the header line, then one line per row. */
  function CsvText(rows: seq<Row>, escape: bool): (t: string)
    ensures HeaderLine + "\n" <= t
    ensures t[|t| - 1] == '\n'
  {
    assert |rows| > 0 ==> |Lines(rows, escape)| > 0 && Lines(rows, escape)[|Lines(rows, escape)| - 1] == '\n' by {
      if |rows| > 0 {
        LinesEndInNewline(rows, escape);
      }
    }
    HeaderLine + "\n" + Lines(rows, escape)
  }

  /** `exportToCSV` on the view's rows; nothing is produced without a parse result. */
  function ExportCsv(results: Option<ParseResults>, escape: bool): (r: Option<string>)
    ensures r.None? <==> results.None?
    ensures r.Some? ==> r.value == CsvText(SpreadsheetView(results).value, escape)
  {
    match SpreadsheetView(results)
    case None => None
    case Some(rows) => Some(CsvText(rows, escape))
  }

  predicate NoNewline(r: Row) {
    forall i | 0 <= i < 6 :: '\n' !in Fields(r)[i]
  }

  lemma {:induction false} JoinAvoids(parts: seq<string>, sep: char, c: char)
    requires c != sep
    requires forall i | 0 <= i < |parts| :: c !in parts[i]
    ensures c !in Join(parts, sep)
  {
    if |parts| > 1 {
      JoinAvoids(parts[1..], sep, c);
    }
  }

  lemma LineHasNoNewline(r: Row, escape: bool)
    requires NoNewline(r)
    ensures '\n' !in LineOf(r, escape)
  {
    var qs := QuotedAll(Fields(r), escape);
    forall i | 0 <= i < 6 ensures '\n' !in qs[i] {
      assert '\n' !in Fields(r)[i];
    }
    JoinAvoids(qs, ',', '\n');
  }

  function LineSeq(rows: seq<Row>, escape: bool): (ls: seq<string>)
    ensures |ls| == |rows|
  {
    seq(|rows|, i requires 0 <= i < |rows| => LineOf(rows[i], escape))
  }

  lemma {:induction false} LinesAsJoin(rows: seq<Row>, escape: bool)
    ensures Join(LineSeq(rows, escape) + [""], '\n') == Lines(rows, escape)
  {
    if |rows| > 0 {
      LinesAsJoin(rows[1..], escape);
      var parts := LineSeq(rows, escape) + [""];
      assert parts[1..] == LineSeq(rows[1..], escape) + [""];
    }
  }

  /**
   * When no cell holds a newline, splitting the export at newlines gives the
   * header, then exactly one line per row in order, then the empty text after
   * the final newline.
   */
  lemma CsvLines(rows: seq<Row>, escape: bool)
    requires forall i | 0 <= i < |rows| :: NoNewline(rows[i])
    ensures Split(CsvText(rows, escape), '\n') == [HeaderLine] + LineSeq(rows, escape) + [""]
  {
    HeaderHasNoNewline();
    SplitHeadedLines(HeaderLine, rows, escape);
  }

  /** Splitting a newline-free first line and the row lines at newlines gives them back. */
  lemma SplitHeadedLines(head: string, rows: seq<Row>, escape: bool)
    requires '\n' !in head
    requires forall i | 0 <= i < |rows| :: NoNewline(rows[i])
    ensures Split(head + "\n" + Lines(rows, escape), '\n') == [head] + LineSeq(rows, escape) + [""]
  {
    var parts := [head] + LineSeq(rows, escape) + [""];
    HeadedLinesAsJoin(head, rows, escape);
    var lines := LineSeq(rows, escape);
    forall j | 0 <= j < |lines| ensures '\n' !in lines[j] {
      LineHasNoNewline(rows[j], escape);
    }
    assert forall p | p in parts :: '\n' !in p;
    SplitOfJoin(parts, '\n');
  }

  /** The exported text is its lines joined by newlines, with an empty last piece. */
  lemma CsvTextAsJoin(rows: seq<Row>, escape: bool)
    ensures Join([HeaderLine] + LineSeq(rows, escape) + [""], '\n') == CsvText(rows, escape)
  {
    HeadedLinesAsJoin(HeaderLine, rows, escape);
  }

  /** A first line, then the row lines, joined by newlines with an empty last piece. */
  lemma HeadedLinesAsJoin(head: string, rows: seq<Row>, escape: bool)
    ensures Join([head] + LineSeq(rows, escape) + [""], '\n') == head + "\n" + Lines(rows, escape)
  {
    var parts := [head] + LineSeq(rows, escape) + [""];
    LinesAsJoin(rows, escape);
    assert parts[1..] == LineSeq(rows, escape) + [""];
  }

  // ---------------------------------------------------------------------------
  // Reading a line back
  // ---------------------------------------------------------------------------

  /**
   * Reads a quoted cell's text up to its closing quote, a doubled quote
   * standing for one; returns the text and what follows the closing quote.
   */
  function ReadQuoted(s: string): (r: Option<(string, string)>)
    ensures r.Some? ==> |r.value.1| < |s|
    decreases |s|
  {
    if |s| == 0 then None
    else if s[0] == '"' then
      if |s| > 1 && s[1] == '"' then
        match ReadQuoted(s[2..])
        case Some((b, rest)) => Some((['"'] + b, rest))
        case None => None
      else Some(("", s[1..]))
    else
      match ReadQuoted(s[1..])
      case Some((b, rest)) => Some(([s[0]] + b, rest))
      case None => None
  }

  /** Reads a line of comma-separated quoted cells. */
  function DecodeLine(s: string): Option<seq<string>>
    decreases |s|
  {
    if |s| == 0 || s[0] != '"' then None
    else
      match ReadQuoted(s[1..])
      case None => None
      case Some((f, rest)) =>
        if |rest| == 0 then Some([f])
        else if rest[0] == ',' then
          match DecodeLine(rest[1..])
          case Some(fs) => Some([f] + fs)
          case None => None
        else None
  }

  lemma {:induction false} ReadEscaped(x: string, rest: string)
    requires |rest| == 0 || rest[0] != '"'
    ensures ReadQuoted(Escape(x) + ['"'] + rest) == Some((x, rest))
  {
    var s := Escape(x) + ['"'] + rest;
    if |x| == 0 {
      assert s == ['"'] + rest;
      assert s[1..] == rest;
    } else {
      ReadEscaped(x[1..], rest);
      if x[0] == '"' {
        assert s == "\"\"" + (Escape(x[1..]) + ['"'] + rest);
        assert s[2..] == Escape(x[1..]) + ['"'] + rest;
      } else {
        assert s == [x[0]] + (Escape(x[1..]) + ['"'] + rest);
        assert s[1..] == Escape(x[1..]) + ['"'] + rest;
      }
      assert [x[0]] + x[1..] == x;
    }
  }

  /** Escaped quoting can be read back: decoding a joined line gives the cells. */
  lemma {:induction false} DecodeQuoted(fs: seq<string>)
    requires |fs| >= 1
    ensures DecodeLine(Join(QuotedAll(fs, true), ',')) == Some(fs)
  {
    var qs := QuotedAll(fs, true);
    if |fs| == 1 {
      var s := Join(qs, ',');
      assert s == ['"'] + (Escape(fs[0]) + ['"'] + "");
      assert s[1..] == Escape(fs[0]) + ['"'] + "";
      ReadEscaped(fs[0], "");
      assert [fs[0]] == fs;
    } else {
      DecodeQuoted(fs[1..]);
      assert qs[1..] == QuotedAll(fs[1..], true);
      var tail := Join(qs[1..], ',');
      assert Join(qs, ',') == ['"'] + (Escape(fs[0]) + ['"'] + ([','] + tail));
      ReadEscaped(fs[0], [','] + tail);
      assert ([','] + tail)[1..] == tail;
      assert [fs[0]] + fs[1..] == fs;
    }
  }

  /** With escaping, each exported line reads back as its row's six cells, so distinct rows give distinct lines. */
  lemma EscapedLineRoundTrip(a: Row, b: Row)
    ensures DecodeLine(LineOf(a, true)) == Some(Fields(a))
    ensures LineOf(a, true) == LineOf(b, true) ==> a == b
  {
    DecodeQuoted(Fields(a));
    DecodeQuoted(Fields(b));
    FieldsInjective(a, b);
  }

  /** Two lists whose first two parts join alike and whose rest agree join alike. */
  lemma JoinSameHead(qa: seq<string>, qb: seq<string>, sep: char)
    requires |qa| >= 3 && |qb| >= 3 && qa[2..] == qb[2..]
    requires qa[0] + [sep] + qa[1] == qb[0] + [sep] + qb[1]
    ensures Join(qa, sep) == Join(qb, sep)
  {
    assert qa[1..][1..] == qa[2..] && qb[1..][1..] == qb[2..];
    var tail := Join(qa[2..], sep);
    assert Join(qa, sep) == qa[0] + [sep] + (qa[1] + [sep] + tail);
    assert Join(qb, sep) == qb[0] + [sep] + (qb[1] + [sep] + tail);
    assert Join(qa, sep) == (qa[0] + [sep] + qa[1]) + [sep] + tail;
    assert Join(qb, sep) == (qb[0] + [sep] + qb[1]) + [sep] + tail;
  }

  /**
   * As written, a quote inside a cell is not escaped, so two different rows
   * can be exported as the same line.
   */
  lemma AsWrittenLinesCollide()
    ensures var a := Row("a\",\"b", "c", "", "", "", "Good");
      var b := Row("a", "b\",\"c", "", "", "", "Good");
      a != b && LineOf(a, false) == LineOf(b, false)
  {
    var a := Row("a\",\"b", "c", "", "", "", "Good");
    var b := Row("a", "b\",\"c", "", "", "", "Good");
    var qa := QuotedAll(Fields(a), false);
    var qb := QuotedAll(Fields(b), false);
    assert qa[2..] == qb[2..];
    assert qa[0] == "\"a\",\"b\"" && qa[1] == "\"c\"";
    assert qb[0] == "\"a\"" && qb[1] == "\"b\",\"c\"";
    assert qa[0] + [','] + qa[1] == qb[0] + [','] + qb[1];
    JoinSameHead(qa, qb, ',');
    assert a.characteristic != b.characteristic by {
      assert |a.characteristic| != |b.characteristic|;
    }
  }
}

=== FILE: text.dfy ===
/**
 * String primitives the front end, the server and the Python scripts rely on,
 * written out with the host language's semantics: JavaScript `String(n)`,
 * `Number(s)`, `parseInt(s)`, `split`/`join` and `trim`, Python `str.lower`,
 * `str.strip` and the `in` substring test.
 */
module Text {
  import opened Base

  // ---------------------------------------------------------------------------
  // Digits
  // ---------------------------------------------------------------------------

  /** Value of `c` as a digit in any radix up to 36; 36 when `c` is no digit at all. */
  function DigitValue(c: char): nat {
    if '0' <= c <= '9' then c as nat - '0' as nat
    else if 'a' <= c <= 'z' then c as nat - 'a' as nat + 10
    else if 'A' <= c <= 'Z' then c as nat - 'A' as nat + 10
    else 36
  }

  predicate IsRadixDigit(c: char, radix: nat) {
    DigitValue(c) < radix
  }

  predicate IsDigit(c: char) {
    '0' <= c <= '9'
  }

  predicate AllRadixDigits(s: string, radix: nat) {
    forall i | 0 <= i < |s| :: IsRadixDigit(s[i], radix)
  }

  /** The number a string of radix digits denotes, most significant digit first. */
  function DigitsValue(s: string, radix: nat): nat
    requires AllRadixDigits(s, radix)
  {
    if |s| == 0 then 0
    else DigitsValue(s[..|s| - 1], radix) * radix + DigitValue(s[|s| - 1])
  }

  function DigitChar(d: nat): (c: char)
    requires d < 10
    ensures IsDigit(c) && DigitValue(c) == d
  {
    ('0' as nat + d) as char
  }

  // ---------------------------------------------------------------------------
  // Rendering integers (`String(n)` in JavaScript, `str(n)` / f-strings in Python)
  // ---------------------------------------------------------------------------

  function NatToString(n: nat): (s: string)
    ensures |s| >= 1
    ensures forall i | 0 <= i < |s| :: IsDigit(s[i])
    ensures s[0] == '0' ==> n == 0 && |s| == 1
  {
    if n < 10 then [DigitChar(n)] else NatToString(n / 10) + [DigitChar(n % 10)]
  }

  /** Decimal rendering of an integer: a minus sign for negatives, no leading zeros. */
  function IntToString(n: int): (s: string)
    ensures |s| >= 1
    ensures forall i | 0 <= i < |s| :: IsDigit(s[i]) || (i == 0 && s[i] == '-')
  {
    if n < 0 then "-" + NatToString(-n) else NatToString(n)
  }

  lemma {:induction false} DigitsAreDecimal(s: string)
    requires forall i | 0 <= i < |s| :: IsDigit(s[i])
    ensures AllRadixDigits(s, 10)
  {
  }

  /** Reading back the digits `NatToString` writes yields the number written. */
  lemma {:induction false} NatToStringValue(n: nat)
    ensures AllRadixDigits(NatToString(n), 10)
    ensures DigitsValue(NatToString(n), 10) == n
  {
    var s := NatToString(n);
    DigitsAreDecimal(s);
    if n >= 10 {
      NatToStringValue(n / 10);
      assert s[..|s| - 1] == NatToString(n / 10);
    }
  }

  // ---------------------------------------------------------------------------
  // `Number(s)`
  // ---------------------------------------------------------------------------

  /**
   * JavaScript `Number(s)` restricted to the integer forms the program feeds it:
   * the empty string is 0, an optional sign followed by decimal digits is that
   * integer; every other string is read as NaN (`None`).
   */
  function Number(s: string): (r: Option<int>)
    ensures s != "" && s[0] != '-' && s[0] != '+' && !AllRadixDigits(s, 10) ==> r == None
    ensures s == "" ==> r == Some(0)
    ensures r.Some? && r.value < 0 ==> s[0] == '-'
  {
    if s == "" then Some(0)
    else if s[0] == '-' || s[0] == '+' then
      var body := s[1..];
      if |body| > 0 && AllRadixDigits(body, 10) then
        var v: int := DigitsValue(body, 10);
        Some(if s[0] == '-' then -v else v)
      else None
    else if AllRadixDigits(s, 10) then Some(DigitsValue(s, 10))
    else None
  }

  /** `Number(String(n)) === n` for every integer. */
  lemma {:induction false} NumberOfIntToString(n: int)
    ensures Number(IntToString(n)) == Some(n)
  {
    if n < 0 {
      NatToStringValue(-n);
      assert IntToString(n)[1..] == NatToString(-n);
    } else {
      NatToStringValue(n);
    }
  }

  // ---------------------------------------------------------------------------
  // The `%` operator of JavaScript
  // ---------------------------------------------------------------------------

  /** `Math.abs` on integers. */
  function Abs(n: int): nat {
    if n < 0 then -n else n
  }

  /** The quotient of `a / b` truncated toward zero, as JavaScript's `%` uses it. */
  function JsQuot(a: int, b: int): int
    requires b > 0
  {
    if a >= 0 then a / b else -((-a) / b)
  }

  /**
   * JavaScript `a % b` for a positive divisor: the remainder of the division
   * truncated toward zero, so it takes the sign of `a` (Dafny's `%` never goes
   * negative).
   */
  function JsRem(a: int, b: int): (r: int)
    requires b > 0
    ensures a == JsQuot(a, b) * b + r
    ensures a >= 0 ==> 0 <= r < b
    ensures a < 0 ==> -b < r <= 0
  {
    if a >= 0 then a % b else -((-a) % b)
  }

  /** `a % 2 === 0` in JavaScript exactly when `a` is even. */
  lemma JsRemEven(a: int)
    ensures JsRem(a, 2) == 0 <==> a % 2 == 0
  {
  }

  /** `a % 3 === 0` in JavaScript exactly when 3 divides `a`. */
  lemma JsRemThree(a: int)
    ensures JsRem(a, 3) == 0 <==> a % 3 == 0
  {
  }

  // ---------------------------------------------------------------------------
  // `parseInt(s)` (no radix argument)
  // ---------------------------------------------------------------------------

  /** Characters JavaScript's `trim` and `parseInt` treat as white space or line terminators. */
  predicate IsJsSpace(c: char) {
    c == '\t' || c == '\n' || c == '\U{000B}' || c == '\U{000C}' || c == '\r' || c == ' '
    || c == '\U{00A0}' || c == '\U{1680}' || ('\U{2000}' <= c <= '\U{200A}')
    || c == '\U{2028}' || c == '\U{2029}' || c == '\U{202F}' || c == '\U{205F}'
    || c == '\U{3000}' || c == '\U{FEFF}'
  }

  /** `s.trim()` is the empty string, so `s.trim()` is falsy. */
  predicate IsBlank(s: string) {
    forall i | 0 <= i < |s| :: IsJsSpace(s[i])
  }

  function TrimStartJs(s: string): (t: string)
    ensures |t| <= |s| && t == s[|s| - |t|..]
    ensures IsBlank(s[..|s| - |t|])
    ensures |t| == 0 || !IsJsSpace(t[0])
  {
    if |s| > 0 && IsJsSpace(s[0]) then TrimStartJs(s[1..]) else s
  }

  /** The longest prefix of `s` made of radix digits. */
  function DigitPrefix(s: string, radix: nat): (z: string)
    ensures |z| <= |s| && z == s[..|z|]
    ensures AllRadixDigits(z, radix)
    ensures |z| == |s| || !IsRadixDigit(s[|z|], radix)
  {
    if |s| > 0 && IsRadixDigit(s[0], radix) then [s[0]] + DigitPrefix(s[1..], radix) else []
  }

  /**
   * The digits after the sign: hexadecimal after a `0x`/`0X` prefix, decimal
   * otherwise, up to the first character that is not a digit; no digit at all
   * is NaN (`None`).
   */
  function ParseMagnitude(u: string): Option<nat> {
    var hex := |u| >= 2 && u[0] == '0' && (u[1] == 'x' || u[1] == 'X');
    var radix := if hex then 16 else 10;
    var digits := DigitPrefix(if hex then u[2..] else u, radix);
    if |digits| == 0 then None else Some(DigitsValue(digits, radix))
  }

  /**
   * JavaScript `parseInt(s)`: skip leading white space, take one optional
   * sign, then read the magnitude.
   */
  function ParseInt(s: string): (r: Option<int>)
    ensures |s| > 0 && '1' <= s[0] <= '9' ==> r.Some? && r.value >= 0
    ensures r.Some? && r.value < 0 ==> '-' in s
  {
    var t := TrimStartJs(s);
    assert |s| > 0 && '1' <= s[0] <= '9' ==> ParseMagnitude(t).Some? by {
      if |s| > 0 && '1' <= s[0] <= '9' {
        TrimKeepsSignOrDigit(s);
        MagnitudeOfDigitStart(s);
      }
    }
    assert |t| > 0 && t[0] == '-' ==> '-' in s by {
      if |t| > 0 { assert t[0] == s[|s| - |t|]; }
    }
    var negative := |t| > 0 && t[0] == '-';
    var u := if |t| > 0 && (t[0] == '-' || t[0] == '+') then t[1..] else t;
    match ParseMagnitude(u)
    case None => None
    case Some(v) => Some(if negative then -(v as int) else v)
  }

  /** A text starting with a decimal digit other than 0 has a decimal magnitude. */
  lemma MagnitudeOfDigitStart(u: string)
    requires |u| > 0 && '1' <= u[0] <= '9'
    ensures ParseMagnitude(u).Some?
  {
    assert IsRadixDigit(u[0], 10);
  }

  lemma {:induction false} DigitPrefixOfDigits(s: string, radix: nat)
    requires AllRadixDigits(s, radix)
    ensures DigitPrefix(s, radix) == s
  {
    if |s| > 0 {
      DigitPrefixOfDigits(s[1..], radix);
    }
  }

  /** Decimal digits without a leading zero are read as their value. */
  lemma ParseMagnitudeOfDigits(digits: string)
    requires |digits| >= 1 && AllRadixDigits(digits, 10)
    requires digits[0] == '0' ==> |digits| == 1
    ensures ParseMagnitude(digits) == Some(DigitsValue(digits, 10))
  {
    DigitPrefixOfDigits(digits, 10);
  }

  /** A magnitude that starts with a digit is read as it is, and negated after a minus sign. */
  lemma ParseIntOfMagnitude(u: string, m: nat)
    requires |u| >= 1 && DigitValue(u[0]) < 10 && ParseMagnitude(u) == Some(m)
    ensures ParseInt(u) == Some(m)
    ensures ParseInt("-" + u) == Some(-(m as int))
  {
    TrimKeepsSignOrDigit(u);
    TrimKeepsSignOrDigit("-" + u);
    assert ("-" + u)[1..] == u;
  }

  /** `trim` keeps a text that starts with a sign or a digit. */
  lemma TrimKeepsSignOrDigit(s: string)
    requires |s| > 0 && (s[0] == '-' || DigitValue(s[0]) < 10)
    ensures TrimStartJs(s) == s
  {
    assert !IsJsSpace(s[0]);
  }

  /** `parseInt(String(n)) === n`: an integer a cell shows is read back unchanged. */
  lemma ParseIntOfIntToString(n: int)
    ensures ParseInt(IntToString(n)) == Some(n)
  {
    var m: nat := if n < 0 then -n else n;
    var digits := NatToString(m);
    NatToStringValue(m);
    ParseMagnitudeOfDigits(digits);
    ParseIntOfMagnitude(digits, m);
  }

  // ---------------------------------------------------------------------------
  // `split(',')` and `join(',')`
  // ---------------------------------------------------------------------------

  /** `parts.join(sep)`: the parts in order, one separator between each two. */
  function Join(parts: seq<string>, sep: char): (t: string)
    ensures |parts| > 0 ==> parts[0] <= t
  {
    if |parts| == 0 then ""
    else if |parts| == 1 then parts[0]
    else parts[0] + [sep] + Join(parts[1..], sep)
  }

  /** `s.split(sep)`: the maximal separator-free pieces, empty pieces included. */
  function Split(s: string, sep: char): (parts: seq<string>)
    ensures |parts| >= 1
    ensures forall i | 0 <= i < |parts| :: sep !in parts[i]
  {
    if |s| == 0 then [""]
    else
      var rest := Split(s[1..], sep);
      if s[0] == sep then [""] + rest
      else [[s[0]] + rest[0]] + rest[1..]
  }

  /** Splitting and re-joining gives back the original string. */
  lemma {:induction false} JoinOfSplit(s: string, sep: char)
    ensures Join(Split(s, sep), sep) == s
  {
    if |s| > 0 {
      var rest := Split(s[1..], sep);
      JoinOfSplit(s[1..], sep);
      if s[0] == sep {
        assert Split(s, sep) == [""] + rest;
      } else {
        var parts := Split(s, sep);
        assert parts == [[s[0]] + rest[0]] + rest[1..];
        if |rest| == 1 {
          assert Join(parts, sep) == [s[0]] + rest[0];
        } else {
          assert parts[1..] == rest[1..];
          assert Join(rest, sep) == rest[0] + [sep] + Join(rest[1..], sep);
        }
      }
    }
  }

  lemma {:induction false} SplitNoSeparator(a: string, sep: char)
    requires sep !in a
    ensures Split(a, sep) == [a]
  {
    if |a| > 0 {
      assert a[0] != sep && sep !in a[1..] by {
        assert a[0] in a;
        forall c | c in a[1..] ensures c in a { }
      }
      SplitNoSeparator(a[1..], sep);
      assert [a[0]] + a[1..] == a;
    }
  }

  lemma {:induction false} SplitAtSeparator(a: string, b: string, sep: char)
    requires sep !in a
    ensures Split(a + [sep] + b, sep) == [a] + Split(b, sep)
  {
    if |a| == 0 {
      assert a + [sep] + b == [sep] + b;
      assert ([sep] + b)[1..] == b;
    } else {
      assert a[0] != sep && sep !in a[1..] by {
        assert a[0] in a;
        forall c | c in a[1..] ensures c in a { }
      }
      SplitAtSeparator(a[1..], b, sep);
      var s := a + [sep] + b;
      assert s[0] == a[0];
      assert s[1..] == a[1..] + [sep] + b;
      assert [a[0]] + a[1..] == a;
    }
  }

  /** Joining separator-free pieces and splitting again gives back the pieces. */
  lemma {:induction false} SplitOfJoin(parts: seq<string>, sep: char)
    requires |parts| >= 1
    requires forall i | 0 <= i < |parts| :: sep !in parts[i]
    ensures Split(Join(parts, sep), sep) == parts
  {
    if |parts| == 1 {
      SplitNoSeparator(parts[0], sep);
    } else {
      SplitOfJoin(parts[1..], sep);
      SplitAtSeparator(parts[0], Join(parts[1..], sep), sep);
    }
  }

  // ---------------------------------------------------------------------------
  // Python `str.lower`, `str.strip` and `p in s`
  // ---------------------------------------------------------------------------

  predicate IsUpper(c: char) {
    'A' <= c <= 'Z'
  }

  function LowerChar(c: char): (d: char)
    ensures !IsUpper(d)
    ensures !IsUpper(c) ==> d == c
  {
    if IsUpper(c) then (c as int + 32) as char else c
  }

  /** `s.lower()` on the ASCII letters. */
  function Lower(s: string): (t: string)
    ensures |t| == |s|
    ensures forall i | 0 <= i < |s| :: t[i] == LowerChar(s[i])
  {
    seq(|s|, i requires 0 <= i < |s| => LowerChar(s[i]))
  }

  /** Python's `p in s` on strings: `p` occurs as a contiguous substring of `s`. */
  predicate Occurs(p: string, s: string) {
    exists i | 0 <= i <= |s| :: p <= s[i..]
  }

  /** Some character of `s` is an upper-case letter. */
  predicate HasUpper(s: string) {
    exists c | c in s :: IsUpper(c)
  }

  /** A keyword with an upper-case letter never occurs in a lower-cased text. */
  lemma UpperNeverOccursInLower(p: string, s: string)
    requires HasUpper(p)
    ensures !Occurs(p, Lower(s))
  {
    var t := Lower(s);
    var c :| c in p && IsUpper(c);
    var j :| 0 <= j < |p| && p[j] == c;
    forall i | 0 <= i <= |t|
      ensures !(p <= t[i..])
    {
      assert |p| > |t[i..]| || t[i..][j] != p[j];
    }
  }

  /** Characters `str.isspace` accepts, so `str.strip()` removes. */
  predicate IsPySpace(c: char) {
    ('\t' <= c <= '\r') || ('\U{001C}' <= c <= ' ') || c == '\U{0085}' || c == '\U{00A0}'
    || c == '\U{1680}' || ('\U{2000}' <= c <= '\U{200A}') || c == '\U{2028}' || c == '\U{2029}'
    || c == '\U{202F}' || c == '\U{205F}' || c == '\U{3000}'
  }

  predicate AllPySpace(s: string) {
    forall i | 0 <= i < |s| :: IsPySpace(s[i])
  }

  function StripStart(s: string): (t: string)
    ensures |t| <= |s| && t == s[|s| - |t|..]
    ensures AllPySpace(s[..|s| - |t|])
    ensures |t| == 0 || !IsPySpace(t[0])
  {
    if |s| > 0 && IsPySpace(s[0]) then StripStart(s[1..]) else s
  }

  function StripEnd(s: string): (t: string)
    ensures |t| <= |s| && t == s[..|t|]
    ensures AllPySpace(s[|t|..])
    ensures |t| == 0 || !IsPySpace(t[|t| - 1])
  {
    if |s| > 0 && IsPySpace(s[|s| - 1]) then StripEnd(s[..|s| - 1]) else s
  }

  /** `s.strip()`: the result neither starts nor ends with white space. */
  function Strip(s: string): (t: string)
    ensures |t| <= |s|
    ensures |t| == 0 || (!IsPySpace(t[0]) && !IsPySpace(t[|t| - 1]))
  {
    var u := StripStart(s);
    var t := StripEnd(u);
    assert |t| > 0 ==> t[0] == u[0];
    t
  }

  /** `t` is `s` with `k` white-space characters cut from the front and white space cut from the back. */
  predicate CutsSpace(s: string, t: string, k: nat) {
    k + |t| <= |s| && t == s[k..k + |t|] && AllPySpace(s[..k]) && AllPySpace(s[k + |t|..])
  }

  /** What `Strip` cuts off is a white-space prefix and a white-space suffix. */
  lemma StripCutsSpace(s: string)
    ensures exists k: nat :: CutsSpace(s, Strip(s), k)
  {
    var u := StripStart(s);
    var t := StripEnd(u);
    var k := |s| - |u|;
    SlicesOfSuffix(s, k, |t|);
    assert s[k + |t|..] == u[|t|..];
    assert CutsSpace(s, t, k);
    assert Strip(s) == t;
  }

  /** Slicing a suffix `s[k..]` is slicing `s` from `k` on. */
  lemma SlicesOfSuffix(s: string, k: nat, n: nat)
    requires k + n <= |s|
    ensures s[k..][..n] == s[k..k + n] && s[k..][n..] == s[k + n..]
  {
  }
}

=== FILE: vocabulary.dfy ===
/**
 * The fixed vocabulary shared by the server, the Python scripts and the front
 * end: the five security characteristics, the five assessment levels and the
 * two ventilator vendors.
 */
module Vocabulary {
  import opened Base

  /** The five security characteristics, in the order every table of the program lists them. */
  datatype Characteristic = Confidentiality | Integrity | Availability | HumanTrust | Authentication {
    function Name(): string {
      match this
      case Confidentiality => "Confidentiality"
      case Integrity => "Integrity"
      case Availability => "Availability"
      case HumanTrust => "Human/Trust"
      case Authentication => "Authentication"
    }

    /** Position in the declaration order, 0 to 4. */
    function Index(): nat {
      match this
      case Confidentiality => 0
      case Integrity => 1
      case Availability => 2
      case HumanTrust => 3
      case Authentication => 4
    }
  }

  const AllCharacteristics: seq<Characteristic> :=
    [Confidentiality, Integrity, Availability, HumanTrust, Authentication]

  /** The table lists each characteristic at its own index. */
  lemma AllCharacteristicsIndexed()
    ensures |AllCharacteristics| == 5
    ensures forall i | 0 <= i < 5 :: AllCharacteristics[i].Index() == i
  {
  }

  /** The characteristic a display name denotes, if any. */
  function CharacteristicNamed(name: string): (r: Option<Characteristic>)
    ensures r.Some? ==> r.value.Name() == name
    ensures forall c: Characteristic :: c.Name() == name ==> r == Some(c)
  {
    if name == "Confidentiality" then Some(Confidentiality)
    else if name == "Integrity" then Some(Integrity)
    else if name == "Availability" then Some(Availability)
    else if name == "Human/Trust" then Some(HumanTrust)
    else if name == "Authentication" then Some(Authentication)
    else None
  }

  /** The five assessment levels, lowest first. */
  datatype Level = VeryLow | Low | Medium | High | VeryHigh {
    function Name(): string {
      match this
      case VeryLow => "Very Low"
      case Low => "Low"
      case Medium => "Medium"
      case High => "High"
      case VeryHigh => "Very High"
    }

    /** Rank from 1 (Very Low) to 5 (Very High). */
    function Rank(): nat {
      match this
      case VeryLow => 1
      case Low => 2
      case Medium => 3
      case High => 4
      case VeryHigh => 5
    }
  }

  /** The level a stored `level` string denotes; any other string denotes none. */
  function LevelNamed(name: string): (r: Option<Level>)
    ensures r.Some? ==> r.value.Name() == name
    ensures forall l: Level :: l.Name() == name ==> r == Some(l)
  {
    if name == "Very Low" then Some(VeryLow)
    else if name == "Low" then Some(Low)
    else if name == "Medium" then Some(Medium)
    else if name == "High" then Some(High)
    else if name == "Very High" then Some(VeryHigh)
    else None
  }

  /** The two ventilator vendors with their own data files. */
  datatype Vendor = Philips | Drager {
    function Id(): string {
      match this
      case Philips => "philips"
      case Drager => "drager"
    }
  }
}
